=== FILE: README.md ===
# dzmkii terrain core in Dafny

This project models the logic at the heart of the dzmkii game engine and
proves properties about that model:

- the chunked terrain map: chunk-origin snapping, tile indexing, chunk
  creation and lookup, and the 3 x 3 window of visible chunks;
- the fog-of-war painting in `Terrain::updateLOS` and the per-tick decay in
  `GameSystem::LOS`;
- the geometry helpers these rely on: `v2`/`v3` arithmetic and ordering,
  `AARect2D::getIntersectingRect` and `AARect2D::collidesWith`;
- chunk generation with the noise and `rand()` draws taken as inputs:
  material banding, weighted biome choice, mesh index construction and the
  biome labelling of the Voronoi seed points;
- the unused `KDTree`: insertion and the bounded `find_n_closest` query;
- the smaller pure pieces: the `Vertex` record, the camera's move and zoom,
  the terminal character buffer `DZTermRenderer`, the pixel-format
  conversion in `AssetManager::getTexture`, the `TextureData` copy, and the
  click/double-click state machine in `InputState::update`.

Floats are modelled as exact `real`s. `sqrt` is never computed. Executable
members compare squared distances, and lemmas relate them to the source's
`sqrt`-based tests through `IsSqrt(x, m)`, which says that `m` is the
non-negative root of `x`. `ExtReal` is an extended-real type with IEEE
comparison semantics. It is used where the source's control flow depends
on infinities and NaN: the biome weights `8.0 / 0` and the `+INFINITY`
bounds of the KD-tree. One other IEEE special value is not carried as a
value: normalising the zero vector in `calculateTangentAndBitangent` gives
a NaN tangent frame, which the model returns as `None`. Perlin noise and `rand()` draws are functions
passed as parameters. The generator of a whole chunk is a parameter
`gen: V2 -> Chunk` where chunks are created. C++ undefined behaviour is
modelled with `Result.Undefined`. This covers reading an uninitialised
`visible` slot and `top()` of an empty priority queue.

The modules follow the source files: `Geometry` (include/geometry.h),
`TerrainGrid`, `LineOfSight`, `ChunkMaterial`, `BiomeSelect`, `ChunkGen`,
`BiomeLabels` and `KDTree` (src/terrain.cpp), `Systems` (src/systems.cpp),
`CameraModel` (src/camera.cpp), `Meshes` (src/mesh.cpp and
`genMeshFromTiles` in src/terrain.cpp), `Vertices` (src/vertex.cpp),
`TermRenderer` (src/term_renderer.cpp), `Textures` (src/asset.cpp and
src/texture.cpp) and `Input` (include/input.h). `Common`, `RealArith` and
`ExtReal` hold the shared types and arithmetic facts.

Where include/terrain.h and src/terrain.cpp disagree, the model follows the
`.cpp`. `TILES_PER_SIDE` is 64 (include/terrain.h:14). A chunk has 64 x 64
material and LOS bytes (include/terrain.h:37-38). The upload block holds
nine chunks' worth of each (include/terrain.h:28-32).

## Model

| member | source | states |
|---|---|---|
| Geometry.AddSubInverse | include/geometry.h:33-41 | `+` and `-` are componentwise, so (a + b) - b == a, (a - b) + b == a, and `+` commutes |
| Geometry.DistanceProperties | include/geometry.h:15-23 | the squared distance is symmetric, never negative, and zero exactly on equal points |
| Geometry.SqrtCompare | include/geometry.h:15-18 | comparing the root `m` of x with r (≤ and <) is the same as comparing x with r², for r ≥ 0 |
| Geometry.LessIsStrictTotalOrder | include/geometry.h:25-31 | v2 `<` (x first, then y) is irreflexive and transitive, and exactly one of a<b, b<a holds for distinct points |
| Geometry.Less3IgnoresY | include/geometry.h:71-78 | v3 `<` looks only at x and z: two points differing only in y are mutually not-less yet distinct |
| Geometry.WithinRadiusIsDistanceTest | include/geometry.h:146 | the squared-distance test agrees with `distanceFrom(c) <= radius` for the true root |
| Geometry.BoundingRect | src/terrain.cpp:643-652 | the square `los_rect` around a circle has non-negative sides for radius ≥ 0 and is centred on the circle |
| Geometry.IntersectionSymmetric | include/geometry.h:163-184 | getIntersectingRect(a, b) == getIntersectingRect(b, a) for all rectangles |
| Geometry.AxisMiddleEdges | include/geometry.h:165-184 | per axis the result spans the middle two of the four edges: the overlap when the spans overlap, the gap when they are separated |
| Geometry.Overlap | include/geometry.h:163-195 | corrected intersection: when some it returns, its centre lies inside both rectangles |
| Geometry.OverlapIsIntersection | include/geometry.h:163-195 | a point is in the corrected result exactly when it is in both closed rectangles; with no result, no point is inside both open rectangles |
| Geometry.IntersectionOfOverlapping | include/geometry.h:163-195 | when the closed rectangles overlap, getIntersectingRect equals the true overlap |
| Geometry.SelfIntersection | include/geometry.h:163-195 | A ∩ A is A itself when both sides are positive |
| Geometry.EdgeTouchingHasNoIntersection | include/geometry.h:163-192 | rectangles touching along an edge give nullopt: right edge on left edge, either way round, or top edge on bottom edge, either way round, leaves width or height ≤ 0 |
| Geometry.SeparatedRectanglesGiveGap | include/geometry.h:163-195 | as written: horizontally separated rectangles give the gap rectangle between them, while the true overlap is empty |
| Geometry.DisjointSquaresIntersectInTheGap | include/geometry.h:163-195 | as written: unit squares at x = 0 and x = 2 "intersect" in [1, 2] x [0, 1], whose centre lies in neither |
| Geometry.CollidesWith | include/geometry.h:139-161 | true whenever the rect centre lies within the radius, which is the first branch |
| Geometry.CollidesWithAgrees | include/geometry.h:139-161 | the sqrt-free test equals the source's test written with the magnitude m, for every true root m |
| Geometry.CollisionNeverDividesByZero | include/geometry.h:146-150 | for radius ≥ 0 the normalising division is reached only at a positive distance |
| Geometry.EdgeTestsAgree | include/geometry.h:149-158 | the sqrt-free edge tests equal "closest_to_center lies in the closed rect" |
| Geometry.CollisionSoundness | include/geometry.h:149-160 | when the second branch answers true, the point at distance radius towards the rect centre lies in the closed rect |
| Geometry.CollisionImpliesOverlap | src/terrain.cpp:643-668 | a colliding chunk rectangle overlaps the circle's bounding square in closed form |
| Geometry.GuardedIntersectionIsOverlap | src/terrain.cpp:668-670 | behind the collision guard, getIntersectingRect(los_rect, chunk_rect) is the genuine overlap |
| Common.TruncToInt | src/terrain.cpp:575-576 | the float-to-int conversion truncates toward zero (on unbounded `int`; the 32-bit range is stated by TerrainGrid.OriginIntRange) |
| TerrainGrid.CellBounds | src/terrain.cpp:575 | floor(x / cs) * cs ≤ x < (floor(x / cs) + 1) * cs |
| TerrainGrid.AxisOrigin | src/terrain.cpp:575-581 | one coordinate of getChunkOriginFromPos is the multiple of cs at or below x, within cs of x |
| TerrainGrid.Origin | src/terrain.cpp:571-584 | getChunkOriginFromPos: origin ≤ p < origin + cs on each axis |
| TerrainGrid.OriginIntRange | src/terrain.cpp:573-576 | the `int` conversion is defined for a coordinate at least one chunk above -2³¹ and below 2³¹, and undefined below -2³¹ or at least one chunk above 2³¹ |
| TerrainGrid.OriginIdempotent | src/terrain.cpp:571-584 | the origin is a multiple of cs on both axes, and snapping it again returns it |
| TerrainGrid.SameOriginIffSameCell | src/terrain.cpp:571-584 | p snaps to o exactly when p lies in the half-open cell [o, o + cs)² |
| TerrainGrid.CreateChunk | src/terrain.cpp:586-606 | afterwards the origin is present; an existing origin leaves the terrain unchanged; otherwise exactly that key is added, holding gen(origin), and no other entry changes |
| TerrainGrid.GetChunkFromPos | src/terrain.cpp:608-618 | finds a chunk exactly when the origin of pos is a key; the chunk found contains pos |
| TerrainGrid.CreateThenGet | src/terrain.cpp:586-618 | after createChunk(pos), any q in the same cell is found at that origin, and creating again is a no-op |
| TerrainGrid.CreatePreservesLookups | src/terrain.cpp:586-618 | createChunk does not change the lookup of a position in another cell |
| TerrainGrid.GlslMod | src/terrain.cpp:620-623 | glsl_mod(x, y) lies in [0, y) for y > 0 |
| TerrainGrid.GlslModIsOffsetInChunk | src/terrain.cpp:620-628 | glsl_mod(x, cs) is x's offset from its chunk origin |
| TerrainGrid.TileIndex | src/terrain.cpp:625-631 | getTileIndexFromPos is y * 64 + x with both tile coordinates in [0, 64), so it lies in [0, 64²) |
| TerrainGrid.TileCoord | src/terrain.cpp:625-631 | each tile coordinate of getTileIndexFromPos lies in [0, 64) |
| TerrainGrid.TileIndexRoundTrip | src/terrain.cpp:471-476 | getTileIndexFromPos(getPosFromTileIndex(i)) == i for every i < 64², for an origin that is a multiple of cs |
| TerrainGrid.TileCornerContainsPos | src/terrain.cpp:471-476 | the corner of the tile a position indexes, within its chunk, lies within one tile width below the position |
| TerrainGrid.WindowIndexBijective | src/terrain.cpp:755 | slot (j + 1) * 3 + (i + 1) maps the nine neighbours one-to-one onto 0..8 |
| TerrainGrid.WindowIndex | src/terrain.cpp:755 | each offset in {-1, 0, 1}² maps to a slot in [0, 9) |
| TerrainGrid.ComputeWindow | src/terrain.cpp:751-764 | the loop stores in slot (i, j) the chunk found at target + cs * (i, j), or null |
| TerrainGrid.GetVisible | src/terrain.cpp:748-766 | as written: every slot afterwards holds the uninitialised `new_visible`, whatever the loop computed |
| TerrainGrid.GetVisibleIntended | src/terrain.cpp:750-764 | corrected: slot (i, j) is a pointer exactly when the chunk at that window point exists, and it points at that chunk |
| TerrainGrid.UpdateUniforms | src/terrain.cpp:768-786 | defined exactly when no slot is unreadable; slot i of both upload arrays is the visible chunk's array or the old contents for a null slot |
| LineOfSight.NeighbourRect | src/terrain.cpp:662-666 | each neighbour rectangle has non-negative sides |
| LineOfSight.GridPaints | src/terrain.cpp:683-697 | the tile loop stores only valid paints at the sample centres, and stores every sample centre within the radius |
| LineOfSight.LosPaints | src/terrain.cpp:658-702 | every store of updateLOS goes into a chunk already in the map, at an index in [0, 64²) equal to the tile index of a sample within the radius |
| LineOfSight.ApplyPaints | src/terrain.cpp:695 | storing 255 at each paint: keys, origins and materials are unchanged, and byte o of chunk k is 255 exactly when painted, else as before |
| LineOfSight.ApplyPaint | src/terrain.cpp:692-695 | one store: byte index of chunk key becomes 255; keys, origins, materials and every other byte are unchanged |
| LineOfSight.UpdateLOS | src/terrain.cpp:633-703 | updateLOS creates no chunk, never touches materials, and writes 255 exactly at the painted bytes |
| LineOfSight.UpdateLOSOnlyPaintsSeenTiles | src/terrain.cpp:692-695 | any byte updateLOS changes becomes 255 and is the tile index of some point within the radius |
| LineOfSight.NegativeRadiusPaintsNothing | src/terrain.cpp:633-703 | with a negative LOS radius the terrain is unchanged |
| LineOfSight.NeighbourIntersectionIsOverlap | src/terrain.cpp:668-670 | in updateLOS the collision guard makes the intersection a genuine overlap |
| Systems.DecayBytes | src/systems.cpp:62-65 | each byte equal to 2 becomes 1; every other byte, 255 included, is unchanged |
| Systems.DecayChunkIdempotent | src/systems.cpp:60-66 | decaying a chunk twice is the same as once |
| Systems.DecayChunk | src/systems.cpp:62-65 | decaying a chunk keeps its origin, its material bytes and the length of its LOS array |
| Systems.Decay | src/systems.cpp:60-66 | defined exactly when all nine slots point at stored chunks; then exactly the chunks in the window are decayed |
| Systems.DecaySlots | src/systems.cpp:60-66 | the slot loop from slot s is defined iff every slot from s on points at a stored chunk; then exactly the chunks those slots point at are decayed |
| Systems.DecayEffect | src/systems.cpp:60-66 | in-window bytes go 2 → 1 and others stay; chunks outside the window and all materials are untouched |
| Systems.DecayIdempotent | src/systems.cpp:60-66 | a second decay succeeds and changes nothing |
| Systems.DecayClearsFresh | src/systems.cpp:60-66 | afterwards no LOS byte of a chunk in the window equals 2 |
| Systems.PaintAll | src/systems.cpp:68-75 | painting for each viewer keeps keys and materials and never lowers a 255 |
| Systems.LosTick | src/systems.cpp:58-76 | the LOS tick is defined exactly when all nine slots are readable, and it keeps the chunk keys |
| Systems.PaintedThisTickEndsSeen | src/systems.cpp:58-75 | decay runs before painting, so a tile any viewer paints this tick ends the tick at 255 |
| Systems.CreateAround | src/systems.cpp:80-86 | the nine createChunk calls add exactly the origins of target + (100 i, 100 j), each new one holding the chunk generated at its origin, and keep existing chunks unchanged |
| Systems.TerrainGeneration | src/systems.cpp:78-88 | as written: chunks are created, then the window is left holding only uninitialised slots |
| Systems.TickAfterGenerationIsUndefined | src/systems.cpp:58-88 | as written: the LOS tick after terrainGeneration reads an uninitialised slot |
| Systems.GenerationFillsWindow | src/systems.cpp:78-88 | corrected: with chunk size 100, every window slot points at a created chunk and the next LOS tick is defined |
| Systems.MoveIfIsMove | src/systems.cpp:12-19 | each held key applies Camera::move with its direction |
| Systems.MoveIf | src/systems.cpp:12-19 | a held key moves position and target by move_speed times its direction, an unheld one by nothing; no other field changes |
| Systems.OrthoMove | src/systems.cpp:10-20 | the W, A, S, D moves of the ortho branch keep the view direction |
| Systems.OrthoMovementAdds | src/systems.cpp:10-20 | in ortho mode the target moves by move_speed times the sum of the held keys' directions |
| Systems.OppositeKeysCancel | src/systems.cpp:10-20 | with W and S, and A and D, held alike, the ortho camera is unchanged |
| Systems.CameraMovement | src/systems.cpp:8-32 | in ortho mode the view direction is unchanged |
| CameraModel.DefaultCamera | src/camera.cpp:5-19 | position (10,10,10), target at the origin, zoom 24 within [6, 128], ortho, move speed 1 |
| CameraModel.Move | src/camera.cpp:55-59 | position and target both shift by move_speed * direction, so the view direction is unchanged |
| CameraModel.MovesAdd | src/camera.cpp:55-59 | two moves shift by the scaled sum of their directions |
| CameraModel.Zoom | src/camera.cpp:61-65 | only the zoom level changes; it lands in [zoom_min, zoom_max] when min ≤ max, and is level * (1 + change / 16) when that is in range |
| CameraModel.ZoomByZeroIsIdentity | src/camera.cpp:61-65 | zoom(0) on an in-range level changes nothing |
| Vertices.MakeVertex | src/vertex.cpp:8-15 | pos.w = 1, the other four w are 0, and xyz are the arguments |
| Vertices.WithPos | src/vertex.cpp:38-43 | a copy differing only in pos, with w = 1 |
| Vertices.WithColor | src/vertex.cpp:45-50 | a copy differing only in color, with w = 1 |
| Vertices.WithColorDiffersFromConstructor | src/vertex.cpp:8-15 | withColor's colour w (1) differs from the constructor's (0) |
| Vertices.TangentChoice | src/vertex.cpp:19-30 | n × (0,0,1) when strictly longer than n × (0,1,0), otherwise (ties included) n × (0,1,0) |
| Vertices.TangentChoiceOrthogonal | src/vertex.cpp:19-30 | the chosen tangent is orthogonal to the normal |
| Vertices.TangentZeroIffNormalZero | src/vertex.cpp:19-32 | the chosen tangent is zero exactly when the normal is, which is the only case where normalising divides by zero |
| Vertices.CalculateTangentAndBitangent | src/vertex.cpp:17-36 | `None` (the NaN frame) exactly at length 0; otherwise only tangent and bitangent change, tangent = choice / length, bitangent = tangent × normal, both with w = 0 |
| Vertices.TangentFrameOrthogonal | src/vertex.cpp:17-36 | tangent ⟂ normal, bitangent ⟂ normal and bitangent ⟂ tangent |
| Meshes.GenIndexedMesh | src/terrain.cpp:202-227 | 4 vertices and 6 indices per tile; vertex 4t + k is tile t's corner k; tile t's indices are 4t, 4t+1, 4t+2, 4t, 4t+2, 4t+3; every index is below the vertex count |
| Meshes.GenFlatMesh | src/mesh.cpp:3-23 | 6 vertices per tile, in input order: tile t's corners 0, 1, 2, 0, 2, 3; the index list is empty |
| Meshes.IndexedMeshResolvesToFlatMesh | src/terrain.cpp:202-227 | resolving the indexed mesh through its indices gives exactly the vertex list of src/mesh.cpp |
| ChunkMaterial.MaterialBand | src/terrain.cpp:357-397 | ≤ -4.5 → 0 or 1 by the coin; ≤ -3.5 → 1; ≤ -2 → 2; ≤ 2 → 3; ≤ 4 → 4; ≤ 6.5 → 5; > 8.5 → 6 or 5 by the coin; (6.5, 8.5] writes nothing; any value written is ≤ 6 |
| ChunkMaterial.BandCountsThresholds | src/terrain.cpp:366-388 | in the coin-free bands the value is the number of thresholds below the noise |
| ChunkMaterial.BandMonotone | src/terrain.cpp:366-388 | in the coin-free bands a higher noise never gives a lower value |
| ChunkMaterial.CoinMattersOnlyAtExtremes | src/terrain.cpp:357-397 | only the two outer bands depend on the draw |
| ChunkMaterial.TileBands | src/terrain.cpp:342-397 | the four corner samples consume one draw per outer-band sample |
| ChunkMaterial.AllGapKeepsByte | src/terrain.cpp:385-397 | if all four samples fall in the gap, the (uninitialised) byte is kept |
| ChunkMaterial.LastWriteWins | src/terrain.cpp:342-397 | the byte is the band of the last sample outside the gap |
| ChunkMaterial.ByteOfInjective | src/terrain.cpp:362 | index j * 64 + i is in [0, 64²) and distinct tiles get distinct bytes |
| ChunkMaterial.MaterialPass | src/terrain.cpp:336-400 | the nested loop writes each tile's byte from its own samples and draw offset, and leaves bytes not yet visited alone |
| ChunkMaterial.Materials | src/terrain.cpp:336-400 | the whole pass: tile (i, j)'s byte is its four-sample band result at its draw offset |
| ChunkMaterial.MaterialsPerTile | src/terrain.cpp:336-400 | an all-gap tile keeps its uninitialised byte; any other tile's byte is ≤ 6 |
| ChunkMaterial.NormalSlotsInRange | src/terrain.cpp:292-300 | every normal-accumulation index is below 65², although stride 64 aliases slots |
| ChunkMaterial.NormalSlotsAlias | src/terrain.cpp:292-300 | slot (i, 63 + 1) coincides with slot (i + 1, 0) |
| BiomeSelect.Weight | src/terrain.cpp:424-428 | 8 / sq, +infinity exactly at distance 0, flushed to 0 below 0.001, never negative |
| BiomeSelect.Accumulate | src/terrain.cpp:416-431 | the weight loop yields one table entry per biome; the contents are stated by BiomeSelect.AccumulateIsWeightSums |
| BiomeSelect.AccumulateIsWeightSums | src/terrain.cpp:416-431 | for every biome b, table entry b ends as the IEEE sum, in point order, of the weights 8 / d² (flushed below 0.001) of biome b's points; the total is that sum over all points |
| BiomeSelect.FiniteTally | src/terrain.cpp:416-431 | away from every point the table is finite and the total is the sum of the table |
| BiomeSelect.CoincidentTally | src/terrain.cpp:416-431 | a point on the tile makes the total +infinity |
| BiomeSelect.NearestIsFirstClosest | src/terrain.cpp:419-423 | biome_min_dist is the label of the first point at the least squared distance |
| BiomeSelect.SelectFinite | src/terrain.cpp:440-451 | the cumulative subtraction stops at the first biome whose prefix sum reaches the selector |
| BiomeSelect.SelectFiniteStops | src/terrain.cpp:440-451 | with a finite table and selector ≤ the sum, the loop always picks some biome |
| BiomeSelect.Select | src/terrain.cpp:440-451 | the subtraction loop from biome j picks, if anything, a biome in [j, NUM_BIOMES) |
| BiomeSelect.ChooseBiome | src/terrain.cpp:433-458 | a chosen biome is below NUM_BIOMES; the random branch is taken exactly when the total is non-zero |
| BiomeSelect.ChoiceAwayFromPoints | src/terrain.cpp:433-451 | away from all points with a non-zero total, it picks the first biome whose prefix sum reaches rand()/RAND_MAX * total |
| BiomeSelect.ChoiceAtZeroWeight | src/terrain.cpp:455-458 | with a zero total, the label of the first point at least squared distance is used |
| BiomeSelect.CoincidentTileGetsNoBiome | src/terrain.cpp:424-451 | as written: a tile on a biome point gets no biome at all |
| BiomeSelect.CoincidentExample | src/terrain.cpp:424-451 | as written: a single point at (1, 1) and a tile at (1, 1) give no choice |
| BiomeSelect.IntendedChoiceAlwaysPicks | src/terrain.cpp:424-458 | corrected: a biome is always picked, and a coincident tile takes the first coincident point's label |
| BiomeSelect.ChooseBiomeIntended | src/terrain.cpp:433-458 | the corrected choice, when it picks, picks a biome below NUM_BIOMES |
| BiomeSelect.AddBiome | src/terrain.cpp:449-457 | adds choice * NUM_TEXTURES_PER_BIOME modulo 256 to the byte, or leaves it when nothing was chosen |
| ChunkGen.IndexPass | src/terrain.cpp:402-461 | the per-index loop writes each byte from its own old value and draw offset |
| ChunkGen.ChunkByteAt | src/terrain.cpp:336-461 | byte b of a chunk is its material byte plus the biome chosen at tile b's corner, with the draws after the material pass |
| ChunkGen.CellIsTile | src/terrain.cpp:471-476 | byte j * 64 + i of the material pass is the tile whose corner getPosFromTileIndex gives at (i, j) |
| BiomeLabels.LabelPoint | src/terrain.cpp:529-561 | the second chain overrides the first: MEATLANDS iff x > 2S ∧ y < 2S, else BADLANDS iff x < 2S ∧ y > 2S, else DEFAULT; the four middle biomes never survive |
| BiomeLabels.FirstChain | src/terrain.cpp:534-551 | the first chain leaves the label unset exactly on the lines x = S or y = S outside the start area |
| BiomeLabels.Coord | src/terrain.cpp:526-527 | rand() % W - W / 2 is an integer in [-W/2, W - W/2) |
| BiomeLabels.SeedPoints | src/terrain.cpp:521-563 | point 0 is (0, 0) with DEFAULT; every other point is placed by two draws and labelled as LabelPoint says |
| KDTree.AddX | src/terrain.cpp:34-71 | add_recur_x keeps the root and adds exactly the new point |
| KDTree.AddY | src/terrain.cpp:73-108 | add_recur_y keeps the root and adds exactly the new point |
| KDTree.BuildHoldsAllPoints | src/terrain.cpp:17-32 | the tree holds exactly the given points, first at the root |
| KDTree.BuildSize | src/terrain.cpp:17-32 | the tree has one node per point |
| KDTree.AddKeepsSplit | src/terrain.cpp:34-108 | insertion keeps every subtree on its side of its ancestors' splits, x and y alternating |
| KDTree.BuildIsSplit | src/terrain.cpp:17-108 | the built tree respects every split |
| KDTree.MinIndexIsMinimal | src/terrain.cpp:146-150 | the entry the priority queue pops has no smaller bound |
| KDTree.MaxIndex | src/terrain.cpp:166-170 | best_so_far.top() is an entry of largest distance |
| KDTree.PushChild | src/terrain.cpp:172-189 | pushing a child is undefined exactly when n is 0 and best_so_far is empty (top() of an empty queue); a child is pushed when best_so_far holds fewer than n |
| KDTree.Keep | src/terrain.cpp:154-164 | best_so_far never grows beyond n, and holds at least one entry after a push when n ≥ 1 |
| KDTree.SearchFacts | src/terrain.cpp:146-190 | the search keeps true distances, returns only queued tree points, and holds at most n |
| KDTree.Search | src/terrain.cpp:146-190 | the search loop: with n ≥ 1 it never reads top() of an empty best_so_far, so it is always defined |
| KDTree.BoxDistance | src/terrain.cpp:164-168 | the squared distance from the query to its clamp into a child's box is never negative when finite |
| KDTree.DrainIsNonIncreasing | src/terrain.cpp:192-199 | draining the max-queue gives non-increasing distances |
| KDTree.Drain | src/terrain.cpp:192-199 | the drain is a permutation of best_so_far: same length, same multiset of entries |
| KDTree.FindNClosest | src/terrain.cpp:110-200 | undefined before add sets the root; otherwise at most n points (n read as size_t), each a tree point and no more often than the tree holds it, in non-increasing distance from the query |
| KDTree.FindNClosestDefinedness | src/terrain.cpp:110-200 | the query is undefined exactly when n = 0 and the root has a child |
| KDTree.SizeT | src/terrain.cpp:110 | a negative s32 n becomes a size_t of at least 2⁶³, and only 0 maps to 0 |
| TermRenderer.Clamp | src/term_renderer.cpp:37-38 | std::min(std::max(v, 0), hi) lies in [0, hi] and is v when v is in range |
| TermRenderer.SetCursor | src/term_renderer.cpp:35-39 | only the cursor changes; x is clamped into [0, width] and y into [0, height], upper bounds inclusive |
| TermRenderer.MoveCursor | src/term_renderer.cpp:41-44 | setCursor of the shifted position, so the cursor stays in those bounds |
| TermRenderer.SetCursorIdempotent | src/term_renderer.cpp:35-39 | setting the cursor to where it already is changes nothing |
| TermRenderer.SetStroke | src/term_renderer.cpp:46-51 | only the stroke record changes, and it takes the three arguments |
| TermRenderer.SetFill | src/term_renderer.cpp:53-58 | only the fill record changes, and it takes the three arguments |
| TermRenderer.PutChar | src/term_renderer.cpp:60-67 | out of range nothing changes; in range exactly cell y * width + x of display, fg and bg is written, with the text colours |
| TermRenderer.PutCharCell | src/term_renderer.cpp:60-67 | seen cell by cell: only cell (x, y) changes |
| TermRenderer.StrLen | src/term_renderer.cpp:76 | strlen is the position of the first NUL |
| TermRenderer.WriteChars | src/term_renderer.cpp:79-91 | the character loop keeps the terminal valid and changes only the cursor and the three buffers |
| TermRenderer.Write | src/term_renderer.cpp:69-92 | write on a NUL-terminated buffer keeps the terminal valid and changes only the cursor and the three buffers |
| TermRenderer.WriteAppend | src/term_renderer.cpp:79-91 | writing a + b is writing a, then b, from the same entry x |
| TermRenderer.NewlineGoesToNextRow | src/term_renderer.cpp:81-85 | '\n' sets x to the entry x and y to y + 1 without touching the buffer |
| TermRenderer.NewlineLeavesBuffer | src/term_renderer.cpp:84 | y is not clamped, so a newline on the last row moves the cursor to height + 1 |
| TermRenderer.WriteLine | src/term_renderer.cpp:69-92 | a newline-free string lands at the cursor row from the cursor x, clipped at the width; the cursor ends at min(x + len, width) |
| TermRenderer.PutAllCell | src/term_renderer.cpp:94-115 | a sequence of putChar calls leaves a cell as the last write to it, or unchanged |
| TermRenderer.RectCell | src/term_renderer.cpp:94-115 | rect writes fill.c in the interior and stroke.c on the in-buffer border, nothing elsewhere, all through putChar |
| TermRenderer.RectPutsReach | src/term_renderer.cpp:94-115 | rect's putChar calls reach a cell exactly when it is on the border or in the interior |
| TermRenderer.Rect | src/term_renderer.cpp:94-115 | rect keeps the terminal valid and changes only the three buffers; cursor, stroke and fill stay |
| TermRenderer.Clear | src/term_renderer.cpp:117-123 | every display cell becomes ' ' and every fg and bg 0; nothing else changes |
| TermRenderer.ClearCells | src/term_renderer.cpp:117-123 | cell by cell, and clear is idempotent |
| Textures.MakeTextureData | src/texture.cpp:3-8 | width, height and channel count are stored unchanged; data holds (w * h * ch) mod 2³² bytes, and byte k is source byte k |
| Textures.MakeTextureDataReadsPrefix | src/texture.cpp:7 | only the first w * h * ch source bytes matter, so later changes to the source do not affect the copy |
| Textures.CopyLengthNoWrap | src/texture.cpp:7 | without 32-bit overflow the copy holds exactly w * h * ch bytes |
| Textures.SwapRedBlue | src/asset.cpp:82-91 | for 3 and 4 channels bytes 0 and 2 of each pixel swap and every other byte is unchanged |
| Textures.WidenThree | src/asset.cpp:93-107 | 3 → 4 channels: bytes 4i..4i+2 are pixel i's three bytes and byte 4i+3 is 255 |
| Textures.WidenGrey | src/asset.cpp:109-121 | 1 → 4 channels: bytes 4i..4i+2 are the grey value and byte 4i+3 is 255 |
| Textures.Convert | src/asset.cpp:81-121 | 1, 3 and 4 channels end as 4-channel BGRA with the bytes above; other counts pass through unchanged |
| Textures.GetTexture | src/asset.cpp:54-139 | a failed load gives nullopt; otherwise the dimensions are kept, the channel count is 4 for 1, 3 and 4, and the data length matches |
| Textures.RgbaFileOverreads | src/asset.cpp:69-91 | with `STBI_rgb` the buffer holds 3 * w * h bytes; for two or more pixels a stride-4 swap reads past it, and a w * h * 4 copy is longer than it |
| Textures.RgbReportedAsThreeStaysWithin | src/asset.cpp:69-91 | with the channel count taken as 3, every byte the swap reads lies within the 3 * w * h bytes delivered |
| Input.Target | include/input.h:114-171 | each scancode writes its own key, except F1..F10, which write M; no scancode writes an F slot |
| Input.KeysReport | include/input.h:114-171 | F slots are never set; M is set iff M or any F-key is held; every other key is set iff held |
| Input.Keys | include/input.h:114-171 | the key array has one flag per DZKey |
| Input.FreshMouse | include/input.h:65-81 | the timer drops by one when positive; left_button_down carries over; clicked, double_clicked, the other buttons and the wheel reset; delta = previous pos - pos |
| Input.HandleEvent | include/input.h:83-112 | a QUIT, or any event while escape is held, sets quit and leaves the mouse; a press sets left down, double-clicks iff timer > 0, and sets timer to 15; a release clears left down and clicks iff timer > 0 and no double-click |
| Input.HandleEvents | include/input.h:83-112 | after the poll loop quit is set iff it was set, a QUIT event was polled, or escape is held and some event was polled |
| Input.Update | include/input.h:56-172 | key_prev and mouse_prev take the previous state; modifiers are zeroed |
| Input.UpdateQuit | include/input.h:78-89 | quit is true iff a QUIT event is polled, or escape is held while any event is polled |
| Input.EscapeSwallowsMouse | include/input.h:85-89 | while escape is held no event reaches the mouse |
| Input.EventsKeep | include/input.h:83-112 | events change neither pos, delta nor the middle and right buttons; the timer stays or becomes 15 |
| Input.IdleFrame | include/input.h:61-81 | a frame with no events only ticks the timer down and clears the flags |
| Input.PressFrame | include/input.h:95-103 | a press sets the timer to 15 and double-clicks iff the timer was above 1 before the frame |
| Input.PressReleaseFrame | include/input.h:95-111 | a press and release in one frame clicks exactly when it does not double-click |
| Input.IdleRun | include/input.h:73-77 | n idle frames lower the timer by n, stopping at 0 |
| Input.DoubleClickWindow | include/input.h:73-103 | a second press double-clicks iff fewer than 14 idle frames separate it from the first |

## Left out

- Rendering, the SDL window and event loop, Metal buffers and shaders, and the
  `printf` of `DZTermRenderer::display`: I/O with no modelled logic.
- `stbi_load`, `findMatchingFiles` and file reading: decoder and filesystem
  I/O. The decoded image is an input `Decoded`, and a failed load is `None`.
- Textures.Convert: the source asks stbi for `STBI_rgb`, which fills 3 bytes
  per pixel while `num_channels` reports the file's own count. The model
  assumes the buffer holds `num_channels` bytes per pixel; for a 4-channel
  file that is the corrected reading, and the as-written over-read is the
  STBI_rgb row under "## Findings". The model also takes only images whose
  `width * height * 4` is below 2³¹ (`Textures.WellFormed`). For larger
  images the s32 products `width*height` and `width * height * 4` at
  src/asset.cpp:84, 96 and 112 overflow, which is undefined behaviour, and
  the model says nothing about them.
- Textures.GetTexture: the source runs the conversion before its null check,
  on an unset width and height. The model returns `nullopt` straight away
  for a failed load. The channel-count warning is a log line and is not
  modelled. It takes only `Textures.WellFormed` images, and so it inherits
  the 2³¹ bound on `width * height * 4` described for Textures.Convert.
- The `malloc`ed buffers of `DZTermRenderer::setDimensions` and the
  renderer's constructor: the buffers are given, already of size
  width * height.
- TermRenderer.WriteChars: `int` overflow of cursor arithmetic is not
  modelled, because integers are unbounded here.
- The `swap_timer` and `swap_mousedown` scratch fields of `InputState` are
  folded into `FreshMouse`. Every `SDL_MOUSEBUTTONDOWN` sets
  `left_button_down`, whichever button is pressed, as in the source.
- Vertices.CalculateTangentAndBitangent: at a zero normal the source's
  tangent and bitangent have NaN in every component, because
  `glm::normalize` multiplies the zero vector by `inversesqrt(0)`. The model
  returns `None` for that frame instead of a vertex holding NaN, since vertex
  components are reals.
- Input: the keyboard snapshot of a frame is one value. In the source,
  `key_state` points at SDL's live array, and each `SDL_PollEvent` that
  pumps events may update it while the loop runs. The escape test inside
  the poll loop and the key array written after it read the same snapshot
  here.
- Floating-point rounding: floats are exact reals, and `sqrt` is never
  computed.
- Common.TruncToInt: truncates on unbounded integers. The source converts
  to a 32-bit `int`, which is undefined behaviour outside [-2³¹, 2³¹); the
  model returns the mathematical value there.
- TerrainGrid.AxisOrigin: returns the mathematical multiple of the chunk
  size for every coordinate, where src/terrain.cpp:575-576 is undefined
  once the multiple leaves [-2³¹, 2³¹). TerrainGrid.OriginIntRange states
  that range. The conversion back to `float` (src/terrain.cpp:578-581) is
  taken as exact, like every float here. `Terrain::chunk_size` is an `f32` (include/terrain.h:52); the
  model takes it as a positive whole number, because the only construction
  passes 100.0f (src/scene.cpp:7).
- TerrainGrid.Origin: has the same undefined range as AxisOrigin, on both
  axes.
- Geometry.CollidesWith: only soundness is proved. The test is not complete,
  and completeness is not claimed.
- KDTree.FindNClosest: does not say that the result equals the n
  nearest points. The region bounds the source stores are wrong: the root's
  are all `+INFINITY`, and y-children get inverted bounds. Only structural
  properties are proved.
- Priority-queue tie order: equal bounds and equal distances are broken by
  first position. `std::priority_queue` leaves that order unspecified.
- Height, normal and tangent synthesis in the Chunk constructor
  (src/terrain.cpp:266-327): Perlin noise and float normalisation. Only the
  normal-accumulation index bounds are modelled.
- ChunkGen.ChunkBytes: its contract gives only the length. The per-tile
  statement that composes the material byte at tile (i, j) with the biome
  at its corner is split across ChunkGen.ChunkByteAt, ChunkGen.CellIsTile
  and ChunkMaterial.MaterialsPerTile.
- Systems.TerrainGenerationIntended: its contract gives only shapes. The
  readable window is stated by Systems.GenerationFillsWindow.
- Systems.LosTick: its contract gives definedness and keys. The effect on
  tiles is stated by Systems.PaintedThisTickEndsSeen and the decay lemmas.
- The non-ortho branch of `cameraMovement` (`rotateWithOrigin`, trig): it is
  a parameter of CameraMovement.
- Camera projection and view matrices, and `getFrustrumBounds`: glm
  matrix numerics.
- The superseded chunk generator (src/chunk.cpp, include/chunk.cpp), the
  Assimp import in include/mesh.cpp, and include/movement.h: not part of
  the terrain core that is modelled.
- `Terrain::termRender` and the GPU upload in `Chunk::updateUniforms`: the
  copy `Terrain::updateUniforms` makes is modelled, and the upload is not.
- `srand` and `rand()`: replaced by explicit draw functions. The biome
  enumeration values and the constants `VORONOI_BIOMES`, `WORLDSIZE`,
  `START_AREA`, `NUM_BIOMES`, `NUM_TEXTURES_PER_BIOME` and `RAND_MAX` are not
  defined in any of the modelled files, so they are parameters.
- ChunkGen.IndexPass: `TILES_PER_CHUNK`, the bound of the biome loop at
  src/terrain.cpp:402, is defined in none of the modelled files either. The
  model takes it as `TILES_PER_SIDE * TILES_PER_SIDE` = 4096
  (`TerrainGrid.TilesPerChunk`): the chunk's tile arrays have that many
  entries (include/terrain.h:37-38), and `getPosFromTileIndex`
  (src/terrain.cpp:471-476) decodes an index with stride `TILES_PER_SIDE`.
  The commented-out lines at src/terrain.cpp:404-405 use the name as a side
  length instead; a different definition would change the loop's range,
  and the model does not cover that.

## Findings

| source | as written | input that shows it | evidently intended | confidence | as-written member | corrected member |
|---|---|---|---|---|---|---|
| include/geometry.h:163-195 | takes the middle two of the four edges on each axis, which is the gap between rectangles that are separated on one axis | unit squares at (0, 0) and (2, 0) give the rectangle [1, 2] x [0, 1], whose centre lies in neither | the intersection, and nullopt when the rectangles do not overlap | not executed | Geometry.DisjointSquaresIntersectInTheGap | Geometry.OverlapIsIntersection |
| src/terrain.cpp:424-451 | a tile on a biome point has weight 8 / 0 = +infinity; the selector becomes infinity or NaN, and no `<= 0.0` test succeeds, so no biome is added | one biome point at (1, 1) with biome 2, and a tile at (1, 1); point 0 at (0, 0) always coincides with tile 0 of the chunk at the origin | the coincident point's biome is added | not executed | BiomeSelect.CoincidentExample | BiomeSelect.IntendedChoiceAlwaysPicks |
| src/asset.cpp:69-91 | loads with `STBI_rgb` (3 bytes per pixel) but keeps the file's channel count, so a 4-channel file is swapped with stride 4 and copied as w * h * 4 bytes | a 2 x 1 RGBA PNG: the buffer has 6 bytes, the swap of pixel 1 touches byte 6 and the copy reads 8 | swap and copy within the bytes delivered, with the channel count matching the requested format | not executed | Textures.RgbaFileOverreads | Textures.RgbReportedAsThreeStaysWithin |
| src/terrain.cpp:748-766 | the window is computed into `visible`, then overwritten with the uninitialised `new_visible` | any call; the next LOS tick dereferences an uninitialised pointer | store the computed window | not executed | Systems.TickAfterGenerationIsUndefined | Systems.GenerationFillsWindow |

The updateLOS model uses the as-written `getIntersectingRect`.
LineOfSight.NeighbourIntersectionIsOverlap proves that behind the collision
guard it equals the corrected overlap.

=== FILE: biome_labels.dfy ===
/** The biome seed points the Terrain constructor lays out
    (src/terrain.cpp:521-563): point 0 sits at the origin with the default
    biome; every other point takes its two coordinates from consecutive
    rand() draws and is labelled by two if/else chains over its position.

    WORLDSIZE, START_AREA and VORONOI_BIOMES are not defined in any header of
    the repository, so they are parameters here. rand() is the sequence
    `draws`, numbered from the srand(seed) call. */
module BiomeLabels {
  import opened Common
  import opened RealArith
  import opened Geometry

  /** The biome labels the constructor assigns. */
  datatype Biome = Default | Rainforest | Coldlands | Sandlands | Gravelands | Meatlands | Badlands

  /** One entry of biome_arr. */
  datatype Seed = Seed(position: V2, biome: Biome)

  /** `start_distance < START_AREA` without the square root:
      start_distance is the distance to the origin. */
  predicate InStartArea(p: V2, startArea: real)
  {
    0.0 < startArea && MagnitudeSq(p) < Sq(startArea)
  }

  /** InStartArea is exactly the source's `sqrt(x^2 + y^2) < START_AREA`. */
  lemma StartAreaIsDistanceTest(p: V2, startArea: real, m: real)
    requires IsSqrt(MagnitudeSq(p), m)
    ensures InStartArea(p, startArea) <==> m < startArea
  {
    SqrtCompare(MagnitudeSq(p), m, startArea);
  }

  /** The region test of the second chain: far west. */
  predicate FarWest(p: V2, startArea: real)
  {
    p.x > startArea * 2.0 && p.y < startArea * 2.0
  }

  /** The region test of the second chain: far east. */
  predicate FarEast(p: V2, startArea: real)
  {
    p.x < startArea * 2.0 && p.y > startArea * 2.0
  }

  /** The label of point i >= 1, from the value `prior` its slot held.
      The first chain writes the centre or one of four quadrants, and writes
      nothing on the lines x == START_AREA or y == START_AREA outside the
      centre; the second chain then writes unconditionally, so only its
      outcome survives: Meatlands exactly when far west, Badlands exactly
      when far east and not far west, Default otherwise. The four quadrant
      biomes are never final, and the centre is always Default. */
  method LabelPoint(p: V2, startArea: real, prior: Biome) returns (b: Biome)
    ensures b == Meatlands <==> FarWest(p, startArea)
    ensures b == Badlands <==> !FarWest(p, startArea) && FarEast(p, startArea)
    ensures b == Default <==> !FarWest(p, startArea) && !FarEast(p, startArea)
    ensures b != Rainforest && b != Coldlands && b != Sandlands && b != Gravelands
    ensures InStartArea(p, startArea) ==> b == Default
  {
    b := prior;
    if InStartArea(p, startArea) {
      b := Default;
    } else if p.x > startArea && p.y < startArea {
      b := Rainforest;
    } else if p.x > startArea && p.y > startArea {
      b := Coldlands;
    } else if p.x < startArea && p.y < startArea {
      b := Sandlands;
    } else if p.x < startArea && p.y > startArea {
      b := Gravelands;
    }
    if p.x > startArea * 2.0 && p.y < startArea * 2.0 {
      b := Meatlands;
    } else if p.x < startArea * 2.0 && p.y > startArea * 2.0 {
      b := Badlands;
    } else {
      b := Default;
    }
    if InStartArea(p, startArea) {
      StartAreaIsNotFar(p, startArea);
    }
  }

  /** A point of the centre lies within START_AREA of the origin on both
      axes, so it is neither far west nor far east. */
  lemma StartAreaIsNotFar(p: V2, startArea: real)
    requires InStartArea(p, startArea)
    ensures !FarWest(p, startArea) && !FarEast(p, startArea)
  {
    SqNonNeg(p.x);
    SqNonNeg(p.y);
    SqBound(p.x, startArea);
    SqBound(p.y, startArea);
  }

  /** The first chain alone: which quadrant label it writes, if any. It
      leaves the slot alone exactly on the lines x == START_AREA or
      y == START_AREA outside the centre. */
  function FirstChain(p: V2, startArea: real): (r: Option<Biome>)
    ensures r == None <==> !InStartArea(p, startArea) && (p.x == startArea || p.y == startArea)
    ensures r.Some? ==> (r.value == Default <==> InStartArea(p, startArea))
  {
    if InStartArea(p, startArea) then Some(Default)
    else if p.x > startArea && p.y < startArea then Some(Rainforest)
    else if p.x > startArea && p.y > startArea then Some(Coldlands)
    else if p.x < startArea && p.y < startArea then Some(Sandlands)
    else if p.x < startArea && p.y > startArea then Some(Gravelands)
    else None
  }

  /** One coordinate of a seed point: `rand() % WORLDSIZE - WORLDSIZE/2`,
      converted to float. Both operands are non-negative, so C's truncating
      % and / agree with Dafny's. */
  function Coord(draw: nat, worldSize: int): (c: real)
    requires 0 < worldSize
    ensures -((worldSize / 2) as real) <= c < (worldSize - worldSize / 2) as real
    ensures c.Floor as real == c
  {
    ((draw % worldSize) - worldSize / 2) as real
  }

  /** The position of point i >= 1: x from draw 2(i-1), y from draw 2(i-1)+1
      (the two rand() calls of a braced initialiser run left to right). */
  function SeedPosition(i: nat, worldSize: int, draws: nat -> nat): V2
    requires 1 <= i && 0 < worldSize
  {
    V2(Coord(draws(2 * (i - 1)), worldSize), Coord(draws(2 * (i - 1) + 1), worldSize))
  }

  /** biome_arr as the constructor leaves it, from the uninitialised slots
      `uninit`: point 0 is the origin with the default biome; point i >= 1
      is at SeedPosition(i) and carries the second chain's label. */
  method SeedPoints(numPoints: nat, worldSize: int, startArea: real, draws: nat -> nat, uninit: seq<Biome>)
    returns (pts: seq<Seed>)
    requires 1 <= numPoints && 0 < worldSize && |uninit| == numPoints
    ensures |pts| == numPoints
    ensures pts[0] == Seed(V2(0.0, 0.0), Default)
    ensures forall i | 1 <= i < numPoints :: pts[i].position == SeedPosition(i, worldSize, draws)
    ensures forall i | 1 <= i < numPoints ::
              && (pts[i].biome == Meatlands <==> FarWest(pts[i].position, startArea))
              && (pts[i].biome == Badlands <==> !FarWest(pts[i].position, startArea) && FarEast(pts[i].position, startArea))
              && (pts[i].biome == Default <==> !FarWest(pts[i].position, startArea) && !FarEast(pts[i].position, startArea))
    ensures forall i | 0 <= i < numPoints :: pts[i].biome in {Default, Meatlands, Badlands}
  {
    pts := [Seed(V2(0.0, 0.0), Default)];
    var i := 1;
    while i < numPoints
      invariant 1 <= i <= numPoints && |pts| == i
      invariant pts[0] == Seed(V2(0.0, 0.0), Default)
      invariant forall k | 1 <= k < i :: pts[k].position == SeedPosition(k, worldSize, draws)
      invariant forall k | 1 <= k < i ::
                  && (pts[k].biome == Meatlands <==> FarWest(pts[k].position, startArea))
                  && (pts[k].biome == Badlands <==> !FarWest(pts[k].position, startArea) && FarEast(pts[k].position, startArea))
                  && (pts[k].biome == Default <==> !FarWest(pts[k].position, startArea) && !FarEast(pts[k].position, startArea))
      invariant forall k | 0 <= k < i :: pts[k].biome in {Default, Meatlands, Badlands}
    {
      var p := SeedPosition(i, worldSize, draws);
      var b := LabelPoint(p, startArea, uninit[i]);
      pts := pts + [Seed(p, b)];
      i := i + 1;
    }
  }
}

=== FILE: biome_select.dfy ===
/** The biome choice of the Chunk constructor (src/terrain.cpp): each tile
    weighs every biome point by 8 / (squared distance), flushes weights
    below 0.001 to zero, and picks a biome by subtracting the per-biome
    weights from a random fraction of their total. When the total is zero
    the biome of the nearest point is used. The chosen biome index times
    NUM_TEXTURES_PER_BIOME is added to the tile's material byte.

    Doubles are modelled as extended reals (ExtReal): finite values
    without rounding, plus the infinity that 8.0 / 0.0 produces and the
    NaN that arithmetic on it can then produce. */
module BiomeSelect {
  import opened Common
  import opened RealArith
  import opened Geometry
  import opened ExtReal

  /** BiomePoint: a seed position and its biome, as an index into the
      per-biome weight table. */
  datatype BiomePoint = BiomePoint(position: V2, biome: nat)

  // ---------------------------------------------------------- weights

  /** recip_dist: 8.0 / sq_distance (+infinity at distance zero), flushed
      to zero below 0.001. */
  function Weight(sq: real): (w: Ext)
    requires 0.0 <= sq
    ensures w == PosInf <==> sq == 0.0
    ensures w.Fin? ==> 0.0 <= w.v
    ensures sq > 0.0 && 8.0 / sq >= 0.001 ==> w == Fin(8.0 / sq)
    ensures sq > 0.0 && 8.0 / sq < 0.001 ==> w == Zero
  {
    var r := if sq == 0.0 then PosInf else Fin(8.0 / sq);
    if Below(r, Fin(0.001)) then Zero else r
  }

  /** A weight or a sum of weights: a non-negative real or +infinity. */
  predicate NonNegW(e: Ext)
  {
    (e.Fin? && 0.0 <= e.v) || e == PosInf
  }

  /** The running state of the loop over the biome points: min_dist,
      biome_min_dist, reciprocal_distance_table and
      total_reciprocal_distances. */
  datatype Tally = Tally(minDist: Ext, nearest: nat, table: seq<Ext>, total: Ext)

  /** Every point's biome indexes the weight table. */
  predicate BiomesInRange(bps: seq<BiomePoint>, numBiomes: nat)
  {
    forall j | 0 <= j < |bps| :: bps[j].biome < numBiomes
  }

  /** The weight point bp carries at the tile position pos. */
  function PointWeight(bp: BiomePoint, pos: V2): Ext
  {
    DistanceProperties(bp.position, pos);
    Weight(DistSq(bp.position, pos))
  }

  /** Reference: the IEEE sum, in the order of bps, of the weights of the
      points of biome b. */
  function BiomeWeightSum(bps: seq<BiomePoint>, pos: V2, b: nat): Ext
  {
    if |bps| == 0 then Zero
    else
      var s := BiomeWeightSum(bps[..|bps| - 1], pos, b);
      if bps[|bps| - 1].biome == b then Plus(s, PointWeight(bps[|bps| - 1], pos)) else s
  }

  /** Reference: the IEEE sum, in the order of bps, of every point's weight. */
  function TotalWeight(bps: seq<BiomePoint>, pos: V2): Ext
  {
    if |bps| == 0 then Zero
    else Plus(TotalWeight(bps[..|bps| - 1], pos), PointWeight(bps[|bps| - 1], pos))
  }

  /** The loop over bps at tile position pos, starting from min_dist =
      +infinity, biome_min_dist = 0 and an all-zero table. What the table
      and the total end as is stated by AccumulateIsWeightSums. */
  function Accumulate(bps: seq<BiomePoint>, pos: V2, numBiomes: nat): (t: Tally)
    requires BiomesInRange(bps, numBiomes)
    ensures |t.table| == numBiomes
  {
    if |bps| == 0 then Tally(PosInf, 0, seq(numBiomes, _ => Zero), Zero)
    else
      var t := Accumulate(bps[..|bps| - 1], pos, numBiomes);
      var bp := bps[|bps| - 1];
      DistanceProperties(bp.position, pos);
      var sq := DistSq(bp.position, pos);
      var w := Weight(sq);
      var closer := Below(Fin(sq), t.minDist);
      Tally(if closer then Fin(sq) else t.minDist,
            if closer then bp.biome else t.nearest,
            t.table[bp.biome := Plus(t.table[bp.biome], w)],
            Plus(t.total, w))
  }

  /** Entry b of the table ends as the weight sum of biome b's points, and
      the total as the sum over all points. */
  lemma {:induction false} AccumulateIsWeightSums(bps: seq<BiomePoint>, pos: V2, numBiomes: nat)
    requires BiomesInRange(bps, numBiomes)
    decreases |bps|
    ensures forall b | 0 <= b < numBiomes :: Accumulate(bps, pos, numBiomes).table[b] == BiomeWeightSum(bps, pos, b)
    ensures Accumulate(bps, pos, numBiomes).total == TotalWeight(bps, pos)
  {
    if |bps| > 0 {
      AccumulateStep(bps, pos, numBiomes);
      AccumulateIsWeightSums(bps[..|bps| - 1], pos, numBiomes);
    }
  }

  /** The sum of the finite entries of a table. */
  function SumFin(t: seq<Ext>): real
  {
    if |t| == 0 then 0.0
    else SumFin(t[..|t| - 1]) + (if t[|t| - 1].Fin? then t[|t| - 1].v else 0.0)
  }

  /** The weight sum of biomes 0..k. */
  function SumThrough(t: seq<Ext>, k: nat): real
    requires k < |t|
  {
    SumFin(t[..k + 1])
  }

  /** All entries are finite and non-negative. */
  predicate AllFinite(t: seq<Ext>)
  {
    forall k | 0 <= k < |t| :: t[k].Fin? && 0.0 <= t[k].v
  }

  /** Adding w to one entry adds w to the sum. */
  lemma {:induction false} SumFinUpdate(t: seq<Ext>, b: nat, w: real)
    requires b < |t| && t[b].Fin?
    decreases |t|
    ensures SumFin(t[b := Fin(t[b].v + w)]) == SumFin(t) + w
  {
    var u := t[b := Fin(t[b].v + w)];
    var n := |t| - 1;
    assert u[..n] == if b < n then t[..n][b := Fin(t[b].v + w)] else t[..n];
    if b < n {
      SumFinUpdate(t[..n], b, w);
    }
  }

  lemma {:induction false} SumFinZeros(n: nat)
    ensures SumFin(seq(n, _ => Zero)) == 0.0
  {
    if n > 0 {
      assert seq(n, _ => Zero)[..n - 1] == seq(n - 1, _ => Zero);
      SumFinZeros(n - 1);
    }
  }

  /** The tile lies on no biome point. */
  predicate AwayFromAll(bps: seq<BiomePoint>, pos: V2)
  {
    forall j | 0 <= j < |bps| :: bps[j].position != pos
  }

  /** The points before the last keep their biomes in range. */
  lemma PrefixInRange(bps: seq<BiomePoint>, numBiomes: nat)
    requires BiomesInRange(bps, numBiomes) && |bps| > 0
    ensures BiomesInRange(bps[..|bps| - 1], numBiomes)
  {
    var prefix := bps[..|bps| - 1];
    forall j | 0 <= j < |prefix| ensures prefix[j].biome < numBiomes {
      assert prefix[j] == bps[j];
    }
  }

  /** One iteration of the loop: the last point's weight is added to its
      biome's entry and to the total. */
  lemma AccumulateStep(bps: seq<BiomePoint>, pos: V2, numBiomes: nat)
    requires BiomesInRange(bps, numBiomes) && |bps| > 0
    ensures BiomesInRange(bps[..|bps| - 1], numBiomes)
    ensures 0.0 <= DistSq(bps[|bps| - 1].position, pos)
    ensures var t := Accumulate(bps[..|bps| - 1], pos, numBiomes);
            var b := bps[|bps| - 1].biome;
            var w := Weight(DistSq(bps[|bps| - 1].position, pos));
            && Accumulate(bps, pos, numBiomes).table == t.table[b := Plus(t.table[b], w)]
            && Accumulate(bps, pos, numBiomes).total == Plus(t.total, w)
  {
    PrefixInRange(bps, numBiomes);
    DistanceProperties(bps[|bps| - 1].position, pos);
  }

  /** Adding a finite weight keeps a finite table whose sum is the total. */
  lemma FiniteStep(table: seq<Ext>, total: Ext, b: nat, w: Ext)
    requires AllFinite(table) && total.Fin? && total.v == SumFin(table)
    requires b < |table| && w.Fin? && 0.0 <= w.v
    ensures AllFinite(table[b := Plus(table[b], w)])
    ensures Plus(total, w).Fin? && Plus(total, w).v == SumFin(table[b := Plus(table[b], w)])
  {
    SumFinUpdate(table, b, w.v);
  }

  /** Away from every point all weights are finite, and the total is the
      sum of the table. */
  lemma {:induction false} FiniteTally(bps: seq<BiomePoint>, pos: V2, numBiomes: nat)
    requires BiomesInRange(bps, numBiomes) && AwayFromAll(bps, pos)
    decreases |bps|
    ensures AllFinite(Accumulate(bps, pos, numBiomes).table)
    ensures Accumulate(bps, pos, numBiomes).total.Fin?
    ensures Accumulate(bps, pos, numBiomes).total.v == SumFin(Accumulate(bps, pos, numBiomes).table)
  {
    if |bps| == 0 {
      SumFinZeros(numBiomes);
    } else {
      var prefix := bps[..|bps| - 1];
      AccumulateStep(bps, pos, numBiomes);
      assert AwayFromAll(prefix, pos) by {
        forall j | 0 <= j < |prefix| ensures prefix[j] == bps[j] { }
      }
      FiniteTally(prefix, pos, numBiomes);
      var t := Accumulate(prefix, pos, numBiomes);
      var bp := bps[|bps| - 1];
      DistanceProperties(bp.position, pos);
      FiniteStep(t.table, t.total, bp.biome, Weight(DistSq(bp.position, pos)));
    }
  }

  /** Every entry and the total are weights: never NaN and never negative. */
  lemma {:induction false} TallyNonNeg(bps: seq<BiomePoint>, pos: V2, numBiomes: nat)
    requires BiomesInRange(bps, numBiomes)
    decreases |bps|
    ensures forall k | 0 <= k < numBiomes :: NonNegW(Accumulate(bps, pos, numBiomes).table[k])
    ensures NonNegW(Accumulate(bps, pos, numBiomes).total)
  {
    if |bps| > 0 {
      var prefix := bps[..|bps| - 1];
      PrefixInRange(bps, numBiomes);
      TallyNonNeg(prefix, pos, numBiomes);
    }
  }

  /** A point on the tile makes the total +infinity. */
  lemma {:induction false} CoincidentTally(bps: seq<BiomePoint>, pos: V2, numBiomes: nat, k: nat)
    requires BiomesInRange(bps, numBiomes) && k < |bps| && bps[k].position == pos
    decreases |bps|
    ensures Accumulate(bps, pos, numBiomes).total == PosInf
  {
    var prefix := bps[..|bps| - 1];
    AccumulateStep(bps, pos, numBiomes);
    TallyNonNeg(prefix, pos, numBiomes);
    var bp := bps[|bps| - 1];
    DistanceProperties(bp.position, pos);
    if k < |bps| - 1 {
      assert prefix[k] == bps[k];
      CoincidentTally(prefix, pos, numBiomes, k);
    }
  }

  /** `k` is the first point at the least squared distance from pos. */
  predicate FirstClosest(bps: seq<BiomePoint>, pos: V2, k: nat)
    requires k < |bps|
  {
    && (forall j | 0 <= j < |bps| :: DistSq(bps[k].position, pos) <= DistSq(bps[j].position, pos))
    && (forall j | 0 <= j < k :: DistSq(bps[k].position, pos) < DistSq(bps[j].position, pos))
  }

  /** The loop keeps the first point at the least squared distance:
      min_dist > sq_distance is strict, and every finite distance is below
      the initial +infinity. */
  lemma NearestIsFirstClosest(bps: seq<BiomePoint>, pos: V2, numBiomes: nat)
    requires BiomesInRange(bps, numBiomes) && |bps| > 0
    ensures exists k | 0 <= k < |bps| ::
              && Accumulate(bps, pos, numBiomes).nearest == bps[k].biome
              && Accumulate(bps, pos, numBiomes).minDist == Fin(DistSq(bps[k].position, pos))
              && FirstClosest(bps, pos, k)
  {
    var k := NearestWitness(bps, pos, numBiomes);
  }

  /** One iteration of the loop: the last point replaces the nearest one
      exactly when it is strictly closer. */
  lemma NearestStep(bps: seq<BiomePoint>, pos: V2, numBiomes: nat)
    requires BiomesInRange(bps, numBiomes) && |bps| > 0
    ensures BiomesInRange(bps[..|bps| - 1], numBiomes)
    ensures var t0 := Accumulate(bps[..|bps| - 1], pos, numBiomes);
            var sq := DistSq(bps[|bps| - 1].position, pos);
            && Accumulate(bps, pos, numBiomes).nearest == (if Below(Fin(sq), t0.minDist) then bps[|bps| - 1].biome else t0.nearest)
            && Accumulate(bps, pos, numBiomes).minDist == (if Below(Fin(sq), t0.minDist) then Fin(sq) else t0.minDist)
  {
    PrefixInRange(bps, numBiomes);
  }

  lemma {:induction false} NearestWitness(bps: seq<BiomePoint>, pos: V2, numBiomes: nat) returns (k: nat)
    requires BiomesInRange(bps, numBiomes) && |bps| > 0
    decreases |bps|
    ensures k < |bps|
    ensures Accumulate(bps, pos, numBiomes).nearest == bps[k].biome
    ensures Accumulate(bps, pos, numBiomes).minDist == Fin(DistSq(bps[k].position, pos))
    ensures FirstClosest(bps, pos, k)
  {
    var n := |bps| - 1;
    var prefix := bps[..n];
    PrefixInRange(bps, numBiomes);
    var sq := DistSq(bps[n].position, pos);
    if n == 0 {
      k := 0;
    } else {
      var k0 := NearestWitness(prefix, pos, numBiomes);
      var t0 := Accumulate(prefix, pos, numBiomes);
      NearestStep(bps, pos, numBiomes);
      assert forall j | 0 <= j < n :: prefix[j] == bps[j];
      if sq < DistSq(bps[k0].position, pos) {
        k := n;
      } else {
        k := k0;
      }
    }
  }

  // ---------------------------------------------------------- selection

  /** The selection loop from biome j on: subtract table[j] from the
      selector and stop at the first j where it is <= 0. None when the loop
      runs out without stopping, which leaves the material byte as it is. */
  function Select(table: seq<Ext>, selector: Ext, j: nat): (r: Option<nat>)
    decreases |table| - j
    ensures r.Some? ==> j <= r.value < |table|
  {
    if j >= |table| then None
    else
      var s := Minus(selector, table[j]);
      if AtMost(s, Zero) then Some(j) else Select(table, s, j + 1)
  }

  /** With finite entries and selector x - (sum of the entries before j),
      the loop picks the first biome at or after j whose prefix sum reaches x. */
  lemma {:induction false} SelectFinite(table: seq<Ext>, x: real, j: nat)
    requires AllFinite(table) && j <= |table|
    decreases |table| - j
    ensures var r := Select(table, Fin(x - SumFin(table[..j])), j);
            && (r.Some? ==> x <= SumThrough(table, r.value))
            && (r.Some? ==> forall k | j <= k < r.value :: SumThrough(table, k) < x)
            && (r.None? ==> forall k | j <= k < |table| :: SumThrough(table, k) < x)
  {
    if j < |table| {
      var s := Minus(Fin(x - SumFin(table[..j])), table[j]);
      assert table[..j + 1][..j] == table[..j];
      assert s == Fin(x - SumFin(table[..j + 1]));
      if !AtMost(s, Zero) {
        SelectFinite(table, x, j + 1);
      }
    }
  }

  /** A selector no larger than the whole sum always stops the loop. */
  lemma SelectFiniteStops(table: seq<Ext>, x: real)
    requires AllFinite(table) && |table| > 0 && x <= SumFin(table)
    ensures Select(table, Fin(x), 0).Some?
  {
    assert table[..0] == [];
    assert table[..|table|] == table;
    assert SumThrough(table, |table| - 1) == SumFin(table);
    SelectFinite(table, x, 0);
  }

  /** Once the selector is +infinity or NaN, subtracting weights never
      brings it to <= 0. */
  lemma {:induction false} SelectInfiniteNeverStops(table: seq<Ext>, selector: Ext, j: nat)
    requires forall k | 0 <= k < |table| :: NonNegW(table[k])
    requires selector == PosInf || selector.NaN?
    decreases |table| - j
    ensures Select(table, selector, j).None?
  {
    if j < |table| {
      var s := Minus(selector, table[j]);
      assert s == PosInf || s.NaN?;
      SelectInfiniteNeverStops(table, s, j + 1);
    }
  }

  // ---------------------------------------------------------- the choice

  /** The biome chosen for a tile at pos, given the rand() value `draw` in
      [0, randMax]; None where the source adds nothing. The second result
      says whether a rand() value was consumed (only when the total weight
      is non-zero). */
  function ChooseBiome(bps: seq<BiomePoint>, pos: V2, numBiomes: nat, draw: nat, randMax: nat): (r: (Option<nat>, bool))
    requires BiomesInRange(bps, numBiomes) && 0 < randMax && |bps| > 0
    ensures r.0.Some? ==> r.0.value < numBiomes
    ensures r.1 <==> Accumulate(bps, pos, numBiomes).total != Zero
  {
    var t := Accumulate(bps, pos, numBiomes);
    if t.total != Zero then
      (Select(t.table, Times(Fin(draw as real / randMax as real), t.total), 0), true)
    else
      (NearestBiome(bps, pos, numBiomes), false)
  }

  /** biome_min_dist after the loop, which is in range when there is a point. */
  function NearestBiome(bps: seq<BiomePoint>, pos: V2, numBiomes: nat): (b: Option<nat>)
    requires BiomesInRange(bps, numBiomes) && |bps| > 0
    ensures b.Some? && b.value < numBiomes
    ensures exists k | 0 <= k < |bps| :: b.value == bps[k].biome
  {
    NearestIsFirstClosest(bps, pos, numBiomes);
    Some(Accumulate(bps, pos, numBiomes).nearest)
  }

  /** The selector of a tile: draw / randMax of the total weight. */
  function SelectorValue(draw: nat, randMax: nat, total: Ext): real
    requires 0 < randMax
  {
    if total.Fin? then draw as real / randMax as real * total.v else 0.0
  }

  /** Away from every point with a non-zero total, the choice always
      stops, at the first biome whose prefix weight sum reaches
      draw / randMax of the total. */
  lemma ChoiceAwayFromPoints(bps: seq<BiomePoint>, pos: V2, numBiomes: nat, draw: nat, randMax: nat)
    requires BiomesInRange(bps, numBiomes) && 0 < randMax && draw <= randMax && |bps| > 0
    requires AwayFromAll(bps, pos) && Accumulate(bps, pos, numBiomes).total != Zero
    ensures var t := Accumulate(bps, pos, numBiomes);
            var x := SelectorValue(draw, randMax, t.total);
            var r := ChooseBiome(bps, pos, numBiomes, draw, randMax).0;
            && t.total.Fin?
            && r.Some?
            && x <= SumThrough(t.table, r.value)
            && (forall k | 0 <= k < r.value :: SumThrough(t.table, k) < x)
  {
    var t := Accumulate(bps, pos, numBiomes);
    FiniteTally(bps, pos, numBiomes);
    TallyNonNeg(bps, pos, numBiomes);
    FractionSelects(t.table, t.total, draw, randMax);
  }

  /** The selection over a finite table whose total is its sum. */
  lemma FractionSelects(table: seq<Ext>, total: Ext, draw: nat, randMax: nat)
    requires AllFinite(table) && total.Fin? && total.v == SumFin(table) && 0.0 <= total.v && total != Zero
    requires 0 < randMax && draw <= randMax
    ensures var x := SelectorValue(draw, randMax, total);
            var r := Select(table, Times(Fin(draw as real / randMax as real), total), 0);
            && r.Some?
            && x <= SumThrough(table, r.value)
            && (forall k | 0 <= k < r.value :: SumThrough(table, k) < x)
  {
    FractionBelowTotal(draw, randMax, total.v);
    var x := SelectorValue(draw, randMax, total);
    assert |table| > 0;
    assert table[..0] == [];
    assert Fin(x - SumFin(table[..0])) == Fin(x);
    SelectFiniteStops(table, x);
    SelectFinite(table, x, 0);
  }

  /** A fraction in [0, 1] of a non-negative total is at most the total. */
  lemma FractionBelowTotal(draw: nat, randMax: nat, total: real)
    requires 0 < randMax && draw <= randMax && 0.0 <= total
    ensures Times(Fin(draw as real / randMax as real), Fin(total)) == Fin(SelectorValue(draw, randMax, Fin(total)))
    ensures SelectorValue(draw, randMax, Fin(total)) <= total
  {
    var q := draw as real / randMax as real;
    assert 0.0 <= q <= 1.0;
    MulLeRight(q, 1.0, total);
  }

  /** With zero total weight the biome of the first nearest point is used. */
  lemma ChoiceAtZeroWeight(bps: seq<BiomePoint>, pos: V2, numBiomes: nat, draw: nat, randMax: nat)
    requires BiomesInRange(bps, numBiomes) && 0 < randMax && |bps| > 0
    requires Accumulate(bps, pos, numBiomes).total == Zero
    ensures exists k | 0 <= k < |bps| ::
              && ChooseBiome(bps, pos, numBiomes, draw, randMax).0 == Some(bps[k].biome)
              && FirstClosest(bps, pos, k)
  {
    NearestIsFirstClosest(bps, pos, numBiomes);
  }

  /** As written: a tile lying exactly on a biome point gets an infinite
      weight, the selector becomes +infinity or NaN, and the loop never
      stops, so the tile gets no biome offset at all. */
  lemma CoincidentTileGetsNoBiome(bps: seq<BiomePoint>, pos: V2, numBiomes: nat, draw: nat, randMax: nat, k: nat)
    requires BiomesInRange(bps, numBiomes) && 0 < randMax
    requires k < |bps| && bps[k].position == pos
    ensures ChooseBiome(bps, pos, numBiomes, draw, randMax).0 == None
  {
    var t := Accumulate(bps, pos, numBiomes);
    CoincidentTally(bps, pos, numBiomes, k);
    TallyNonNeg(bps, pos, numBiomes);
    SelectInfiniteNeverStops(t.table, Times(Fin(draw as real / randMax as real), t.total), 0);
  }

  /** A concrete instance: the single point (1, 1) of biome 2 on a tile at (1, 1). */
  lemma CoincidentExample()
    ensures ChooseBiome([BiomePoint(V2(1.0, 1.0), 2)], V2(1.0, 1.0), 3, 7, 10).0 == None
  {
    CoincidentTileGetsNoBiome([BiomePoint(V2(1.0, 1.0), 2)], V2(1.0, 1.0), 3, 7, 10, 0);
  }

  /** The evidently intended choice: a tile on a biome point takes the
      nearest point's biome (its own), as the zero-weight branch would. */
  function ChooseBiomeIntended(bps: seq<BiomePoint>, pos: V2, numBiomes: nat, draw: nat, randMax: nat): (r: (Option<nat>, bool))
    requires BiomesInRange(bps, numBiomes) && 0 < randMax && |bps| > 0
    ensures r.0.Some? ==> r.0.value < numBiomes
  {
    var t := Accumulate(bps, pos, numBiomes);
    if t.total == PosInf then (NearestBiome(bps, pos, numBiomes), false)
    else ChooseBiome(bps, pos, numBiomes, draw, randMax)
  }

  /** The intended choice always picks a biome when there is a point, and
      on a biome point picks that point's biome (the first one there). */
  lemma IntendedChoiceAlwaysPicks(bps: seq<BiomePoint>, pos: V2, numBiomes: nat, draw: nat, randMax: nat)
    requires BiomesInRange(bps, numBiomes) && 0 < randMax && draw <= randMax && |bps| > 0
    ensures ChooseBiomeIntended(bps, pos, numBiomes, draw, randMax).0.Some?
    ensures forall k | 0 <= k < |bps| && bps[k].position == pos && (forall j | 0 <= j < k :: bps[j].position != pos) ::
              ChooseBiomeIntended(bps, pos, numBiomes, draw, randMax).0 == Some(bps[k].biome)
  {
    var t := Accumulate(bps, pos, numBiomes);
    if exists k | 0 <= k < |bps| :: bps[k].position == pos {
      var k :| 0 <= k < |bps| && bps[k].position == pos;
      CoincidentTally(bps, pos, numBiomes, k);
      IntendedPicksCoincident(bps, pos, numBiomes);
    } else if t.total != Zero {
      ChoiceAwayFromPoints(bps, pos, numBiomes, draw, randMax);
    }
  }

  /** On a biome point the nearest point is the first one lying there. */
  lemma IntendedPicksCoincident(bps: seq<BiomePoint>, pos: V2, numBiomes: nat)
    requires BiomesInRange(bps, numBiomes) && |bps| > 0
    ensures forall k | 0 <= k < |bps| && bps[k].position == pos && (forall j | 0 <= j < k :: bps[j].position != pos) ::
              Accumulate(bps, pos, numBiomes).nearest == bps[k].biome
  {
    var m := NearestWitness(bps, pos, numBiomes);
    forall k | 0 <= k < |bps| && bps[k].position == pos && (forall j | 0 <= j < k :: bps[j].position != pos)
      ensures Accumulate(bps, pos, numBiomes).nearest == bps[k].biome
    {
      DistanceProperties(bps[k].position, pos);
      DistanceProperties(bps[m].position, pos);
      assert DistSq(bps[m].position, pos) <= DistSq(bps[k].position, pos);
      assert bps[m].position == pos;
      assert m == k;
    }
  }

  // ---------------------------------------------------------- the byte

  /** material_indices[i] += biome * NUM_TEXTURES_PER_BIOME, on a u8. */
  function AddBiome(cur: byte, choice: Option<nat>, texturesPerBiome: nat): (r: byte)
    ensures choice.None? ==> r == cur
    ensures choice.Some? ==> (r - cur - choice.value * texturesPerBiome) % 256 == 0
  {
    if choice.Some? then (cur + choice.value * texturesPerBiome) % 256 else cur
  }
}

=== FILE: camera.dfy ===
/** Camera (src/camera.cpp): the default camera, move and zoom. The view
    and projection matrices, the frustum bounds and rotateWithOrigin are
    glm and trigonometry and are not part of this model. */
module CameraModel {
  import opened Common
  import opened Geometry

  /** The fields of Camera that camera.cpp reads or writes. */
  datatype Camera = Camera(
    position: V3,
    target: V3,
    zoomLevel: real,
    moveSpeed: real,
    zoomSpeed: real,
    zoomMax: real,
    zoomMin: real,
    ortho: bool,
    theta: real,
    phi: real)

  /** Camera::Camera(). */
  function DefaultCamera(): (c: Camera)
    ensures c.position == V3(10.0, 10.0, 10.0) && c.target == V3(0.0, 0.0, 0.0)
    ensures c.zoomMin <= c.zoomLevel <= c.zoomMax
    ensures c.ortho && c.moveSpeed == 1.0
  {
    Camera(V3(10.0, 10.0, 10.0), V3(0.0, 0.0, 0.0), 24.0, 1.0, 0.9, 128.0, 6.0, true, 0.0, 0.0)
  }

  /** Camera::getViewDirection: position - target. */
  function ViewDirection(c: Camera): V3
  {
    Sub3(c.position, c.target)
  }

  /** Camera::move: position and target both shift by move_speed * direction,
      so the view direction is unchanged and nothing else changes. */
  function Move(c: Camera, direction: V3): (r: Camera)
    ensures ViewDirection(r) == ViewDirection(c)
    ensures Sub3(r.target, c.target) == Scale3(direction, c.moveSpeed)
    ensures r == c.(position := r.position, target := r.target)
  {
    var step := Scale3(direction, c.moveSpeed);
    c.(position := Add3(c.position, step), target := Add3(c.target, step))
  }

  /** fmin(fmax(v, lo), hi). */
  function Clamp(v: real, lo: real, hi: real): (r: real)
    ensures lo <= hi ==> lo <= r <= hi
    ensures lo <= v <= hi ==> r == v
    ensures v < lo ==> r == Min(lo, hi)
    ensures hi < v ==> r == hi
  {
    Min(Max(v, lo), hi)
  }

  /** The zoom level before clamping: level + level / 16 * change, that is
      level * (1 + change / 16). */
  function ZoomStep(level: real, change: real): (z: real)
    ensures z == level * (1.0 + change / 16.0)
  {
    level + level / 16.0 * change
  }

  /** Camera::zoom. Only zoom_level changes; it stays within
      [zoom_min, zoom_max] whenever that interval is non-empty. */
  function Zoom(c: Camera, change: real): (r: Camera)
    ensures r == c.(zoomLevel := r.zoomLevel)
    ensures c.zoomMin <= c.zoomMax ==> c.zoomMin <= r.zoomLevel <= c.zoomMax
    ensures c.zoomMin <= ZoomStep(c.zoomLevel, change) <= c.zoomMax ==>
              r.zoomLevel == ZoomStep(c.zoomLevel, change)
  {
    c.(zoomLevel := Clamp(ZoomStep(c.zoomLevel, change), c.zoomMin, c.zoomMax))
  }

  /** A zero change on an in-range level leaves the camera as it was. */
  lemma ZoomByZeroIsIdentity(c: Camera)
    requires c.zoomMin <= c.zoomLevel <= c.zoomMax
    ensures Zoom(c, 0.0) == c
  {
  }

  /** Two moves add up: moving by d1 then d2 shifts the target by
      move_speed * (d1 + d2). */
  lemma MovesAdd(c: Camera, d1: V3, d2: V3)
    ensures Move(Move(c, d1), d2).target == Add3(c.target, Scale3(Add3(d1, d2), c.moveSpeed))
    ensures Move(Move(c, d1), d2).position == Add3(c.position, Scale3(Add3(d1, d2), c.moveSpeed))
  {
  }
}

=== FILE: chunk_gen.dfy ===
/** The byte-level output of the Chunk constructor (src/terrain.cpp): the
    material pass over tiles (i, j), followed by the biome pass over tile
    indices 0 .. T^2 - 1, both drawing from the one rand() stream that
    srand(seed) starts. */
module ChunkGen {
  import opened Common
  import opened Geometry
  import opened TerrainGrid
  import opened ChunkMaterial
  import opened BiomeSelect

  /** A loop over tile indices k = i0 .. T^2 - 1 in which index k turns its
      byte `cur` into step(cur, k, d) given the next draw number d, and
      consumes uses(k) draws. */
  function IndexPass(mat: seq<byte>, step: (byte, nat, nat) -> byte, uses: nat -> nat, i0: nat, d: nat): (r: (seq<byte>, nat))
    requires |mat| == TilesPerChunk && i0 <= TilesPerChunk
    decreases |mat| - i0
    ensures |r.0| == TilesPerChunk
    ensures forall k | i0 <= k < TilesPerChunk :: r.0[k] == step(mat[k], k, d + UsesBetween(uses, i0, k))
    ensures forall k | 0 <= k < i0 :: r.0[k] == mat[k]
    ensures r.1 == d + UsesBetween(uses, i0, TilesPerChunk)
  {
    if i0 == TilesPerChunk then (mat, d)
    else
      var rest := IndexPass(mat[i0 := step(mat[i0], i0, d)], step, uses, i0 + 1, d + uses(i0));
      IndexStep(mat, step, uses, i0, d, rest.0);
      rest
  }

  /** Draws consumed by the indices i0 .. k - 1. */
  function UsesBetween(uses: nat -> nat, i0: nat, k: nat): nat
    decreases k - i0
  {
    if k <= i0 then 0 else uses(i0) + UsesBetween(uses, i0 + 1, k)
  }

  /** One index of IndexPass. */
  lemma IndexStep(mat: seq<byte>, step: (byte, nat, nat) -> byte, uses: nat -> nat, i0: nat, d: nat, r: seq<byte>)
    requires |mat| == TilesPerChunk && i0 < TilesPerChunk && |r| == TilesPerChunk
    requires forall k | i0 + 1 <= k < TilesPerChunk ::
               r[k] == step(mat[i0 := step(mat[i0], i0, d)][k], k, d + uses(i0) + UsesBetween(uses, i0 + 1, k))
    requires forall k | 0 <= k < i0 + 1 :: r[k] == mat[i0 := step(mat[i0], i0, d)][k]
    ensures forall k | i0 <= k < TilesPerChunk :: r[k] == step(mat[k], k, d + UsesBetween(uses, i0, k))
    ensures forall k | 0 <= k < i0 :: r[k] == mat[k]
  {
    assert UsesBetween(uses, i0, i0) == 0;
  }

  /** The biome step of tile index k with the next draw numbered d. */
  function BiomeStep(bps: seq<BiomePoint>, origin: V2, tileWidth: real, numBiomes: nat, texturesPerBiome: nat,
                     draws: nat -> nat, randMax: nat): (byte, nat, nat) -> byte
    requires BiomesInRange(bps, numBiomes) && 0 < randMax && |bps| > 0
  {
    (cur: byte, k: nat, d: nat) =>
      AddBiome(cur, ChooseBiome(bps, PosFromTileIndex(origin, k, tileWidth), numBiomes, draws(d), randMax).0, texturesPerBiome)
  }

  /** The draws tile index k consumes: one when its total weight is non-zero. */
  function BiomeUses(bps: seq<BiomePoint>, origin: V2, tileWidth: real, numBiomes: nat): nat -> nat
    requires BiomesInRange(bps, numBiomes)
  {
    (k: nat) => if Accumulate(bps, PosFromTileIndex(origin, k, tileWidth), numBiomes).total != ExtReal.Zero then 1 else 0
  }

  /** The configuration of one chunk's generation. */
  datatype Config = Config(origin: V2, tileWidth: real, bps: seq<BiomePoint>, numBiomes: nat,
                           texturesPerBiome: nat, randMax: nat)

  predicate ValidConfig(c: Config)
  {
    BiomesInRange(c.bps, c.numBiomes) && 0 < c.randMax && |c.bps| > 0
  }

  /** The material bytes the Chunk constructor leaves, from the
      uninitialised bytes `init`: the material pass and then the biome pass,
      continuing the draw numbering where the material pass stopped. */
  function ChunkBytes(c: Config, init: seq<byte>, noise: (int, int, int) -> real, draws: nat -> nat): (r: seq<byte>)
    requires ValidConfig(c) && |init| == TilesPerChunk
    ensures |r| == TilesPerChunk
  {
    var m := Materials(init, noise, draws);
    IndexPass(m.0, BiomeStep(c.bps, c.origin, c.tileWidth, c.numBiomes, c.texturesPerBiome, draws, c.randMax),
              BiomeUses(c.bps, c.origin, c.tileWidth, c.numBiomes), 0, m.1).0
  }

  /** Tile index j * T + i is tile (i, j): column i, row j. */
  lemma CellIsTile(origin: V2, tileWidth: real, i: int, j: int)
    requires 0 <= i < TilesPerSide && 0 <= j < TilesPerSide
    ensures 0 <= ByteOf(i, j)
    ensures PosFromTileIndex(origin, ByteOf(i, j), tileWidth)
            == V2(TileCorner(origin.x, i, tileWidth), TileCorner(origin.y, j, tileWidth))
  {
    assert ByteOf(i, j) % 64 == i && ByteOf(i, j) / 64 == j;
  }

  /** Tile index b of the chunk, given the bytes m0 and the draw count m1
      the material pass leaves: the byte m0[b] plus the biome chosen at the
      index's position with the draw that follows the material pass and
      the biome steps of the smaller indices. */
  lemma ChunkByteAt(c: Config, init: seq<byte>, noise: (int, int, int) -> real, draws: nat -> nat, b: nat,
                    m0: seq<byte>, m1: nat)
    requires ValidConfig(c) && |init| == TilesPerChunk && b < TilesPerChunk
    requires Materials(init, noise, draws) == (m0, m1)
    ensures |m0| == TilesPerChunk
    ensures
      var d := m1 + UsesBetween(BiomeUses(c.bps, c.origin, c.tileWidth, c.numBiomes), 0, b);
      ChunkBytes(c, init, noise, draws)[b]
      == AddBiome(m0[b], ChooseBiome(c.bps, PosFromTileIndex(c.origin, b, c.tileWidth), c.numBiomes, draws(d), c.randMax).0,
                  c.texturesPerBiome)
  {
    assert ChunkBytes(c, init, noise, draws)
           == IndexPass(m0, BiomeStep(c.bps, c.origin, c.tileWidth, c.numBiomes, c.texturesPerBiome, draws, c.randMax),
                        BiomeUses(c.bps, c.origin, c.tileWidth, c.numBiomes), 0, m1).0;
    BiomePassAt(c, m0, m1, draws, b);
  }

  /** Tile index b of the biome pass over bytes m, starting with draw d0. */
  lemma BiomePassAt(c: Config, m: seq<byte>, d0: nat, draws: nat -> nat, b: nat)
    requires ValidConfig(c) && |m| == TilesPerChunk && b < TilesPerChunk
    ensures
      var uses := BiomeUses(c.bps, c.origin, c.tileWidth, c.numBiomes);
      var d := d0 + UsesBetween(uses, 0, b);
      IndexPass(m, BiomeStep(c.bps, c.origin, c.tileWidth, c.numBiomes, c.texturesPerBiome, draws, c.randMax), uses, 0, d0).0[b]
      == AddBiome(m[b], ChooseBiome(c.bps, PosFromTileIndex(c.origin, b, c.tileWidth), c.numBiomes, draws(d), c.randMax).0,
                  c.texturesPerBiome)
  {
    var step := BiomeStep(c.bps, c.origin, c.tileWidth, c.numBiomes, c.texturesPerBiome, draws, c.randMax);
    var uses := BiomeUses(c.bps, c.origin, c.tileWidth, c.numBiomes);
    IndexPassAt(m, step, uses, 0, d0, b);
    BiomeStepAt(c, draws, m[b], b, d0 + UsesBetween(uses, 0, b));
  }

  lemma BiomeStepAt(c: Config, draws: nat -> nat, cur: byte, k: nat, d: nat)
    requires ValidConfig(c)
    ensures BiomeStep(c.bps, c.origin, c.tileWidth, c.numBiomes, c.texturesPerBiome, draws, c.randMax)(cur, k, d)
            == AddBiome(cur, ChooseBiome(c.bps, PosFromTileIndex(c.origin, k, c.tileWidth), c.numBiomes, draws(d), c.randMax).0,
                        c.texturesPerBiome)
  {
  }

  /** Index k of the pass from index i0. */
  lemma IndexPassAt(mat: seq<byte>, step: (byte, nat, nat) -> byte, uses: nat -> nat, i0: nat, d: nat, k: nat)
    requires |mat| == TilesPerChunk && i0 <= k < TilesPerChunk
    ensures IndexPass(mat, step, uses, i0, d).0[k] == step(mat[k], k, d + UsesBetween(uses, i0, k))
  {
  }
}

=== FILE: chunk_material.dfy ===
/** The material pass of the Chunk constructor (src/terrain.cpp): every
    tile corner's noise value is mapped to a material band, and the tile's
    material byte is overwritten at each corner whose band is defined. The
    Perlin noise values and the rand() draws are inputs: `noise(i, j, k)` is
    the value computed for corner k of tile (i, j), and `draws(d)` is the
    d-th value rand() returns after srand(seed). The noise-to-height,
    normal and tangent synthesis is not part of this model; only the index
    bounds of the normal accumulation are. */
module ChunkMaterial {
  import opened Common
  import opened TerrainGrid

  // ---------------------------------------------------------- material band

  /** The noise values that draw a coin: the lowest and the highest band. */
  predicate DrawsCoin(noise: real)
  {
    noise <= -4.5 || 8.5 < noise
  }

  /** The band that writes nothing. */
  predicate InGap(noise: real)
  {
    6.5 < noise <= 8.5
  }

  /** The material one corner writes, given the rand() value `draw` that a
      coin band consumes; None for the gap (6.5, 8.5], where nothing is
      written. `rand() % 10` is non-negative since rand() is. */
  function MaterialBand(noise: real, draw: nat): (r: Option<byte>)
    ensures r.None? <==> InGap(noise)
    ensures r.Some? ==> r.value <= 6
    ensures noise <= -4.5 ==> r == Some(if draw % 10 >= 5 then 0 else 1)
    ensures 8.5 < noise ==> r == Some(if draw % 10 >= 5 then 6 else 5)
  {
    if noise <= -4.5 then Some(if draw % 10 >= 5 then 0 else 1)
    else if noise <= -3.5 then Some(1)
    else if noise <= -2.0 then Some(2)
    else if noise <= 2.0 then Some(3)
    else if noise <= 4.0 then Some(4)
    else if noise <= 6.5 then Some(5)
    else if noise > 8.5 then Some(if draw % 10 >= 5 then 6 else 5)
    else None
  }

  /** The band boundaries below the gap. */
  const Thresholds: seq<real> := [-4.5, -3.5, -2.0, 2.0, 4.0, 6.5]

  /** How many of the boundaries lie strictly below x. */
  function CountBelow(ts: seq<real>, x: real): (n: nat)
    ensures n <= |ts|
  {
    if |ts| == 0 then 0 else (if ts[0] < x then 1 else 0) + CountBelow(ts[1..], x)
  }

  /** Between the coin bands and below the gap, the material is the number
      of band boundaries the noise lies above. */
  lemma BandCountsThresholds(noise: real, draw: nat)
    requires -4.5 < noise <= 6.5
    ensures MaterialBand(noise, draw) == Some(CountBelow(Thresholds, noise) as byte)
  {
    var t := Thresholds;
    assert CountBelow(t, noise) == 1 + CountBelow(t[1..], noise);
    assert t[1..][1..][1..][1..][1..][1..] == [];
    calc {
      CountBelow(t[1..], noise);
      (if -3.5 < noise then 1 else 0) + CountBelow(t[1..][1..], noise);
      (if -3.5 < noise then 1 else 0) + (if -2.0 < noise then 1 else 0) + CountBelow(t[1..][1..][1..], noise);
      (if -3.5 < noise then 1 else 0) + (if -2.0 < noise then 1 else 0) + (if 2.0 < noise then 1 else 0)
        + CountBelow(t[1..][1..][1..][1..], noise);
      (if -3.5 < noise then 1 else 0) + (if -2.0 < noise then 1 else 0) + (if 2.0 < noise then 1 else 0)
        + (if 4.0 < noise then 1 else 0) + CountBelow(t[1..][1..][1..][1..][1..], noise);
      (if -3.5 < noise then 1 else 0) + (if -2.0 < noise then 1 else 0) + (if 2.0 < noise then 1 else 0)
        + (if 4.0 < noise then 1 else 0) + (if 6.5 < noise then 1 else 0);
    }
  }

  /** Outside the two coin bands the draw does not matter. */
  lemma CoinMattersOnlyAtExtremes(noise: real, d1: nat, d2: nat)
    requires !DrawsCoin(noise)
    ensures MaterialBand(noise, d1) == MaterialBand(noise, d2)
  {
  }

  /** Below the gap the bands rise with the noise. */
  lemma BandMonotone(a: real, b: real, da: nat, db: nat)
    requires -4.5 < a <= b <= 6.5
    ensures MaterialBand(a, da).value <= MaterialBand(b, db).value
  {
  }

  // ---------------------------------------------------------- one tile

  /** Coins drawn for a run of corner noise values. */
  function CoinCount(ns: seq<real>): (c: nat)
    ensures c <= |ns|
  {
    if |ns| == 0 then 0 else (if DrawsCoin(ns[0]) then 1 else 0) + CoinCount(ns[1..])
  }

  lemma {:induction false} CoinCountAppend(a: seq<real>, b: seq<real>)
    decreases |a|
    ensures CoinCount(a + b) == CoinCount(a) + CoinCount(b)
  {
    if |a| > 0 {
      assert (a + b)[1..] == a[1..] + b;
      CoinCountAppend(a[1..], b);
    } else {
      assert a + b == b;
    }
  }

  /** The writes of corners ns[0], ns[1], ... in turn to one material byte
      starting at `cur`, with the next rand() draw numbered d. Returns the
      final byte and the next draw number. */
  function TileBands(cur: byte, ns: seq<real>, draws: nat -> nat, d: nat): (r: (byte, nat))
    decreases |ns|
    ensures r.1 == d + CoinCount(ns)
  {
    if |ns| == 0 then (cur, d)
    else
      var b := MaterialBand(ns[0], draws(d));
      TileBands(if b.Some? then b.value else cur, ns[1..], draws, d + (if DrawsCoin(ns[0]) then 1 else 0))
  }

  /** A tile whose corners all fall in the gap keeps its byte. */
  lemma {:induction false} AllGapKeepsByte(cur: byte, ns: seq<real>, draws: nat -> nat, d: nat)
    requires forall k | 0 <= k < |ns| :: InGap(ns[k])
    decreases |ns|
    ensures TileBands(cur, ns, draws, d).0 == cur
  {
    if |ns| > 0 {
      assert InGap(ns[0]);
      assert forall k | 0 <= k < |ns[1..]| :: InGap(ns[1..][k]) by {
        forall k | 0 <= k < |ns[1..]| ensures InGap(ns[1..][k]) {
          assert ns[1..][k] == ns[k + 1];
        }
      }
      AllGapKeepsByte(cur, ns[1..], draws, d + (if DrawsCoin(ns[0]) then 1 else 0));
    }
  }

  /** A tile with a corner outside the gap ends with a band value. */
  lemma {:induction false} SomeBandBoundsByte(cur: byte, ns: seq<real>, draws: nat -> nat, d: nat, k: nat)
    requires k < |ns| && !InGap(ns[k])
    decreases |ns|
    ensures TileBands(cur, ns, draws, d).0 <= 6
  {
    var b := MaterialBand(ns[0], draws(d));
    var next := if b.Some? then b.value else cur;
    var d1 := d + (if DrawsCoin(ns[0]) then 1 else 0);
    var later := exists k' | k < k' < |ns| :: !InGap(ns[k']);
    if later {
      var k' :| k < k' < |ns| && !InGap(ns[k']);
      assert ns[1..][k' - 1] == ns[k'];
      SomeBandBoundsByte(next, ns[1..], draws, d1, k' - 1);
    } else {
      LastWriteWins(cur, ns, draws, d, k);
    }
  }

  /** Last write wins: the tile's byte is the band of the last corner outside
      the gap, computed with the draw number that corner sees. */
  lemma {:induction false} LastWriteWins(cur: byte, ns: seq<real>, draws: nat -> nat, d: nat, k: nat)
    requires k < |ns| && !InGap(ns[k])
    requires forall k' | k < k' < |ns| :: InGap(ns[k'])
    decreases k
    ensures TileBands(cur, ns, draws, d).0 == MaterialBand(ns[k], draws(d + CoinCount(ns[..k]))).value
  {
    var b := MaterialBand(ns[0], draws(d));
    var next := if b.Some? then b.value else cur;
    var d1 := d + (if DrawsCoin(ns[0]) then 1 else 0);
    if k == 0 {
      assert forall k' | 0 <= k' < |ns[1..]| :: InGap(ns[1..][k']) by {
        forall k' | 0 <= k' < |ns[1..]| ensures InGap(ns[1..][k']) {
          assert ns[1..][k'] == ns[k' + 1];
        }
      }
      assert ns[..0] == [];
      AllGapKeepsByte(next, ns[1..], draws, d1);
    } else {
      LastWriteWins(next, ns[1..], draws, d1, k - 1);
      assert ns[..k] == [ns[0]] + ns[1..][..k - 1];
      CoinCountAppend([ns[0]], ns[1..][..k - 1]);
    }
  }

  // ---------------------------------------------------------- the whole pass

  /** The four corner noise values of tile (i, j). */
  function TileNoises(noise: (int, int, int) -> real, i: int, j: int): (ns: seq<real>)
    ensures |ns| == 4 && forall k | 0 <= k < 4 :: ns[k] == noise(i, j, k)
  {
    [noise(i, j, 0), noise(i, j, 1), noise(i, j, 2), noise(i, j, 3)]
  }

  /** Tile (i, j) writes material_indices[j * T + i]. */
  function ByteOf(i: int, j: int): int
  {
    j * 64 + i
  }

  lemma ByteOfInRange(i: int, j: int)
    requires 0 <= i < TilesPerSide && 0 <= j < TilesPerSide
    ensures 0 <= ByteOf(i, j) < TilesPerChunk
  {
  }

  /** Distinct tiles write distinct bytes, so every byte is written by
      exactly one tile. */
  lemma ByteOfInjective(i: int, j: int, i2: int, j2: int)
    requires 0 <= i < TilesPerSide && 0 <= j < TilesPerSide
    requires 0 <= i2 < TilesPerSide && 0 <= j2 < TilesPerSide
    requires ByteOf(i, j) == ByteOf(i2, j2)
    ensures i == i2 && j == j2
  {
  }

  /** Tile (i, j) comes at or after tile (i0, j0) in the i-outer, j-inner
      loop order. */
  predicate NotBefore(i0: int, j0: int, i: int, j: int)
  {
    i0 < i || (i0 == i && j0 <= j)
  }

  /** Draws consumed by the tiles from (i0, j0) up to, not including,
      (i, j) in loop order, when tile (i', j') consumes coins(i', j'). */
  function CoinsBetween(coins: (int, int) -> nat, i0: int, j0: int, i: int, j: int): nat
    requires 0 <= i0 && 0 <= j0 <= TilesPerSide && j <= TilesPerSide
    decreases i - i0, TilesPerSide - j0
  {
    if !NotBefore(i0, j0, i, j) || (i0 == i && j0 == j) || i0 >= TilesPerSide then 0
    else if j0 == TilesPerSide then CoinsBetween(coins, i0 + 1, 0, i, j)
    else coins(i0, j0) + CoinsBetween(coins, i0, j0 + 1, i, j)
  }

  /** The i-outer, j-inner loop of the Chunk constructor from tile (i0, j0)
      on, with the next rand() draw numbered d, where tile (i, j) turns its
      byte `cur` into write(cur, i, j, d') and consumes coins(i, j) draws.
      Every later tile's byte is written once, with the draw number the
      earlier tiles leave behind, and every earlier tile's byte is
      untouched. Returns the bytes and the next draw number. */
  function MaterialPass(mat: seq<byte>, write: (byte, int, int, nat) -> byte, coins: (int, int) -> nat,
                        i0: nat, j0: nat, d: nat): (r: (seq<byte>, nat))
    requires |mat| == TilesPerChunk && i0 <= TilesPerSide && j0 <= TilesPerSide
    decreases |mat| - i0, |mat| - j0
    ensures |r.0| == TilesPerChunk
    ensures forall i, j | 0 <= i < TilesPerSide && 0 <= j < TilesPerSide && NotBefore(i0, j0, i, j) ::
              r.0[ByteOf(i, j)] == write(mat[ByteOf(i, j)], i, j, d + CoinsBetween(coins, i0, j0, i, j))
    ensures forall i, j | 0 <= i < TilesPerSide && 0 <= j < TilesPerSide && !NotBefore(i0, j0, i, j) ::
              r.0[ByteOf(i, j)] == mat[ByteOf(i, j)]
    ensures r.1 == d + CoinsBetween(coins, i0, j0, TilesPerSide, 0)
  {
    if i0 == TilesPerSide then (mat, d)
    else if j0 == TilesPerSide then
      var r := MaterialPass(mat, write, coins, i0 + 1, 0, d);
      RowEnd(mat, write, coins, i0, d, r.0);
      r
    else
      var rest := MaterialPass(AfterTile(mat, write, i0, j0, d), write, coins, i0, j0 + 1, d + coins(i0, j0));
      PassStep(mat, write, coins, i0, j0, d, rest.0);
      rest
  }

  /** `r` is what the loop from tile (i0, j0) with draw d leaves: every tile
      at or after (i0, j0) written once, every earlier tile untouched. */
  predicate PassFrom(mat: seq<byte>, write: (byte, int, int, nat) -> byte, coins: (int, int) -> nat,
                     i0: nat, j0: nat, d: nat, r: seq<byte>)
    requires |mat| == TilesPerChunk && |r| == TilesPerChunk && i0 <= TilesPerSide && j0 <= TilesPerSide
  {
    && (forall i, j | 0 <= i < TilesPerSide && 0 <= j < TilesPerSide && NotBefore(i0, j0, i, j) ::
          r[ByteOf(i, j)] == write(mat[ByteOf(i, j)], i, j, d + CoinsBetween(coins, i0, j0, i, j)))
    && (forall i, j | 0 <= i < TilesPerSide && 0 <= j < TilesPerSide && !NotBefore(i0, j0, i, j) ::
          r[ByteOf(i, j)] == mat[ByteOf(i, j)])
  }

  /** The byte sequence after tile (i0, j0) has written its byte. */
  function AfterTile(mat: seq<byte>, write: (byte, int, int, nat) -> byte, i0: nat, j0: nat, d: nat): (r: seq<byte>)
    requires |mat| == TilesPerChunk && i0 < TilesPerSide && j0 < TilesPerSide
    ensures |r| == TilesPerChunk
  {
    ByteOfInRange(i0, j0);
    mat[ByteOf(i0, j0) := write(mat[ByteOf(i0, j0)], i0, j0, d)]
  }

  /** Moving from the end of row i0 to the start of row i0 + 1 draws nothing. */
  lemma RowEnd(mat: seq<byte>, write: (byte, int, int, nat) -> byte, coins: (int, int) -> nat, i0: nat, d: nat, r: seq<byte>)
    requires |mat| == TilesPerChunk && i0 < TilesPerSide && |r| == TilesPerChunk
    requires PassFrom(mat, write, coins, i0 + 1, 0, d, r)
    ensures PassFrom(mat, write, coins, i0, TilesPerSide, d, r)
  {
  }

  /** One tile of MaterialPass: writing tile (i0, j0)'s byte first and then
      running the rest of the loop gives the pass from (i0, j0). */
  lemma PassStep(mat: seq<byte>, write: (byte, int, int, nat) -> byte, coins: (int, int) -> nat,
                 i0: nat, j0: nat, d: nat, r: seq<byte>)
    requires |mat| == TilesPerChunk && i0 < TilesPerSide && j0 < TilesPerSide && |r| == TilesPerChunk
    requires PassFrom(AfterTile(mat, write, i0, j0, d), write, coins, i0, j0 + 1, d + coins(i0, j0), r)
    ensures PassFrom(mat, write, coins, i0, j0, d, r)
  {
    forall i, j | 0 <= i < TilesPerSide && 0 <= j < TilesPerSide
      ensures NotBefore(i0, j0, i, j) ==> r[ByteOf(i, j)] == write(mat[ByteOf(i, j)], i, j, d + CoinsBetween(coins, i0, j0, i, j))
      ensures !NotBefore(i0, j0, i, j) ==> r[ByteOf(i, j)] == mat[ByteOf(i, j)]
    {
      StepAt(mat, write, coins, i0, j0, d, r, i, j);
    }
  }

  /** PassStep at one tile. */
  lemma StepAt(mat: seq<byte>, write: (byte, int, int, nat) -> byte, coins: (int, int) -> nat,
               i0: nat, j0: nat, d: nat, r: seq<byte>, i: int, j: int)
    requires |mat| == TilesPerChunk && i0 < TilesPerSide && j0 < TilesPerSide && |r| == TilesPerChunk
    requires 0 <= i < TilesPerSide && 0 <= j < TilesPerSide
    requires PassFrom(AfterTile(mat, write, i0, j0, d), write, coins, i0, j0 + 1, d + coins(i0, j0), r)
    ensures NotBefore(i0, j0, i, j) ==> r[ByteOf(i, j)] == write(mat[ByteOf(i, j)], i, j, d + CoinsBetween(coins, i0, j0, i, j))
    ensures !NotBefore(i0, j0, i, j) ==> r[ByteOf(i, j)] == mat[ByteOf(i, j)]
  {
    ByteOfInRange(i0, j0);
    ByteOfInRange(i, j);
    var mat' := AfterTile(mat, write, i0, j0, d);
    if i == i0 && j == j0 {
      assert CoinsBetween(coins, i0, j0, i, j) == 0;
      assert r[ByteOf(i, j)] == mat'[ByteOf(i, j)];
    } else {
      if ByteOf(i, j) == ByteOf(i0, j0) {
        ByteOfInjective(i, j, i0, j0);
      }
      assert mat'[ByteOf(i, j)] == mat[ByteOf(i, j)];
      if NotBefore(i0, j0, i, j) {
        assert CoinsBetween(coins, i0, j0, i, j) == coins(i0, j0) + CoinsBetween(coins, i0, j0 + 1, i, j);
      }
    }
  }

  /** The writes of tile (i, j) of a chunk: its four corners in turn. */
  function TileWrite(noise: (int, int, int) -> real, draws: nat -> nat): (byte, int, int, nat) -> byte
  {
    (cur: byte, i: int, j: int, d: nat) => TileBands(cur, TileNoises(noise, i, j), draws, d).0
  }

  /** The draws tile (i, j) consumes. */
  function TileCoins(noise: (int, int, int) -> real): (int, int) -> nat
  {
    (i: int, j: int) => CoinCount(TileNoises(noise, i, j))
  }

  /** The whole texture loop, from tile (0, 0) with draw 0; returns the
      material bytes and the number of draws consumed. */
  function Materials(init: seq<byte>, noise: (int, int, int) -> real, draws: nat -> nat): (r: (seq<byte>, nat))
    requires |init| == TilesPerChunk
    ensures |r.0| == TilesPerChunk
    ensures forall i, j | 0 <= i < TilesPerSide && 0 <= j < TilesPerSide ::
              r.0[ByteOf(i, j)] == TileBands(init[ByteOf(i, j)], TileNoises(noise, i, j), draws,
                                           CoinsBetween(TileCoins(noise), 0, 0, i, j)).0
    ensures r.1 == CoinsBetween(TileCoins(noise), 0, 0, TilesPerSide, 0)
  {
    var r := MaterialPass(init, TileWrite(noise, draws), TileCoins(noise), 0, 0, 0);
    assert forall i, j | 0 <= i < TilesPerSide && 0 <= j < TilesPerSide ::
             r.0[ByteOf(i, j)] == TileWrite(noise, draws)(init[ByteOf(i, j)], i, j, CoinsBetween(TileCoins(noise), 0, 0, i, j));
    r
  }

  /** Each tile's draw count in the loop is the one its corner writes
      consume, so the loop threads the draws exactly as TileBands does. */
  lemma TileCoinsMatchBands(noise: (int, int, int) -> real, draws: nat -> nat, cur: byte, i: int, j: int, d: nat)
    ensures TileBands(cur, TileNoises(noise, i, j), draws, d).1 == d + TileCoins(noise)(i, j)
  {
  }

  /** The byte of tile (i, j) is material_indices[j * T + i]; it keeps its
      uninitialised value when all four corners fall in the gap, and
      otherwise holds a band value of at most 6. */
  lemma MaterialsPerTile(init: seq<byte>, noise: (int, int, int) -> real, draws: nat -> nat, i: int, j: int)
    requires |init| == TilesPerChunk && 0 <= i < TilesPerSide && 0 <= j < TilesPerSide
    ensures 0 <= ByteOf(i, j) < TilesPerChunk
    ensures (forall k | 0 <= k < 4 :: InGap(noise(i, j, k))) ==>
              Materials(init, noise, draws).0[ByteOf(i, j)] == init[ByteOf(i, j)]
    ensures (exists k | 0 <= k < 4 :: !InGap(noise(i, j, k))) ==>
              Materials(init, noise, draws).0[ByteOf(i, j)] <= 6
  {
    ByteOfInRange(i, j);
    var ns := TileNoises(noise, i, j);
    var d := CoinsBetween(TileCoins(noise), 0, 0, i, j);
    if exists k | 0 <= k < 4 :: !InGap(noise(i, j, k)) {
      var k :| 0 <= k < 4 && !InGap(noise(i, j, k));
      SomeBandBoundsByte(init[ByteOf(i, j)], ns, draws, d, k);
    } else {
      AllGapKeepsByte(init[ByteOf(i, j)], ns, draws, d);
    }
  }

  // ---------------------------------------------------------- normal slots

  /** The six normal accumulators tile (i, j) adds to: three for each of its
      two triangles. */
  function NormalSlots(i: int, j: int): seq<int>
  {
    [ i * 64 + j, i * 64 + (j + 1), (i + 1) * 64 + j,
      i * 64 + j, (i + 1) * 64 + j, (i + 1) * 64 + (j + 1) ]
  }

  /** The normals array has (T + 1)^2 entries and every slot is inside it. */
  lemma NormalSlotsInRange(i: int, j: int)
    requires 0 <= i < TilesPerSide && 0 <= j < TilesPerSide
    ensures forall s | 0 <= s < 6 :: 0 <= NormalSlots(i, j)[s] < (TilesPerSide + 1) * (TilesPerSide + 1)
  {
  }

  /** With stride T instead of T + 1, the last slot of one row is the first
      of the next: tile (i, T - 1) and tile (i + 1, 0) share an accumulator
      although they are not neighbours. */
  lemma NormalSlotsAlias(i: int)
    requires 0 <= i < TilesPerSide - 1
    ensures NormalSlots(i, TilesPerSide - 1)[1] == NormalSlots(i + 1, 0)[0]
  {
  }
}

=== FILE: common.dfy ===
/** Small shared vocabulary: optional values, bytes and real min/max.
    Every module of the terrain model imports this one. */
module Common {

  /** A value that may be absent: a null pointer or an empty std::optional. */
  datatype Option<+T> = None | Some(value: T)

  /** The outcome of an operation whose source can run into undefined
      behaviour (a null, dangling or uninitialised pointer dereference). */
  datatype Result<+T> = Ok(value: T) | Undefined(reason: string)

  /** An unsigned 8-bit value, as stored in the per-tile material and
      line-of-sight arrays. */
  type byte = x: int | 0 <= x < 256

  /** std::min / fmin on reals (the first argument wins a tie, which is
      irrelevant for reals). */
  function Min(a: real, b: real): (r: real)
    ensures r <= a && r <= b
    ensures r == a || r == b
  {
    if b < a then b else a
  }

  /** std::max / fmax on reals. */
  function Max(a: real, b: real): (r: real)
    ensures a <= r && b <= r
    ensures r == a || r == b
  {
    if a < b then b else a
  }

  /** Conversion of a finite double to `int`: C++ truncates toward zero. */
  function TruncToInt(x: real): (r: int)
    ensures 0.0 <= x ==> r as real <= x < r as real + 1.0
    ensures x < 0.0 ==> r as real - 1.0 < x <= r as real
  {
    if 0.0 <= x then x.Floor else -((-x).Floor)
  }

  /** n fits a 32-bit signed `int`: a conversion to `int` of a value outside
      this range is undefined behaviour in C++. */
  predicate InInt32(n: int)
  {
    -0x8000_0000 <= n < 0x8000_0000
  }

  /** Truncation is exact on whole numbers. */
  lemma TruncToIntExact(n: int)
    ensures TruncToInt(n as real) == n
  {
  }

  /** Integer powers of two used when modelling unsigned conversions. */
  const TWO_TO_THE_64: int := 0x1_0000_0000_0000_0000

  /** The index of element (row, col) of a row-major buffer with `stride`
      elements per row: a terminal cell y * width + x, a pixel byte
      i * channels + b. */
  function RowMajor(stride: int, row: int, col: int): int
  {
    row * stride + col
  }

  lemma MulLeft(a: int, b: int, w: int)
    requires a <= b && 0 <= w
    ensures a * w <= b * w
  {
  }

  /** Every element of a rows x stride buffer has an index inside it. */
  lemma RowMajorInRange(stride: int, rows: int, row: int, col: int)
    requires 0 <= row < rows && 0 <= col < stride
    ensures 0 <= RowMajor(stride, row, col) < rows * stride
  {
    assert 0 <= row * stride by {
      assert 0 <= row && 0 <= stride;
    }
    calc {
      RowMajor(stride, row, col);
      row * stride + col;
    <
      row * stride + stride;
      (row + 1) * stride;
    <= { MulLeft(row + 1, rows, stride); }
      rows * stride;
    }
  }

  /** Distinct elements have distinct indices. */
  lemma RowMajorInjective(stride: int, row1: int, col1: int, row2: int, col2: int)
    requires 0 <= col1 < stride && 0 <= col2 < stride
    ensures RowMajor(stride, row1, col1) == RowMajor(stride, row2, col2) <==> row1 == row2 && col1 == col2
  {
    if row1 < row2 {
      RowsApart(stride, row1, col1, row2, col2);
    } else if row2 < row1 {
      RowsApart(stride, row2, col2, row1, col1);
    }
  }

  lemma RowsApart(stride: int, row1: int, col1: int, row2: int, col2: int)
    requires 0 <= col1 < stride && 0 <= col2 < stride && row1 < row2
    ensures RowMajor(stride, row1, col1) < RowMajor(stride, row2, col2)
  {
    calc {
      RowMajor(stride, row1, col1);
      row1 * stride + col1;
    <
      (row1 + 1) * stride;
    <= { MulLeft(row1 + 1, row2, stride); }
      row2 * stride;
    <=
      row2 * stride + col2;
      RowMajor(stride, row2, col2);
    }
  }
}

=== FILE: ext_real.dfy ===
/** The special values of IEEE 754 doubles that the biome weighting in
    src/terrain.cpp can reach: a division by a zero squared distance gives
    +infinity, and infinity minus infinity or zero times infinity gives NaN.
    Finite values are modelled as reals, without rounding. */
module ExtReal {

  datatype Ext = Fin(v: real) | PosInf | NegInf | NaN

  const Zero: Ext := Fin(0.0)

  /** IEEE addition. */
  function Plus(a: Ext, b: Ext): (r: Ext)
    ensures a.Fin? && b.Fin? ==> r == Fin(a.v + b.v)
    ensures a.NaN? || b.NaN? ==> r.NaN?
    ensures (a == PosInf && b == NegInf) || (a == NegInf && b == PosInf) ==> r.NaN?
  {
    match (a, b)
    case (NaN, _) => NaN
    case (_, NaN) => NaN
    case (PosInf, NegInf) => NaN
    case (NegInf, PosInf) => NaN
    case (PosInf, _) => PosInf
    case (_, PosInf) => PosInf
    case (NegInf, _) => NegInf
    case (_, NegInf) => NegInf
    case (Fin(x), Fin(y)) => Fin(x + y)
  }

  /** IEEE negation. */
  function Neg(a: Ext): (r: Ext)
    ensures a.Fin? <==> r.Fin?
    ensures a.Fin? ==> r.v == -a.v
    ensures a.NaN? <==> r.NaN?
    ensures a == PosInf <==> r == NegInf
  {
    match a
    case Fin(x) => Fin(-x)
    case PosInf => NegInf
    case NegInf => PosInf
    case NaN => NaN
  }

  /** IEEE subtraction: a + (-b). */
  function Minus(a: Ext, b: Ext): (r: Ext)
    ensures a.Fin? && b.Fin? ==> r == Fin(a.v - b.v)
    ensures a == PosInf && b == PosInf ==> r.NaN?
    ensures a == PosInf && b.Fin? ==> r == PosInf
    ensures a.NaN? ==> r.NaN?
  {
    Plus(a, Neg(b))
  }

  /** IEEE multiplication; zero times an infinity is NaN. */
  function Times(a: Ext, b: Ext): (r: Ext)
    ensures a.Fin? && b.Fin? ==> r == Fin(a.v * b.v)
    ensures a == Zero && b == PosInf ==> r.NaN?
    ensures a.Fin? && a.v > 0.0 && b == PosInf ==> r == PosInf
  {
    match (a, b)
    case (NaN, _) => NaN
    case (_, NaN) => NaN
    case (Fin(_), Fin(_)) => Fin(a.v * b.v)
    case (Fin(x), inf) => if x == 0.0 then NaN else if x > 0.0 then inf else Neg(inf)
    case (inf, Fin(y)) => if y == 0.0 then NaN else if y > 0.0 then inf else Neg(inf)
    case (PosInf, PosInf) => PosInf
    case (NegInf, NegInf) => PosInf
    case (_, _) => NegInf
  }

  /** IEEE a < b: false whenever either side is NaN. */
  predicate Below(a: Ext, b: Ext)
  {
    match (a, b)
    case (NaN, _) => false
    case (_, NaN) => false
    case (Fin(x), Fin(y)) => x < y
    case (NegInf, NegInf) => false
    case (NegInf, _) => true
    case (_, PosInf) => a != PosInf
    case (_, _) => false
  }

  /** IEEE a <= b: false whenever either side is NaN. */
  predicate AtMost(a: Ext, b: Ext)
  {
    !a.NaN? && !b.NaN? && (a == b || Below(a, b))
  }

  /** Neither relation holds for NaN, so a comparison never rescues it. */
  lemma NaNIsUnordered(a: Ext)
    ensures !Below(NaN, a) && !Below(a, NaN) && !AtMost(NaN, a) && !AtMost(a, NaN)
  {
  }

  /** Below is a strict total order on the non-NaN values. */
  lemma BelowIsStrictTotalOrder(a: Ext, b: Ext, c: Ext)
    requires !a.NaN? && !b.NaN? && !c.NaN?
    ensures !Below(a, a)
    ensures Below(a, b) && Below(b, c) ==> Below(a, c)
    ensures a != b ==> (Below(a, b) <==> !Below(b, a))
  {
  }
}

=== FILE: geometry.dfy ===
/** Vectors, axis-aligned rectangles and circles of include/geometry.h, over
    the reals.

    The source measures lengths with std::sqrt. No member here computes a
    square root: distances are compared through their squares, and the lemmas
    that speak about the source's own expressions take the square root `m` of
    a quantity `x` as an argument constrained by `IsSqrt(x, m)`. */
module Geometry {
  import opened Common
  import opened RealArith

  // ---------------------------------------------------------------- vectors

  /** v2<T> instantiated at float. */
  datatype V2 = V2(x: real, y: real)

  /** v3<T> instantiated at float (also stands for glm::vec3). */
  datatype V3 = V3(x: real, y: real, z: real)

  function Add(a: V2, b: V2): V2 { V2(a.x + b.x, a.y + b.y) }

  function Sub(a: V2, b: V2): V2 { V2(a.x - b.x, a.y - b.y) }

  function Scale(a: V2, k: real): V2 { V2(a.x * k, a.y * k) }

  function Add3(a: V3, b: V3): V3 { V3(a.x + b.x, a.y + b.y, a.z + b.z) }

  function Sub3(a: V3, b: V3): V3 { V3(a.x - b.x, a.y - b.y, a.z - b.z) }

  function Scale3(a: V3, k: real): V3 { V3(a.x * k, a.y * k, a.z * k) }

  function Dot3(a: V3, b: V3): real { a.x * b.x + a.y * b.y + a.z * b.z }

  function Cross(a: V3, b: V3): V3
  {
    V3(a.y * b.z - a.z * b.y, a.z * b.x - a.x * b.z, a.x * b.y - a.y * b.x)
  }

  function LengthSq3(a: V3): real { Dot3(a, a) }

  /** The square of v2::magnitude. */
  function MagnitudeSq(a: V2): real { Sq(a.x) + Sq(a.y) }

  /** The square of v2::distanceFrom. */
  function DistSq(a: V2, b: V2): real { MagnitudeSq(Sub(a, b)) }

  /** `m` is the non-negative square root of `x`: what std::sqrt returns. */
  predicate IsSqrt(x: real, m: real) { 0.0 <= m && Sq(m) == x }

  /** (a + b) - b == a, and subtraction is the inverse of addition. */
  lemma AddSubInverse(a: V2, b: V2)
    ensures Sub(Add(a, b), b) == a
    ensures Add(Sub(a, b), b) == a
    ensures Add(a, b) == Add(b, a)
  {
  }

  /** distanceFrom is symmetric, non-negative, and zero exactly on equal points. */
  lemma DistanceProperties(a: V2, b: V2)
    ensures DistSq(a, b) == DistSq(b, a)
    ensures 0.0 <= DistSq(a, b)
    ensures DistSq(a, b) == 0.0 <==> a == b
  {
    var dx, dy := a.x - b.x, a.y - b.y;
    SqNeg(dx);
    SqNeg(dy);
    assert b.x - a.x == -dx && b.y - a.y == -dy;
    SqNonNeg(dx);
    SqNonNeg(dy);
    if DistSq(a, b) == 0.0 {
      SqZero(dx);
      SqZero(dy);
    }
  }

  /** `sqrt(x) <= r` and `sqrt(x) < r`, restated without the square root. */
  lemma SqrtCompare(x: real, m: real, r: real)
    requires IsSqrt(x, m)
    ensures m <= r <==> 0.0 <= r && x <= Sq(r)
    ensures m < r <==> 0.0 < r && x < Sq(r)
  {
    if 0.0 <= r {
      SqMonotoneIff(m, r);
    }
  }

  // ---------------------------------------------------------------- ordering

  /** v2::operator<: x first, then y. It orders the keys of the chunk map. */
  predicate Less(a: V2, b: V2)
  {
    if a.x < b.x then true else if a.x > b.x then false else a.y < b.y
  }

  /** v2::operator< is a strict total order: irreflexive, transitive, and
      exactly one of a < b, b < a holds for distinct points. */
  lemma LessIsStrictTotalOrder(a: V2, b: V2, c: V2)
    ensures !Less(a, a)
    ensures Less(a, b) && Less(b, c) ==> Less(a, c)
    ensures a != b ==> (Less(a, b) <==> !Less(b, a))
    ensures a == b <==> !Less(a, b) && !Less(b, a)
  {
  }

  /** v3::operator< compares x and then z; y is never looked at. */
  predicate Less3(a: V3, b: V3)
  {
    if a.x < b.x then true else if a.x > b.x then false else a.z < b.z
  }

  /** Two v3 values that differ only in y are mutually not-less, so an
      ordered container keyed by v3 would treat them as the same key. */
  lemma Less3IgnoresY(a: V3, b: V3)
    requires a.x == b.x && a.z == b.z
    ensures !Less3(a, b) && !Less3(b, a)
    ensures a.y != b.y ==> a != b
  {
  }

  // ------------------------------------------------------- rectangles, circles

  /** AARect2D: `pos` is one corner and `pos + dim` the opposite one. */
  datatype Rect = Rect(pos: V2, dim: V2)

  /** Circle2D. */
  datatype Circle = Circle(pos: V2, radius: real)

  function Center(r: Rect): V2 { V2(r.pos.x + r.dim.x / 2.0, r.pos.y + r.dim.y / 2.0) }

  /** The closed region [pos, pos + dim] (empty on an axis whose dim is negative). */
  predicate InClosedRect(p: V2, r: Rect)
  {
    r.pos.x <= p.x <= r.pos.x + r.dim.x && r.pos.y <= p.y <= r.pos.y + r.dim.y
  }

  /** The open region (pos, pos + dim). */
  predicate InOpenRect(p: V2, r: Rect)
  {
    r.pos.x < p.x < r.pos.x + r.dim.x && r.pos.y < p.y < r.pos.y + r.dim.y
  }

  predicate NonNegativeDims(r: Rect) { 0.0 <= r.dim.x && 0.0 <= r.dim.y }

  /** `distanceFrom(c.pos) <= c.radius`, without the square root. */
  predicate WithinRadius(p: V2, c: Circle)
  {
    0.0 <= c.radius && DistSq(p, c.pos) <= Sq(c.radius)
  }

  /** WithinRadius is exactly the source's `sqrt(|p - c|^2) <= radius`. */
  lemma WithinRadiusIsDistanceTest(p: V2, c: Circle, m: real)
    requires IsSqrt(DistSq(p, c.pos), m)
    ensures WithinRadius(p, c) <==> m <= c.radius
  {
    SqrtCompare(DistSq(p, c.pos), m, c.radius);
  }

  /** The square that circumscribes a circle, as updateLOS builds it. */
  function BoundingRect(c: Circle): (r: Rect)
    ensures 0.0 <= c.radius ==> NonNegativeDims(r)
    ensures Center(r) == c.pos
  {
    Rect(V2(c.pos.x - c.radius, c.pos.y - c.radius), V2(c.radius * 2.0, c.radius * 2.0))
  }

  // ---------------------------------------------------------- intersection

  /** One axis of getIntersectingRect: the larger of the two "min" edges. */
  function AxisLo(a0: real, a1: real, b0: real, b1: real): real
  {
    Max(Min(a0, b1), Min(a1, b0))
  }

  /** One axis of getIntersectingRect: the smaller of the two "max" edges. */
  function AxisHi(a0: real, a1: real, b0: real, b1: real): real
  {
    Min(Max(a0, b1), Max(a1, b0))
  }

  /** AARect2D::getIntersectingRect exactly as written: per axis it keeps
      AxisLo..AxisHi, and it answers "no intersection" when the width or the
      height is not positive. */
  function GetIntersectingRect(a: Rect, b: Rect): Option<Rect>
  {
    var tl := V2(AxisLo(a.pos.x, a.pos.x + a.dim.x, b.pos.x, b.pos.x + b.dim.x),
                 AxisLo(a.pos.y, a.pos.y + a.dim.y, b.pos.y, b.pos.y + b.dim.y));
    var br := V2(AxisHi(a.pos.x, a.pos.x + a.dim.x, b.pos.x, b.pos.x + b.dim.x),
                 AxisHi(a.pos.y, a.pos.y + a.dim.y, b.pos.y, b.pos.y + b.dim.y));
    var ret := Rect(tl, Sub(br, tl));
    if ret.dim.x <= 0.0 || ret.dim.y <= 0.0 then None else Some(ret)
  }

  /** getIntersectingRect is symmetric in its two arguments, for all rectangles. */
  lemma IntersectionSymmetric(a: Rect, b: Rect)
    ensures GetIntersectingRect(a, b) == GetIntersectingRect(b, a)
  {
  }

  /** On one axis with ordered edges, AxisLo..AxisHi are the second and third
      smallest of the four edges: the true overlap when the intervals meet,
      and the gap between them when they are separated. */
  lemma AxisMiddleEdges(a0: real, a1: real, b0: real, b1: real)
    requires a0 <= a1 && b0 <= b1
    ensures Max(a0, b0) <= Min(a1, b1) ==>
              AxisLo(a0, a1, b0, b1) == Max(a0, b0) && AxisHi(a0, a1, b0, b1) == Min(a1, b1)
    ensures a1 < b0 ==> AxisLo(a0, a1, b0, b1) == a1 && AxisHi(a0, a1, b0, b1) == b0
    ensures b1 < a0 ==> AxisLo(a0, a1, b0, b1) == b1 && AxisHi(a0, a1, b0, b1) == a0
    ensures AxisLo(a0, a1, b0, b1) <= AxisHi(a0, a1, b0, b1)
  {
  }

  /** The two closed intervals [a0, a1] and [b0, b1] share a point. */
  predicate AxisOverlap(a0: real, a1: real, b0: real, b1: real)
  {
    Max(a0, b0) <= Min(a1, b1)
  }

  /** Closed rectangles with non-negative dims that share a point. */
  predicate ClosedOverlap(a: Rect, b: Rect)
  {
    && AxisOverlap(a.pos.x, a.pos.x + a.dim.x, b.pos.x, b.pos.x + b.dim.x)
    && AxisOverlap(a.pos.y, a.pos.y + a.dim.y, b.pos.y, b.pos.y + b.dim.y)
  }

  /** The intersection of two rectangles as evidently intended: the larger
      low edge to the smaller high edge on each axis, nothing when empty.
      A result always has interior points shared by both rectangles. */
  function Overlap(a: Rect, b: Rect): (r: Option<Rect>)
    requires NonNegativeDims(a) && NonNegativeDims(b)
    ensures r.Some? ==> InOpenRect(Center(r.value), a) && InOpenRect(Center(r.value), b)
  {
    var tl := V2(Max(a.pos.x, b.pos.x), Max(a.pos.y, b.pos.y));
    var br := V2(Min(a.pos.x + a.dim.x, b.pos.x + b.dim.x), Min(a.pos.y + a.dim.y, b.pos.y + b.dim.y));
    var ret := Rect(tl, Sub(br, tl));
    if ret.dim.x <= 0.0 || ret.dim.y <= 0.0 then None else Some(ret)
  }

  /** Overlap is the set intersection: a point lies in the result exactly when
      it lies in both closed rectangles, and when there is no result the open
      rectangles share no point. */
  lemma OverlapIsIntersection(a: Rect, b: Rect, p: V2)
    requires NonNegativeDims(a) && NonNegativeDims(b)
    ensures Overlap(a, b).Some? ==>
              (InClosedRect(p, Overlap(a, b).value) <==> InClosedRect(p, a) && InClosedRect(p, b))
    ensures Overlap(a, b).None? ==> !(InOpenRect(p, a) && InOpenRect(p, b))
  {
  }

  /** When the closed rectangles share a point, getIntersectingRect returns
      the true intersection. */
  lemma IntersectionOfOverlapping(a: Rect, b: Rect)
    requires NonNegativeDims(a) && NonNegativeDims(b)
    requires ClosedOverlap(a, b)
    ensures GetIntersectingRect(a, b) == Overlap(a, b)
  {
    AxisMiddleEdges(a.pos.x, a.pos.x + a.dim.x, b.pos.x, b.pos.x + b.dim.x);
    AxisMiddleEdges(a.pos.y, a.pos.y + a.dim.y, b.pos.y, b.pos.y + b.dim.y);
  }

  /** A rectangle with positive dims intersects itself in itself. */
  lemma SelfIntersection(a: Rect)
    requires 0.0 < a.dim.x && 0.0 < a.dim.y
    ensures GetIntersectingRect(a, a) == Some(a)
  {
    IntersectionOfOverlapping(a, a);
  }

  /** Rectangles that touch along an edge have no intersection: a's right
      edge on b's left, b's right edge on a's left, a's top on b's bottom or
      b's top on a's bottom leaves a zero width or height. */
  lemma EdgeTouchingHasNoIntersection(a: Rect, b: Rect)
    requires NonNegativeDims(a) && NonNegativeDims(b)
    requires || a.pos.x + a.dim.x == b.pos.x || b.pos.x + b.dim.x == a.pos.x
             || a.pos.y + a.dim.y == b.pos.y || b.pos.y + b.dim.y == a.pos.y
    ensures GetIntersectingRect(a, b) == None
  {
    if a.pos.x + a.dim.x == b.pos.x {
      AxisMiddleEdges(a.pos.x, a.pos.x + a.dim.x, b.pos.x, b.pos.x + b.dim.x);
    } else if b.pos.x + b.dim.x == a.pos.x {
      AxisMiddleEdges(b.pos.x, b.pos.x + b.dim.x, a.pos.x, a.pos.x + a.dim.x);
      IntersectionSymmetric(a, b);
    } else if a.pos.y + a.dim.y == b.pos.y {
      AxisMiddleEdges(a.pos.y, a.pos.y + a.dim.y, b.pos.y, b.pos.y + b.dim.y);
    } else {
      AxisMiddleEdges(b.pos.y, b.pos.y + b.dim.y, a.pos.y, a.pos.y + a.dim.y);
      IntersectionSymmetric(a, b);
    }
  }

  /** Rectangles separated along x (overlapping along y) produce the gap
      between them, which is not part of either rectangle. */
  lemma SeparatedRectanglesGiveGap(a: Rect, b: Rect)
    requires NonNegativeDims(a) && NonNegativeDims(b)
    requires a.pos.x + a.dim.x < b.pos.x
    requires AxisOverlap(a.pos.y, a.pos.y + a.dim.y, b.pos.y, b.pos.y + b.dim.y)
    requires Max(a.pos.y, b.pos.y) < Min(a.pos.y + a.dim.y, b.pos.y + b.dim.y)
    ensures GetIntersectingRect(a, b) ==
              Some(Rect(V2(a.pos.x + a.dim.x, Max(a.pos.y, b.pos.y)),
                        V2(b.pos.x - (a.pos.x + a.dim.x),
                           Min(a.pos.y + a.dim.y, b.pos.y + b.dim.y) - Max(a.pos.y, b.pos.y))))
    ensures Overlap(a, b) == None
  {
    AxisMiddleEdges(a.pos.x, a.pos.x + a.dim.x, b.pos.x, b.pos.x + b.dim.x);
    AxisMiddleEdges(a.pos.y, a.pos.y + a.dim.y, b.pos.y, b.pos.y + b.dim.y);
  }

  /** Concrete instance: two disjoint unit squares one unit apart "intersect"
      in the unit square between them, whose interior lies in neither. */
  lemma DisjointSquaresIntersectInTheGap(a: Rect, b: Rect)
    requires a == Rect(V2(0.0, 0.0), V2(1.0, 1.0)) && b == Rect(V2(2.0, 0.0), V2(1.0, 1.0))
    ensures GetIntersectingRect(a, b) == Some(Rect(V2(1.0, 0.0), V2(1.0, 1.0)))
    ensures !InClosedRect(V2(1.5, 0.5), a) && !InClosedRect(V2(1.5, 0.5), b)
  {
    SeparatedRectanglesGiveGap(a, b);
  }

  // ---------------------------------------------------------- collision

  /** The point at distance `radius` from the circle centre towards the
      rectangle centre, when `m` is the length of that direction. */
  function ClosestPoint(rect: Rect, c: Circle, m: real): V2
    requires 0.0 < m
  {
    var u := Sub(Center(rect), c.pos);
    Add(Scale(V2(u.x / m, u.y / m), c.radius), c.pos)
  }

  /** AARect2D::collidesWith as written, given the magnitude `m` of
      rect_center - circle.pos (which std::sqrt computes). When m is zero the
      normalising division yields NaN and every comparison after it fails. */
  function CollidesWithMag(rect: Rect, c: Circle, m: real): bool
    requires IsSqrt(DistSq(Center(rect), c.pos), m)
  {
    if m <= c.radius then true
    else if m == 0.0 then false
    else InClosedRect(ClosestPoint(rect, c, m), rect)
  }

  /** `a * sqrt(s) <= k`, decided without the square root. */
  predicate ScaledLe(a: real, k: real, s: real)
  {
    if a <= 0.0 then 0.0 <= k || Sq(k) <= Sq(a) * s
    else 0.0 <= k && Sq(a) * s <= Sq(k)
  }

  /** ScaledLe(a, k, s) is `a * m <= k` for the square root m of s. */
  lemma ScaledLeCorrect(a: real, k: real, s: real, m: real)
    requires IsSqrt(s, m) && 0.0 < m
    ensures ScaledLe(a, k, s) <==> a * m <= k
  {
    var am := a * m;
    SqMul(a, m);
    assert Sq(am) == Sq(a) * s;
    if a <= 0.0 {
      MulLeRight(a, 0.0, m);
      if k < 0.0 {
        SqMonotoneIff(-k, -am);
        SqNeg(k);
        SqNeg(am);
      }
    } else {
      MulPos(a, m);
      if 0.0 <= k {
        SqMonotoneIff(am, k);
      }
    }
  }

  /** One axis of the second branch, `lo <= cx + ux / sqrt(s) * r <= hi`,
      decided without the square root. */
  predicate AxisTest(lo: real, hi: real, cx: real, ux: real, r: real, s: real)
  {
    ScaledLe(lo - cx, ux * r, s) && ScaledLe(cx - hi, -(ux * r), s)
  }

  /** Both axes of the second branch of collidesWith. */
  predicate EdgeTests(rect: Rect, c: Circle)
  {
    var u := Sub(Center(rect), c.pos);
    var s := DistSq(Center(rect), c.pos);
    && AxisTest(rect.pos.x, rect.pos.x + rect.dim.x, c.pos.x, u.x, c.radius, s)
    && AxisTest(rect.pos.y, rect.pos.y + rect.dim.y, c.pos.y, u.y, c.radius, s)
  }

  /** AARect2D::collidesWith without square roots: true when the rectangle's
      centre is within the radius, and otherwise when the point at distance
      `radius` from the circle centre towards the rectangle centre lies in
      the closed rectangle, each edge test scaled by the centre distance. */
  function CollidesWith(rect: Rect, c: Circle): (b: bool)
    ensures WithinRadius(Center(rect), c) ==> b
  {
    if WithinRadius(Center(rect), c) then true
    else if DistSq(Center(rect), c.pos) == 0.0 then false
    else EdgeTests(rect, c)
  }

  /** AxisTest is the source's interval test on the normalised direction. */
  lemma AxisTestIff(lo: real, hi: real, cx: real, ux: real, r: real, s: real, m: real)
    requires IsSqrt(s, m) && 0.0 < m
    ensures AxisTest(lo, hi, cx, ux, r, s) <==> lo <= ux / m * r + cx <= hi
  {
    DivScaleIff(lo - cx, ux, r, m);
    DivScaleIff(hi - cx, ux, r, m);
    ScaledLeCorrect(lo - cx, ux * r, s, m);
    ScaledLeCorrect(cx - hi, -(ux * r), s, m);
    assert (cx - hi) * m == -((hi - cx) * m);
  }

  /** Comparing with (u/m)*r is comparing with u*r after scaling by m > 0. */
  lemma DivScaleIff(a: real, u: real, r: real, m: real)
    requires 0.0 < m
    ensures a <= u / m * r <==> a * m <= u * r
    ensures u / m * r <= a <==> u * r <= a * m
  {
    var q := u / m;
    DivMulCancel(u, m);
    MulLeIff(a, q * r, m);
    MulLeIff(q * r, a, m);
    calc {
      (q * r) * m;
      (q * m) * r;
      u * r;
    }
  }

  lemma EdgeTestsAgree(rect: Rect, c: Circle, m: real)
    requires IsSqrt(DistSq(Center(rect), c.pos), m) && 0.0 < m
    ensures EdgeTests(rect, c) <==> InClosedRect(ClosestPoint(rect, c, m), rect)
  {
    var u := Sub(Center(rect), c.pos);
    var s := DistSq(Center(rect), c.pos);
    var p := ClosestPoint(rect, c, m);
    assert p == V2(u.x / m * c.radius + c.pos.x, u.y / m * c.radius + c.pos.y);
    AxisTestIff(rect.pos.x, rect.pos.x + rect.dim.x, c.pos.x, u.x, c.radius, s, m);
    AxisTestIff(rect.pos.y, rect.pos.y + rect.dim.y, c.pos.y, u.y, c.radius, s, m);
    assert EdgeTests(rect, c) <==>
      AxisTest(rect.pos.x, rect.pos.x + rect.dim.x, c.pos.x, u.x, c.radius, s) &&
      AxisTest(rect.pos.y, rect.pos.y + rect.dim.y, c.pos.y, u.y, c.radius, s);
    assert InClosedRect(p, rect) <==>
      (rect.pos.x <= p.x <= rect.pos.x + rect.dim.x) && (rect.pos.y <= p.y <= rect.pos.y + rect.dim.y);
  }

  /** The sqrt-free decision agrees with the source's expression, whatever
      square root of the centre distance std::sqrt delivers. */
  lemma CollidesWithAgrees(rect: Rect, c: Circle, m: real)
    requires IsSqrt(DistSq(Center(rect), c.pos), m)
    ensures CollidesWith(rect, c) == CollidesWithMag(rect, c, m)
  {
    WithinRadiusIsDistanceTest(Center(rect), c, m);
    if !(m <= c.radius) && m != 0.0 {
      SqPos(m);
      EdgeTestsAgree(rect, c, m);
    }
  }

  /** For radius >= 0 the second branch never divides by zero: when the
      centre test fails, the centre distance is positive. */
  lemma CollisionNeverDividesByZero(rect: Rect, c: Circle)
    requires 0.0 <= c.radius
    requires !WithinRadius(Center(rect), c)
    ensures 0.0 < DistSq(Center(rect), c.pos)
  {
    SqNonNeg(c.radius);
  }

  /** A direction divided by its length has unit squared length. */
  lemma UnitDirection(ux: real, uy: real, m: real)
    requires 0.0 < m && Sq(m) == Sq(ux) + Sq(uy)
    ensures Sq(ux / m) + Sq(uy / m) == 1.0
  {
    var qx, qy := ux / m, uy / m;
    ScaledBack(ux, m);
    ScaledBack(uy, m);
    SqPos(m);
    calc {
      (Sq(qx) + Sq(qy)) * Sq(m);
      Sq(qx) * Sq(m) + Sq(qy) * Sq(m);
      Sq(ux) + Sq(uy);
      Sq(m);
    }
    UnitFactor(Sq(qx) + Sq(qy), Sq(m));
  }

  /** Squaring commutes with dividing by m. */
  lemma ScaledBack(u: real, m: real)
    requires 0.0 < m
    ensures Sq(u / m) * Sq(m) == Sq(u)
  {
    var q := u / m;
    DivMulCancel(u, m);
    calc {
      Sq(q) * Sq(m);
    == { SqMul(q, m); }
      Sq(q * m);
    == { assert q * m == u; }
      Sq(u);
    }
  }

  /** Scaling a unit direction by r gives squared length r^2. */
  lemma UnitDirectionScaled(qx: real, qy: real, r: real)
    requires Sq(qx) + Sq(qy) == 1.0
    ensures Sq(qx * r) + Sq(qy * r) == Sq(r)
  {
    SqMul(qx, r);
    SqMul(qy, r);
    calc {
      Sq(qx * r) + Sq(qy * r);
      Sq(qx) * Sq(r) + Sq(qy) * Sq(r);
      (Sq(qx) + Sq(qy)) * Sq(r);
      Sq(r);
    }
  }

  lemma UnitFactor(a: real, s: real)
    requires 0.0 < s && a * s == s
    ensures a == 1.0
  {
    if a < 1.0 {
      MulLtRight(a, 1.0, s);
    } else if a > 1.0 {
      MulLtRight(1.0, a, s);
    }
  }

  /** Soundness of the second branch: when collidesWith holds although the
      centre test failed, the point it examined is at distance `radius` from
      the circle centre and lies in the closed rectangle. */
  lemma CollisionSoundness(rect: Rect, c: Circle, m: real)
    requires IsSqrt(DistSq(Center(rect), c.pos), m)
    requires CollidesWithMag(rect, c, m) && c.radius < m
    ensures 0.0 < m
    ensures InClosedRect(ClosestPoint(rect, c, m), rect)
    ensures DistSq(ClosestPoint(rect, c, m), c.pos) == Sq(c.radius)
  {
    var u := Sub(Center(rect), c.pos);
    var p := ClosestPoint(rect, c, m);
    UnitDirection(u.x, u.y, m);
    UnitDirectionScaled(u.x / m, u.y / m, c.radius);
    assert Sub(p, c.pos) == V2(u.x / m * c.radius, u.y / m * c.radius);
  }

  /** An edge whose scaled distance test passed lies within `r` of the
      circle centre along that axis, because |u_x| <= sqrt(s). */
  lemma ComponentBound(a: real, ux: real, s: real, r: real)
    requires 0.0 <= r && 0.0 < a
    requires 0.0 < s && Sq(ux) <= s
    requires Sq(a) * s <= Sq(ux * r)
    ensures a <= r
  {
    SqMul(ux, r);
    SqNonNeg(r);
    MulLeRight(Sq(ux), s, Sq(r));
    assert Sq(a) * s <= Sq(r) * s;
    MulLeIff(Sq(a), Sq(r), s);
    SqMonotoneIff(a, r);
  }

  /** A passing axis test puts both edges within `r` of the centre. */
  lemma AxisTestBound(lo: real, hi: real, cx: real, ux: real, r: real, s: real)
    requires 0.0 <= r
    requires 0.0 < s && Sq(ux) <= s
    requires AxisTest(lo, hi, cx, ux, r, s)
    ensures lo - cx <= r && cx - hi <= r
  {
    if 0.0 < lo - cx {
      ComponentBound(lo - cx, ux, s, r);
    }
    if 0.0 < cx - hi {
      SqNeg(ux * r);
      ComponentBound(cx - hi, ux, s, r);
    }
  }

  /** Every edge of a rectangle that collides with a circle of non-negative
      radius is at most `radius` beyond the circle centre on its own axis. */
  lemma CollisionEdgesNearCentre(rect: Rect, c: Circle)
    requires NonNegativeDims(rect) && 0.0 <= c.radius
    requires CollidesWith(rect, c)
    ensures rect.pos.x - c.pos.x <= c.radius && c.pos.x - (rect.pos.x + rect.dim.x) <= c.radius
    ensures rect.pos.y - c.pos.y <= c.radius && c.pos.y - (rect.pos.y + rect.dim.y) <= c.radius
  {
    var u := Sub(Center(rect), c.pos);
    var s := DistSq(Center(rect), c.pos);
    SqNonNeg(u.x);
    SqNonNeg(u.y);
    if WithinRadius(Center(rect), c) {
      SqBound(u.x, c.radius);
      SqBound(u.y, c.radius);
    } else {
      CollisionNeverDividesByZero(rect, c);
      AxisTestBound(rect.pos.x, rect.pos.x + rect.dim.x, c.pos.x, u.x, c.radius, s);
      AxisTestBound(rect.pos.y, rect.pos.y + rect.dim.y, c.pos.y, u.y, c.radius, s);
    }
  }

  /** A rectangle with non-negative dims that collides with a circle of
      non-negative radius shares a point with the circle's bounding square. */
  lemma CollisionImpliesOverlap(rect: Rect, c: Circle)
    requires NonNegativeDims(rect) && 0.0 <= c.radius
    requires CollidesWith(rect, c)
    ensures ClosedOverlap(rect, BoundingRect(c))
  {
    CollisionEdgesNearCentre(rect, c);
  }

  /** The collision guard of updateLOS: when the chunk square collides with
      the line-of-sight circle, getIntersectingRect of the circle's bounding
      square and the chunk square is the genuine overlap, never a gap. */
  lemma GuardedIntersectionIsOverlap(chunk: Rect, c: Circle)
    requires NonNegativeDims(chunk) && 0.0 <= c.radius
    requires CollidesWith(chunk, c)
    ensures GetIntersectingRect(BoundingRect(c), chunk) == Overlap(BoundingRect(c), chunk)
  {
    CollisionImpliesOverlap(chunk, c);
    IntersectionOfOverlapping(BoundingRect(c), chunk);
  }
}

=== FILE: input.dfy ===
/** InputState::update (include/input.h:56-172): once per frame the
    keyboard snapshot becomes the key array, the mouse record is reset
    except for the click timer and the left button, and the polled events
    drive a small click / double-click state machine.

    SDL is not part of this model: the keyboard state, the mouse position
    and the polled events of a frame are inputs. The keyboard state is
    given for the 52 scancodes update reads, slot s holding the scancode of
    the s-th SET_KEY_DOWN line, which is the scancode named like DZKey s.
    It is one snapshot per frame: SDL's key_state array is live and may
    change as SDL_PollEvent pumps events, which this model does not follow. */
module Input {
  import opened Common

  /** DZKey::DZKEY_MAX. */
  const KEY_COUNT: nat := 52
  /** DZKey::M, DZKey::F1, DZKey::F10 and DZKey::ESC. */
  const KEY_M: nat := 35
  const KEY_F1: nat := 36
  const KEY_F10: nat := 45
  const KEY_ESC: nat := 46

  /** The click timer a button press starts. */
  const DOUBLE_CLICK_FRAMES: byte := 15

  /** v2i. */
  datatype V2i = V2i(x: int, y: int)

  function Sub(a: V2i, b: V2i): V2i
  {
    V2i(a.x - b.x, a.y - b.y)
  }

  datatype Modifier = Modifier(shift: bool, alt: bool, ctrl: bool)

  datatype Mouse = Mouse(pos: V2i, delta: V2i, timer: byte, wheelDelta: int,
                         leftDown: bool, middleDown: bool, rightDown: bool,
                         clicked: bool, doubleClicked: bool)

  datatype InputState = InputState(keyPrev: seq<bool>, key: seq<bool>, modifier: Modifier,
                                   mouse: Mouse, mousePrev: Mouse, quit: bool)

  /** The SDL events update distinguishes; every other type is Other. */
  datatype Event = Quit | Wheel(y: int) | ButtonDown | ButtonUp | Other

  /** What SDL reports for one frame. */
  datatype Frame = Frame(held: seq<bool>, pos: V2i, events: seq<Event>)

  predicate ValidFrame(f: Frame)
  {
    |f.held| == KEY_COUNT
  }

  predicate IsFKey(k: int)
  {
    KEY_F1 <= k <= KEY_F10
  }

  /** The key slot the SET_KEY_DOWN line for scancode slot s writes: every
      F-key line names DZKey::M. */
  function Target(s: nat): (k: nat)
    ensures k < KEY_COUNT <==> s < KEY_COUNT
    ensures !IsFKey(k)
  {
    if IsFKey(s) then KEY_M else s
  }

  /** The SET_KEY_DOWN lines for scancode slots s .. KEY_COUNT - 1. */
  function SetKeys(key: seq<bool>, held: seq<bool>, s: nat): (r: seq<bool>)
    requires |key| == KEY_COUNT && |held| == KEY_COUNT && s <= KEY_COUNT
    ensures |r| == KEY_COUNT
    decreases KEY_COUNT - s
  {
    if s == KEY_COUNT then key
    else SetKeys(if held[s] then key[Target(s) := true] else key, held, s + 1)
  }

  /** The lines from slot s set key k exactly when k was already set or
      some remaining line for k sees its scancode held. */
  lemma {:induction false} SetKeysSets(key: seq<bool>, held: seq<bool>, s: nat, k: nat)
    requires |key| == KEY_COUNT && |held| == KEY_COUNT && s <= KEY_COUNT && k < KEY_COUNT
    ensures SetKeys(key, held, s)[k] <==> key[k] || exists s2 | s <= s2 < KEY_COUNT :: Target(s2) == k && held[s2]
    decreases KEY_COUNT - s
  {
    if s < KEY_COUNT {
      var key2 := if held[s] then key[Target(s) := true] else key;
      SetKeysSets(key2, held, s + 1, k);
    }
  }

  /** The key array of a frame: cleared, then set from the keyboard. */
  function Keys(held: seq<bool>): (r: seq<bool>)
    requires |held| == KEY_COUNT
    ensures |r| == KEY_COUNT
  {
    SetKeys(seq(KEY_COUNT, _ => false), held, 0)
  }

  /** Each key reports its own scancode, except that the F-key slots are
      never set and M is also set by any of F1 .. F10. */
  lemma KeysReport(held: seq<bool>, k: nat)
    requires |held| == KEY_COUNT && k < KEY_COUNT
    ensures IsFKey(k) ==> !Keys(held)[k]
    ensures k == KEY_M ==> (Keys(held)[k] <==> held[KEY_M] || exists f | KEY_F1 <= f <= KEY_F10 :: held[f])
    ensures k != KEY_M && !IsFKey(k) ==> (Keys(held)[k] <==> held[k])
  {
    SetKeysSets(seq(KEY_COUNT, _ => false), held, 0, k);
  }

  /** One polled event. With escape held every event counts as a quit
      request and nothing else happens. A press marks the left button
      down, is a double click when the timer is still running, and restarts
      the timer; a release marks the button up and is a click when the
      timer is running and no double click happened this frame. */
  function HandleEvent(m: Mouse, quit: bool, escHeld: bool, e: Event): (r: (Mouse, bool))
    ensures r.1 <==> quit || e == Quit || escHeld
    ensures (escHeld || e == Quit || e == Other) ==> r.0 == m
    ensures !escHeld && e == ButtonDown ==>
              r.0 == m.(leftDown := true, doubleClicked := m.doubleClicked || m.timer > 0, timer := DOUBLE_CLICK_FRAMES)
    ensures !escHeld && e == ButtonUp ==>
              r.0 == m.(leftDown := false, clicked := m.clicked || (m.timer > 0 && !m.doubleClicked))
    ensures !escHeld && e.Wheel? ==> r.0 == m.(wheelDelta := e.y)
  {
    if e == Quit || escHeld then (m, true)
    else if e.Wheel? then (m.(wheelDelta := e.y), quit)
    else if e == ButtonDown then
      var dc := if m.timer > 0 then true else m.doubleClicked;
      (m.(leftDown := true, doubleClicked := dc, timer := DOUBLE_CLICK_FRAMES), quit)
    else if e == ButtonUp then
      var c := if m.timer > 0 && !m.doubleClicked then true else m.clicked;
      (m.(leftDown := false, clicked := c), quit)
    else (m, quit)
  }

  /** The poll loop over the frame's events, in order. quit ends set
      exactly when it was set, a quit event is polled, or escape is held
      while any event is polled. */
  function HandleEvents(m: Mouse, quit: bool, escHeld: bool, es: seq<Event>): (r: (Mouse, bool))
    decreases |es|
    ensures r.1 <==> quit || Quit in es || (escHeld && |es| > 0)
  {
    if |es| == 0 then (m, quit)
    else
      var next := HandleEvent(m, quit, escHeld, es[0]);
      assert es == [es[0]] + es[1..];
      HandleEvents(next.0, next.1, escHeld, es[1..])
  }

  /** The mouse record before the poll loop: zeroed except the timer and
      the left button, which carry over; a running timer counts down by
      one. */
  function FreshMouse(prev: Mouse, pos: V2i): (m: Mouse)
    ensures m.timer == if prev.timer > 0 then prev.timer - 1 else 0
    ensures m.leftDown == prev.leftDown
    ensures !m.clicked && !m.doubleClicked && !m.middleDown && !m.rightDown && m.wheelDelta == 0
    ensures m.pos == pos && m.delta == Sub(prev.pos, pos)
  {
    var timer := if prev.timer > 0 then prev.timer - 1 else prev.timer;
    Mouse(pos, Sub(prev.pos, pos), timer, 0, prev.leftDown, false, false, false, false)
  }

  /** InputState::update for one frame. */
  function Update(s: InputState, f: Frame): (r: InputState)
    requires ValidFrame(f)
    ensures r.keyPrev == s.key && r.mousePrev == s.mouse
    ensures r.modifier == Modifier(false, false, false)
    ensures |r.key| == KEY_COUNT
  {
    var base := FreshMouse(s.mouse, f.pos);
    var polled := HandleEvents(base, false, f.held[KEY_ESC], f.events);
    InputState(s.key, Keys(f.held), Modifier(false, false, false), polled.0, s.mouse, polled.1)
  }

  lemma UpdateQuit(s: InputState, f: Frame)
    requires ValidFrame(f)
    ensures Update(s, f).quit <==> Quit in f.events || (f.held[KEY_ESC] && |f.events| > 0)
  {
  }

  /** With escape held the poll loop leaves the mouse alone: presses and
      releases in that frame are lost. */
  lemma {:induction false} EscapeSwallowsMouse(m: Mouse, quit: bool, es: seq<Event>)
    ensures HandleEvents(m, quit, true, es).0 == m
    decreases |es|
  {
    if |es| > 0 {
      EscapeSwallowsMouse(m, true, es[1..]);
    }
  }

  /** No event touches the position, the delta or the middle and right
      buttons, and the timer is either the carried value or a restart. */
  lemma {:induction false} EventsKeep(m: Mouse, quit: bool, escHeld: bool, es: seq<Event>)
    ensures var r := HandleEvents(m, quit, escHeld, es).0;
            && r.pos == m.pos && r.delta == m.delta && r.middleDown == m.middleDown && r.rightDown == m.rightDown
            && (r.timer == m.timer || r.timer == DOUBLE_CLICK_FRAMES)
    decreases |es|
  {
    if |es| > 0 {
      var next := HandleEvent(m, quit, escHeld, es[0]);
      EventsKeep(next.0, next.1, escHeld, es[1..]);
    }
  }

  /** A frame without events: the timer counts down by exactly one when
      running and stays at zero otherwise, the left button carries over,
      and no click, double click or wheel movement is reported. */
  lemma IdleFrame(s: InputState, f: Frame)
    requires ValidFrame(f) && f.events == []
    ensures Update(s, f).mouse.timer == if s.mouse.timer > 0 then s.mouse.timer - 1 else 0
    ensures Update(s, f).mouse.leftDown == s.mouse.leftDown
    ensures !Update(s, f).mouse.clicked && !Update(s, f).mouse.doubleClicked && Update(s, f).mouse.wheelDelta == 0
    ensures !Update(s, f).quit
  {
  }

  /** A frame whose only event is a press (escape not held): the button
      is down, the timer restarts, and the press is a double click exactly
      when the timer was still running after this frame's countdown. */
  lemma PressFrame(s: InputState, f: Frame)
    requires ValidFrame(f) && f.events == [ButtonDown] && !f.held[KEY_ESC]
    ensures Update(s, f).mouse.timer == DOUBLE_CLICK_FRAMES && Update(s, f).mouse.leftDown
    ensures Update(s, f).mouse.doubleClicked <==> s.mouse.timer > 1
    ensures !Update(s, f).mouse.clicked
  {
    var base := FreshMouse(s.mouse, f.pos);
    var e1 := HandleEvent(base, false, false, ButtonDown);
    assert f.events[1..] == [];
    assert HandleEvents(base, false, false, f.events) == HandleEvents(e1.0, e1.1, false, []);
  }

  /** A press followed by a release in one frame (escape not held) is a
      click exactly when it was not a double click. */
  lemma PressReleaseFrame(s: InputState, f: Frame)
    requires ValidFrame(f) && f.events == [ButtonDown, ButtonUp] && !f.held[KEY_ESC]
    ensures !Update(s, f).mouse.leftDown
    ensures Update(s, f).mouse.clicked <==> !Update(s, f).mouse.doubleClicked
    ensures Update(s, f).mouse.doubleClicked <==> s.mouse.timer > 1
  {
    var base := FreshMouse(s.mouse, f.pos);
    var e1 := HandleEvent(base, false, false, ButtonDown);
    var e2 := HandleEvent(e1.0, e1.1, false, ButtonUp);
    assert f.events[1..] == [ButtonUp] && f.events[1..][1..] == [];
    assert HandleEvents(base, false, false, f.events) == HandleEvents(e2.0, e2.1, false, []);
  }

  /** The frames f applied in turn. */
  function Run(s: InputState, fs: seq<Frame>): InputState
    requires forall i | 0 <= i < |fs| :: ValidFrame(fs[i])
    decreases |fs|
  {
    if |fs| == 0 then s else Run(Update(s, fs[0]), fs[1..])
  }

  /** A run of k event-free frames counts the timer down by k, stopping
      at zero. */
  lemma {:induction false} IdleRun(s: InputState, fs: seq<Frame>)
    requires forall i | 0 <= i < |fs| :: ValidFrame(fs[i]) && fs[i].events == []
    ensures Run(s, fs).mouse.timer == if s.mouse.timer > |fs| then s.mouse.timer - |fs| else 0
    decreases |fs|
  {
    if |fs| > 0 {
      IdleFrame(s, fs[0]);
      IdleRun(Update(s, fs[0]), fs[1..]);
    }
  }

  /** The double-click window: after a press, k event-free frames and a
      second press (escape not held), the second press is a double click
      exactly when k < 14, i.e. when it comes at most 14 frames after the
      first. */
  lemma DoubleClickWindow(s: InputState, press1: Frame, idle: seq<Frame>, press2: Frame)
    requires ValidFrame(press1) && press1.events == [ButtonDown] && !press1.held[KEY_ESC]
    requires forall i | 0 <= i < |idle| :: ValidFrame(idle[i]) && idle[i].events == []
    requires ValidFrame(press2) && press2.events == [ButtonDown] && !press2.held[KEY_ESC]
    ensures Update(Run(Update(s, press1), idle), press2).mouse.doubleClicked <==> |idle| < 14
  {
    var s1 := Update(s, press1);
    PressFrame(s, press1);
    IdleRun(s1, idle);
    PressFrame(Run(s1, idle), press2);
  }
}

=== FILE: kd_tree.dfy ===
/** The 2-d tree of biome points in src/terrain.cpp (KDTree::add,
    BNode::add_recur_x / add_recur_y, KDTree::find_n_closest). The tree is
    built but never queried by the game (the call to add is commented out).

    Nodes carry the region bounds the source stores. Those bounds are as
    written: the root's four bounds are +infinity and the children of a
    y-level node get the parent's y on the wrong side, so the search prunes
    by boxes that need not contain the subtree. Only structural properties
    are stated about the search. */
module KDTree {
  import opened Common
  import opened RealArith
  import opened Geometry
  import opened ExtReal
  import opened BiomeSelect

  /** A BNode (or a null child pointer). */
  datatype Node =
    | Nil
    | Node(p: BiomePoint, xLeft: Ext, xRight: Ext, yBottom: Ext, yTop: Ext, left: Node, right: Node)

  /** The number of points in a subtree. */
  function Size(t: Node): nat
  {
    if t.Nil? then 0 else 1 + Size(t.left) + Size(t.right)
  }

  /** The points held by a subtree. */
  function Points(t: Node): multiset<BiomePoint>
  {
    if t.Nil? then multiset{} else multiset{t.p} + Points(t.left) + Points(t.right)
  }

  lemma {:induction false} SizeIsPointCount(t: Node)
    ensures |Points(t)| == Size(t)
  {
    if t.Node? {
      SizeIsPointCount(t.left);
      SizeIsPointCount(t.right);
    }
  }

  /** A fresh leaf. */
  function Leaf(bp: BiomePoint, xl: Ext, xr: Ext, yb: Ext, yt: Ext): Node
  {
    Node(bp, xl, xr, yb, yt, Nil, Nil)
  }

  /** The coordinate a level splits on: x at x-levels, y at y-levels. */
  function Key(bp: BiomePoint, onX: bool): real
  {
    if onX then bp.position.x else bp.position.y
  }

  // ---------------------------------------------------------------- insertion

  /** add_recur_x: a point with strictly greater x goes right, any other
      left; an empty child becomes a leaf bounded on x by this node's x,
      otherwise the child continues at a y-level. */
  function AddX(t: Node, bp: BiomePoint): (r: Node)
    requires t.Node?
    decreases t, 1
    ensures r.Node? && r.p == t.p
    ensures Points(r) == Points(t) + multiset{bp}
  {
    if bp.position.x > t.p.position.x then
      if t.right.Nil? then t.(right := Leaf(bp, Fin(t.p.position.x), t.xRight, t.yBottom, t.yTop))
      else t.(right := AddY(t.right, bp))
    else
      if t.left.Nil? then t.(left := Leaf(bp, t.xLeft, Fin(t.p.position.x), t.yBottom, t.yTop))
      else t.(left := AddY(t.left, bp))
  }

  /** add_recur_y, the same on y. A new right child (greater y) gets this
      node's y as its top bound and a new left child gets it as its bottom
      bound: the reverse of the x case. */
  function AddY(t: Node, bp: BiomePoint): (r: Node)
    requires t.Node?
    decreases t, 1
    ensures r.Node? && r.p == t.p
    ensures Points(r) == Points(t) + multiset{bp}
  {
    if bp.position.y > t.p.position.y then
      if t.right.Nil? then t.(right := Leaf(bp, t.xLeft, t.xRight, t.yBottom, Fin(t.p.position.y)))
      else t.(right := AddX(t.right, bp))
    else
      if t.left.Nil? then t.(left := Leaf(bp, t.xLeft, t.xRight, Fin(t.p.position.y), t.yTop))
      else t.(left := AddX(t.left, bp))
  }

  /** Insertion at a level of either kind. */
  function AddAt(t: Node, bp: BiomePoint, onX: bool): Node
    requires t.Node?
  {
    if onX then AddX(t, bp) else AddY(t, bp)
  }

  /** KDTree::add: bpoints[0] becomes the root with all four bounds
      +infinity, and bpoints[1..] are inserted from the root in order. */
  function Build(bpoints: seq<BiomePoint>): (r: Node)
    requires |bpoints| > 0
  {
    if |bpoints| == 1 then Leaf(bpoints[0], PosInf, PosInf, PosInf, PosInf)
    else AddX(Build(bpoints[..|bpoints| - 1]), bpoints[|bpoints| - 1])
  }

  /** The tree holds exactly the points it was given, with the first at the
      root. */
  lemma {:induction false} BuildHoldsAllPoints(bpoints: seq<BiomePoint>)
    requires |bpoints| > 0
    ensures Build(bpoints).Node? && Build(bpoints).p == bpoints[0]
    ensures Points(Build(bpoints)) == multiset(bpoints)
  {
    var n := |bpoints|;
    if n > 1 {
      var prefix := bpoints[..n - 1];
      BuildHoldsAllPoints(prefix);
      MultisetSnoc(bpoints);
      assert prefix[0] == bpoints[0];
    }
  }

  /** A sequence's multiset is its prefix's plus its last element. */
  lemma MultisetSnoc<T>(s: seq<T>)
    requires |s| > 0
    ensures multiset(s) == multiset(s[..|s| - 1]) + multiset{s[|s| - 1]}
  {
    assert s == s[..|s| - 1] + [s[|s| - 1]];
  }

  /** The tree has one node per given point. */
  lemma BuildSize(bpoints: seq<BiomePoint>)
    requires |bpoints| > 0
    ensures Size(Build(bpoints)) == |bpoints|
  {
    BuildHoldsAllPoints(bpoints);
    SizeIsPointCount(Build(bpoints));
  }

  // ---------------------------------------------------------- split invariant

  /** Every subtree respects the splits of its ancestors: at a level
      splitting on `onX`, the left subtree holds keys at most the node's and
      the right subtree keys strictly greater, alternating x and y. */
  predicate Split(t: Node, onX: bool)
  {
    t.Nil? ||
    (&& (forall q | q in Points(t.left) :: Key(q, onX) <= Key(t.p, onX))
     && (forall q | q in Points(t.right) :: Key(q, onX) > Key(t.p, onX))
     && Split(t.left, !onX)
     && Split(t.right, !onX))
  }

  /** Insertion keeps the split invariant. */
  lemma {:induction false} AddKeepsSplit(t: Node, bp: BiomePoint, onX: bool)
    requires t.Node? && Split(t, onX)
    decreases t, 1
    ensures Split(AddAt(t, bp, onX), onX)
  {
    if Key(bp, onX) > Key(t.p, onX) {
      AddRightKeepsSplit(t, bp, onX);
    } else {
      AddLeftKeepsSplit(t, bp, onX);
    }
  }

  lemma {:induction false} AddRightKeepsSplit(t: Node, bp: BiomePoint, onX: bool)
    requires t.Node? && Split(t, onX) && Key(bp, onX) > Key(t.p, onX)
    decreases t, 0
    ensures Split(AddAt(t, bp, onX), onX)
  {
    var r := AddAt(t, bp, onX);
    AddGoesRight(t, bp, onX);
    if t.right.Node? {
      AddKeepsSplit(t.right, bp, !onX);
    } else {
      LeafIsSplit(r.right, !onX);
    }
    GrowRight(t, r.right, bp, onX);
  }

  lemma {:induction false} AddLeftKeepsSplit(t: Node, bp: BiomePoint, onX: bool)
    requires t.Node? && Split(t, onX) && Key(bp, onX) <= Key(t.p, onX)
    decreases t, 0
    ensures Split(AddAt(t, bp, onX), onX)
  {
    var r := AddAt(t, bp, onX);
    AddGoesLeft(t, bp, onX);
    if t.left.Node? {
      AddKeepsSplit(t.left, bp, !onX);
    } else {
      LeafIsSplit(r.left, !onX);
    }
    GrowLeft(t, r.left, bp, onX);
  }

  /** A point with a greater key goes into the right subtree: as a new leaf
      when it is empty, and by insertion one level down otherwise. */
  lemma AddGoesRight(t: Node, bp: BiomePoint, onX: bool)
    requires t.Node? && Key(bp, onX) > Key(t.p, onX)
    ensures AddAt(t, bp, onX).left == t.left && AddAt(t, bp, onX).p == t.p
    ensures Points(AddAt(t, bp, onX).right) == Points(t.right) + multiset{bp}
    ensures t.right.Node? ==> AddAt(t, bp, onX).right == AddAt(t.right, bp, !onX)
    ensures t.right.Nil? ==> (AddAt(t, bp, onX).right.Node? && AddAt(t, bp, onX).right.left.Nil?
                              && AddAt(t, bp, onX).right.right.Nil?)
  {
    if onX {
      assert AddAt(t, bp, onX) == AddX(t, bp);
    } else {
      assert AddAt(t, bp, onX) == AddY(t, bp);
    }
  }

  /** A point with a key at most the node's goes into the left subtree. */
  lemma AddGoesLeft(t: Node, bp: BiomePoint, onX: bool)
    requires t.Node? && Key(bp, onX) <= Key(t.p, onX)
    ensures AddAt(t, bp, onX).right == t.right && AddAt(t, bp, onX).p == t.p
    ensures Points(AddAt(t, bp, onX).left) == Points(t.left) + multiset{bp}
    ensures t.left.Node? ==> AddAt(t, bp, onX).left == AddAt(t.left, bp, !onX)
    ensures t.left.Nil? ==> (AddAt(t, bp, onX).left.Node? && AddAt(t, bp, onX).left.left.Nil?
                             && AddAt(t, bp, onX).left.right.Nil?)
  {
    if onX {
      assert AddAt(t, bp, onX) == AddX(t, bp);
    } else {
      assert AddAt(t, bp, onX) == AddY(t, bp);
    }
  }

  lemma LeafIsSplit(t: Node, onX: bool)
    requires t.Node? && t.left.Nil? && t.right.Nil?
    ensures Split(t, onX)
  {
  }

  /** Replacing the right subtree by one that gained a point with a greater
      key keeps the split. */
  lemma GrowRight(t: Node, c: Node, bp: BiomePoint, onX: bool)
    requires t.Node? && Split(t, onX) && Key(bp, onX) > Key(t.p, onX)
    requires Points(c) == Points(t.right) + multiset{bp} && Split(c, !onX)
    ensures Split(t.(right := c), onX)
  {
    forall q | q in Points(c) ensures Key(q, onX) > Key(t.p, onX) {
      if q != bp {
        assert q in Points(t.right);
      }
    }
  }

  /** Replacing the left subtree by one that gained a point with a key at
      most the node's keeps the split. */
  lemma GrowLeft(t: Node, c: Node, bp: BiomePoint, onX: bool)
    requires t.Node? && Split(t, onX) && Key(bp, onX) <= Key(t.p, onX)
    requires Points(c) == Points(t.left) + multiset{bp} && Split(c, !onX)
    ensures Split(t.(left := c), onX)
  {
    forall q | q in Points(c) ensures Key(q, onX) <= Key(t.p, onX) {
      if q != bp {
        assert q in Points(t.left);
      }
    }
  }

  /** The built tree satisfies the split invariant from an x-level root. */
  lemma {:induction false} BuildIsSplit(bpoints: seq<BiomePoint>)
    requires |bpoints| > 0
    ensures Split(Build(bpoints), true)
  {
    var n := |bpoints|;
    if n > 1 {
      BuildIsSplit(bpoints[..n - 1]);
      BuildHoldsAllPoints(bpoints[..n - 1]);
      AddKeepsSplit(Build(bpoints[..n - 1]), bpoints[n - 1], true);
    }
  }

  // ------------------------------------------------------------------ search

  /** An entry of the search queue: a node and the squared distance from the
      query to the point of the node's region box nearest to it. */
  datatype QEntry = QEntry(bound: Ext, node: Node)

  /** An entry of best_so_far: a visited point and its squared distance to
      the query. */
  datatype Found = Found(dist: real, p: BiomePoint)

  /** std::max and std::min on floats that may be infinite. */
  function ExtMax(a: Ext, b: Ext): Ext { if Below(a, b) then b else a }

  function ExtMin(a: Ext, b: Ext): Ext { if Below(b, a) then b else a }

  /** The squared distance from pos to its clamp into t's box: infinite
      when a clamped coordinate is, NaN when one is NaN. */
  function BoxDistance(t: Node, pos: V2): (r: Ext)
    requires t.Node?
    ensures r.Fin? ==> 0.0 <= r.v
  {
    var cx := ExtMin(ExtMax(t.xLeft, Fin(pos.x)), t.xRight);
    var cy := ExtMin(ExtMax(t.yBottom, Fin(pos.y)), t.yTop);
    if cx.NaN? || cy.NaN? then NaN
    else if cx.Fin? && cy.Fin? then
      SqNonNeg(cx.v - pos.x);
      SqNonNeg(cy.v - pos.y);
      Fin(Sq(cx.v - pos.x) + Sq(cy.v - pos.y))
    else PosInf
  }

  /** The sequence without its element k. */
  function Remove<T>(s: seq<T>, k: nat): (r: seq<T>)
    requires k < |s|
    ensures |r| == |s| - 1
    ensures multiset(r) + multiset{s[k]} == multiset(s)
  {
    assert s == s[..k] + [s[k]] + s[k + 1..];
    s[..k] + s[k + 1..]
  }

  /** The queue entry std::priority_queue::top returns: one with the
      smallest bound (the first such here). */
  function MinIndex(q: seq<QEntry>): (k: nat)
    requires |q| > 0
    ensures k < |q|
  {
    if |q| == 1 then 0
    else
      var k := MinIndex(q[..|q| - 1]);
      if Below(q[|q| - 1].bound, q[k].bound) then |q| - 1 else k
  }

  /** With no NaN bound, no queue entry is below the one popped. */
  lemma {:induction false} MinIndexIsMinimal(q: seq<QEntry>)
    requires |q| > 0
    requires forall i | 0 <= i < |q| :: !q[i].bound.NaN?
    ensures forall i | 0 <= i < |q| :: !Below(q[i].bound, q[MinIndex(q)].bound)
  {
    if |q| > 1 {
      var pre := q[..|q| - 1];
      MinIndexIsMinimal(pre);
      var k := MinIndex(pre);
      var last := q[|q| - 1].bound;
      forall i | 0 <= i < |q| ensures !Below(q[i].bound, q[MinIndex(q)].bound) {
        if i < |q| - 1 {
          assert q[i] == pre[i];
          BelowIsStrictTotalOrder(q[i].bound, last, q[k].bound);
        } else {
          BelowIsStrictTotalOrder(last, last, q[k].bound);
        }
      }
    }
  }

  /** The best_so_far entry top() returns: one with the largest distance
      (the first such here). */
  function MaxIndex(b: seq<Found>): (k: nat)
    requires |b| > 0
    ensures k < |b|
    ensures forall i | 0 <= i < |b| :: b[i].dist <= b[k].dist
  {
    if |b| == 1 then 0
    else
      var k := MaxIndex(b[..|b| - 1]);
      assert forall i | 0 <= i < |b| - 1 :: b[i] == b[..|b| - 1][i];
      if b[k].dist < b[|b| - 1].dist then |b| - 1 else k
  }

  /** The points of the queued subtrees. */
  function QPoints(q: seq<QEntry>): multiset<BiomePoint>
  {
    if |q| == 0 then multiset{} else QPoints(q[..|q| - 1]) + Points(q[|q| - 1].node)
  }

  /** The number of points in the queued subtrees. */
  function QSize(q: seq<QEntry>): nat
  {
    if |q| == 0 then 0 else QSize(q[..|q| - 1]) + Size(q[|q| - 1].node)
  }

  lemma {:induction false} QAppend(a: seq<QEntry>, b: seq<QEntry>)
    decreases |b|
    ensures QPoints(a + b) == QPoints(a) + QPoints(b)
    ensures QSize(a + b) == QSize(a) + QSize(b)
  {
    if |b| > 0 {
      var b' := b[..|b| - 1];
      assert (a + b)[..|a + b| - 1] == a + b';
      QAppend(a, b');
    } else {
      assert a + b == a;
    }
  }

  /** Popping entry k takes its subtree out of the queue. */
  lemma QRemove(q: seq<QEntry>, k: nat)
    requires k < |q|
    ensures QPoints(Remove(q, k)) + Points(q[k].node) == QPoints(q)
    ensures QSize(Remove(q, k)) + Size(q[k].node) == QSize(q)
  {
    var a, b := q[..k], q[k + 1..];
    QSplit(q, k);
    QAppend(a, [q[k]] + b);
    QAppend([q[k]], b);
    QAppend(a, b);
    QSingle(q[k]);
  }

  /** The queue around entry k, and the queue without it. */
  lemma QSplit(q: seq<QEntry>, k: nat)
    requires k < |q|
    ensures q == q[..k] + ([q[k]] + q[k + 1..])
    ensures Remove(q, k) == q[..k] + q[k + 1..]
  {
    assert q == q[..k] + ([q[k]] + q[k + 1..]);
  }

  lemma QSingle(e: QEntry)
    ensures QPoints([e]) == Points(e.node) && QSize([e]) == Size(e.node)
  {
    assert [e][..0] == [];
  }

  /** Every queue entry holds a node (the source never queues a null). */
  predicate AllNodes(q: seq<QEntry>)
  {
    forall i | 0 <= i < |q| :: q[i].node.Node?
  }

  lemma RemoveKeepsNodes(q: seq<QEntry>, k: nat)
    requires k < |q| && AllNodes(q)
    ensures AllNodes(Remove(q, k))
  {
    var r := Remove(q, k);
    forall i | 0 <= i < |r| ensures r[i].node.Node? {
      if i < k {
        assert r[i] == q[i];
      } else {
        assert r[i] == q[i + 1];
      }
    }
  }

  /** Every entry of best_so_far carries its point's true distance. */
  predicate Honest(b: seq<Found>, pos: V2)
  {
    forall i | 0 <= i < |b| :: b[i].dist == DistSq(b[i].p.position, pos)
  }

  /** The points of best_so_far entries. */
  function PointsOf(b: seq<Found>): (r: seq<BiomePoint>)
    ensures |r| == |b| && forall i | 0 <= i < |b| :: r[i] == b[i].p
  {
    seq(|b|, i requires 0 <= i < |b| => b[i].p)
  }

  lemma PointsOfRemove(b: seq<Found>, k: nat)
    requires k < |b|
    ensures multiset(PointsOf(Remove(b, k))) + multiset{b[k].p} == multiset(PointsOf(b))
  {
    assert PointsOf(Remove(b, k)) == Remove(PointsOf(b), k);
  }

  lemma PointsOfAppend(b: seq<Found>, f: Found)
    ensures multiset(PointsOf(b + [f])) == multiset(PointsOf(b)) + multiset{f.p}
  {
    assert PointsOf(b + [f]) == PointsOf(b) + [f.p];
  }

  /** The push of one child of the current node: the source queues it when
      best_so_far holds fewer than n entries, or else when its box is nearer
      than best_so_far's largest distance, which reads top() of an empty
      queue when n is 0. */
  function PushChild(q: seq<QEntry>, best: seq<Found>, child: Node, pos: V2, n: nat): (r: Result<seq<QEntry>>)
    ensures r.Undefined? <==> child.Node? && n == 0 && |best| == 0
    ensures r.Ok? ==> (r.value == q || (child.Node? && r.value == q + [QEntry(BoxDistance(child, pos), child)]))
    ensures r.Ok? && child.Node? && |best| < n ==> r.value == q + [QEntry(BoxDistance(child, pos), child)]
  {
    if child.Nil? then Ok(q)
    else if |best| < n then Ok(q + [QEntry(BoxDistance(child, pos), child)])
    else if |best| == 0 then Undefined("top() of an empty priority queue")
    else if Below(BoxDistance(child, pos), Fin(best[MaxIndex(best)].dist)) then Ok(q + [QEntry(BoxDistance(child, pos), child)])
    else Ok(q)
  }

  /** A push adds at most the child's subtree to the queue. */
  lemma PushSize(q: seq<QEntry>, best: seq<Found>, child: Node, pos: V2, n: nat)
    requires PushChild(q, best, child, pos, n).Ok?
    ensures QSize(PushChild(q, best, child, pos, n).value) <= QSize(q) + Size(child)
    ensures QPoints(PushChild(q, best, child, pos, n).value) <= QPoints(q) + Points(child)
    ensures AllNodes(q) ==> AllNodes(PushChild(q, best, child, pos, n).value)
  {
    if child.Node? {
      Pushed(q, PushChild(q, best, child, pos, n).value, QEntry(BoxDistance(child, pos), child));
    }
  }

  /** The queue after a push: unchanged, or one more entry for a node. */
  lemma Pushed(q: seq<QEntry>, r: seq<QEntry>, e: QEntry)
    requires r == q || (e.node.Node? && r == q + [e])
    ensures QSize(r) <= QSize(q) + Size(e.node)
    ensures QPoints(r) <= QPoints(q) + Points(e.node)
    ensures AllNodes(q) ==> AllNodes(r)
  {
    if r != q {
      QAppend(q, [e]);
      QSingle(e);
    }
  }

  /** best_so_far after pushing the current point: the entry with the
      largest distance is dropped once there are more than n. */
  function Keep(best: seq<Found>, f: Found, n: nat): (r: seq<Found>)
    ensures |best| <= n ==> |r| <= n
    ensures n >= 1 ==> |r| >= 1
    ensures |r| <= |best| + 1
  {
    var pushed := best + [f];
    if |pushed| > n then Remove(pushed, MaxIndex(pushed)) else pushed
  }

  lemma KeepFacts(best: seq<Found>, f: Found, n: nat, pos: V2)
    requires Honest(best, pos) && f.dist == DistSq(f.p.position, pos)
    ensures Honest(Keep(best, f, n), pos)
    ensures multiset(PointsOf(Keep(best, f, n))) <= multiset(PointsOf(best)) + multiset{f.p}
  {
    var pushed := best + [f];
    PointsOfAppend(best, f);
    if |pushed| > n {
      var k := MaxIndex(pushed);
      PointsOfRemove(pushed, k);
      var r := Remove(pushed, k);
      forall i | 0 <= i < |r| ensures r[i].dist == DistSq(r[i].p.position, pos) {
        if i < k {
          assert r[i] == pushed[i];
        } else {
          assert r[i] == pushed[i + 1];
        }
      }
    }
  }

  /** The while loop of find_n_closest: pop the queue entry with the
      smallest bound, push its point into best_so_far (dropping the largest
      once over n), then offer its left and right children. */
  function Search(q: seq<QEntry>, best: seq<Found>, pos: V2, n: nat): (r: Result<seq<Found>>)
    requires AllNodes(q)
    decreases QSize(q)
    ensures n >= 1 ==> r.Ok?
  {
    if |q| == 0 then Ok(best)
    else
      var k := MinIndex(q);
      var curr := q[k].node;
      var rest := Remove(q, k);
      var kept := Keep(best, Found(DistSq(curr.p.position, pos), curr.p), n);
      QRemove(q, k);
      var q1 := PushChild(rest, kept, curr.left, pos, n);
      if q1.Undefined? then Undefined(q1.reason)
      else
        var q2 := PushChild(q1.value, kept, curr.right, pos, n);
        if q2.Undefined? then Undefined(q2.reason)
        else
          RemoveKeepsNodes(q, k);
          PushSize(rest, kept, curr.left, pos, n);
          PushSize(q1.value, kept, curr.right, pos, n);
          assert Size(curr) == 1 + Size(curr.left) + Size(curr.right);
          assert QSize(q2.value) < QSize(q);
          Search(q2.value, kept, pos, n)
  }

  /** Search keeps best_so_far honest, never holds more than n entries once
      it starts within n, and only ever holds points that were in best_so_far
      or in a queued subtree, each at most as often. */
  lemma {:induction false} SearchFacts(q: seq<QEntry>, best: seq<Found>, pos: V2, n: nat)
    requires AllNodes(q) && Honest(best, pos)
    decreases QSize(q)
    ensures Search(q, best, pos, n).Ok? ==> Honest(Search(q, best, pos, n).value, pos)
    ensures Search(q, best, pos, n).Ok? ==>
              multiset(PointsOf(Search(q, best, pos, n).value)) <= multiset(PointsOf(best)) + QPoints(q)
    ensures Search(q, best, pos, n).Ok? && |best| <= n ==> |Search(q, best, pos, n).value| <= n
  {
    if |q| > 0 {
      var k := MinIndex(q);
      var curr := q[k].node;
      var rest := Remove(q, k);
      var f := Found(DistSq(curr.p.position, pos), curr.p);
      var kept := Keep(best, f, n);
      QRemove(q, k);
      RemoveKeepsNodes(q, k);
      KeepFacts(best, f, n, pos);
      var q1 := PushChild(rest, kept, curr.left, pos, n);
      if q1.Ok? {
        PushSize(rest, kept, curr.left, pos, n);
        var q2 := PushChild(q1.value, kept, curr.right, pos, n);
        if q2.Ok? {
          PushSize(q1.value, kept, curr.right, pos, n);
          assert Search(q, best, pos, n) == Search(q2.value, kept, pos, n);
          SearchFacts(q2.value, kept, pos, n);
          assert Points(curr) == multiset{curr.p} + Points(curr.left) + Points(curr.right);
          assert multiset(PointsOf(kept)) + QPoints(q2.value) <= multiset(PointsOf(best)) + QPoints(q);
        }
      }
    }
  }

  /** The final loop of find_n_closest: best_so_far is emptied from the
      top, largest distance first. */
  function Drain(b: seq<Found>): (r: seq<Found>)
    decreases |b|
    ensures |r| == |b| && multiset(r) == multiset(b)
  {
    if |b| == 0 then []
    else
      var k := MaxIndex(b);
      [b[k]] + Drain(Remove(b, k))
  }

  /** The drained entries come out in non-increasing distance. */
  lemma {:induction false} DrainIsNonIncreasing(b: seq<Found>)
    decreases |b|
    ensures forall i, j | 0 <= i < j < |Drain(b)| :: Drain(b)[j].dist <= Drain(b)[i].dist
  {
    if |b| > 0 {
      var k := MaxIndex(b);
      var rest := Remove(b, k);
      var d := Drain(rest);
      DrainIsNonIncreasing(rest);
      assert Drain(b) == [b[k]] + d;
      forall j | 0 <= j < |d| ensures d[j].dist <= b[k].dist {
        assert d[j] in multiset(d);
        assert d[j] in multiset(rest);
        assert d[j] in multiset(b);
      }
    }
  }

  /** The s32 argument n as the size_t it is compared with: a negative n
      wraps to at least 2^63. */
  function SizeT(n: int): (r: nat)
    requires -0x8000_0000 <= n < 0x8000_0000
    ensures n < 0 ==> r >= 0x8000_0000_0000_0000
    ensures r == 0 <==> n == 0
  {
    if n >= 0 then n else TWO_TO_THE_64 + n
  }

  /** KDTree::find_n_closest: the search from the root with bound 0, then
      the drain. Before add the root is not set, which is undefined. The
      result holds at most n points (n read as size_t), each a point of the
      tree and no point more often than the tree holds it, in non-increasing
      distance from the query. */
  function FindNClosest(t: Node, pos: V2, n: int): (r: Result<seq<BiomePoint>>)
    requires -0x8000_0000 <= n < 0x8000_0000
    ensures t.Nil? ==> r.Undefined?
    ensures r.Ok? ==> |r.value| <= SizeT(n)
    ensures r.Ok? ==> multiset(r.value) <= Points(t)
    ensures r.Ok? ==> forall i, j | 0 <= i < j < |r.value| ::
                        DistSq(r.value[j].position, pos) <= DistSq(r.value[i].position, pos)
  {
    if t.Nil? then Undefined("the root is only set by add")
    else
      var q := [QEntry(Fin(0.0), t)];
      QSingle(q[0]);
      SearchFacts(q, [], pos, SizeT(n));
      var s := Search(q, [], pos, SizeT(n));
      if s.Undefined? then Undefined(s.reason)
      else
        DrainIsNonIncreasing(s.value);
        DrainPoints(s.value);
        DrainHonest(s.value, pos);
        Ok(PointsOf(Drain(s.value)))
  }

  /** Draining keeps every entry's distance true. */
  lemma DrainHonest(b: seq<Found>, pos: V2)
    requires Honest(b, pos)
    ensures Honest(Drain(b), pos)
  {
    var d := Drain(b);
    forall i | 0 <= i < |d| ensures d[i].dist == DistSq(d[i].p.position, pos) {
      assert d[i] in multiset(b);
    }
  }

  lemma DrainPoints(b: seq<Found>)
    ensures multiset(PointsOf(Drain(b))) == multiset(PointsOf(b))
  {
    PermutedPoints(Drain(b), b);
  }

  /** Points of a permutation form the same multiset. */
  lemma {:induction false} PermutedPoints(a: seq<Found>, b: seq<Found>)
    requires multiset(a) == multiset(b)
    decreases |a|
    ensures multiset(PointsOf(a)) == multiset(PointsOf(b))
  {
    if |a| > 0 {
      var x := a[0];
      assert x in multiset(b);
      var k :| 0 <= k < |b| && b[k] == x;
      RemoveMatching(a, b, k);
      PermutedPoints(a[1..], Remove(b, k));
      PointsOfRemove(b, k);
      assert PointsOf(a) == [x.p] + PointsOf(a[1..]);
    } else {
      assert |b| == 0;
    }
  }

  /** Taking the first element off one permutation and a matching element
      off the other leaves permutations. */
  lemma RemoveMatching<T>(a: seq<T>, b: seq<T>, k: nat)
    requires multiset(a) == multiset(b) && 0 < |a| && k < |b| && b[k] == a[0]
    ensures multiset(a[1..]) == multiset(Remove(b, k))
  {
    var x := a[0];
    assert a == [x] + a[1..];
    assert multiset(a) == multiset(a[1..]) + multiset{x};
    assert multiset(b) == multiset(Remove(b, k)) + multiset{x};
    forall y ensures multiset(a[1..])[y] == multiset(Remove(b, k))[y] {
      assert multiset(a)[y] == multiset(a[1..])[y] + multiset{x}[y];
      assert multiset(b)[y] == multiset(Remove(b, k))[y] + multiset{x}[y];
    }
  }

  /** The search is undefined exactly when n is 0 and the root has a child:
      the root's own entry is pushed and dropped, and the first child's test
      reads top() of the empty best_so_far. With n == 0 and no child the
      result is empty. */
  lemma FindNClosestDefinedness(t: Node, pos: V2, n: int)
    requires -0x8000_0000 <= n < 0x8000_0000 && t.Node?
    ensures FindNClosest(t, pos, n).Undefined? <==> n == 0 && (t.left.Node? || t.right.Node?)
    ensures n == 0 && t.left.Nil? && t.right.Nil? ==> FindNClosest(t, pos, n) == Ok([])
  {
    var q := [QEntry(Fin(0.0), t)];
    if n == 0 {
      var f := Found(DistSq(t.p.position, pos), t.p);
      assert MinIndex(q) == 0;
      assert Remove(q, 0) == [];
      assert Keep([], f, 0) == [];
      if t.left.Nil? && t.right.Nil? {
        assert Search(q, [], pos, 0) == Search([], [], pos, 0);
      }
    }
  }
}

=== FILE: line_of_sight.dfy ===
/** Terrain::updateLOS (src/terrain.cpp): fog-of-war painting around one
    unit. For each of the 3 x 3 chunk cells around the unit whose square
    passes the circle collision test, the circle's bounding square is
    intersected with the cell, the chunk holding the intersection's corner
    is looked up, and every tile-centre sample of the intersection that lies
    within the radius has the byte at its tile index set to 255.

    The stores are modelled as a list of `Paint` records computed from the
    terrain before any store happens (a store changes only LOS bytes, which
    no lookup reads), then applied to the chunk map. */
module LineOfSight {
  import opened Common
  import opened RealArith
  import opened Geometry
  import opened TerrainGrid

  /** The value updateLOS stores into a tile it can see. */
  const Seen: byte := 255

  /** One store `chunk->los_indices[index] = 255`, with the tile-centre
      sample that caused it. */
  datatype Paint = Paint(key: V2, index: int, sample: V2)

  /** A store that is allowed: into a chunk already in the map, inside its
      LOS array, at the tile index of a sample within the circle. */
  predicate ValidPaint(p: Paint, t: Terrain, c: Circle)
  {
    && p.key in t.chunks
    && 0 <= p.index < TilesPerChunk
    && p.index == TileIndex(p.sample, t.chunkSize)
    && WithinRadius(p.sample, c)
  }

  /** The store the loop body makes for `sample` into chunk `key`. */
  function PaintAt(t: Terrain, key: V2, sample: V2): Paint
  {
    Paint(key, TileIndex(sample, t.chunkSize), sample)
  }

  /** The centre of tile (i, j) of the intersection rectangle:
      pos + tile_width * (i + 0.5, j + 0.5). */
  function SampleCenter(inter: Rect, tw: real, i: int, j: int): V2
  {
    V2(inter.pos.x + tw * (i as real + 0.5), inter.pos.y + tw * (j as real + 0.5))
  }

  /** The circle of a unit: its position and its LOS radius converted to float. */
  function LosCircle(pos: V2, los: int): Circle
  {
    Circle(pos, los as real)
  }

  /** Cell (i, j) of the 3 x 3 neighbourhood of pos's chunk, as a rectangle:
      origin + (i * chunk_size, j * chunk_size), chunk_size wide. */
  function NeighbourRect(cs: ChunkSize, pos: V2, i: int, j: int): (r: Rect)
    ensures NonNegativeDims(r)
  {
    var w := cs as real;
    Rect(Add(Origin(pos, cs), V2(i as real * w, j as real * w)), V2(w, w))
  }

  // ------------------------------------------------------------ the loops

  /** The inner loop: samples (i, j), (i, j + 1), ..., (i, ny - 1). Exactly
      the samples within the circle are painted, in order. */
  function ColumnPaints(t: Terrain, key: V2, inter: Rect, c: Circle, i: int, j: int, ny: int): (ps: seq<Paint>)
    requires key in t.chunks
    decreases ny - j
    ensures forall p | p in ps :: ValidPaint(p, t, c) && p.key == key
    ensures forall p | p in ps :: exists jj | j <= jj < ny :: p == PaintAt(t, key, SampleCenter(inter, TileWidth(t.chunkSize), i, jj))
    ensures forall jj | j <= jj < ny && WithinRadius(SampleCenter(inter, TileWidth(t.chunkSize), i, jj), c) ::
              PaintAt(t, key, SampleCenter(inter, TileWidth(t.chunkSize), i, jj)) in ps
  {
    if j >= ny then []
    else
      var sample := SampleCenter(inter, TileWidth(t.chunkSize), i, j);
      var here := if WithinRadius(sample, c) then [PaintAt(t, key, sample)] else [];
      here + ColumnPaints(t, key, inter, c, i, j + 1, ny)
  }

  /** The outer loop: columns i, i + 1, ..., nx - 1 of the intersection. */
  function GridPaints(t: Terrain, key: V2, inter: Rect, c: Circle, i: int, nx: int, ny: int): (ps: seq<Paint>)
    requires key in t.chunks
    decreases nx - i
    ensures forall p | p in ps :: ValidPaint(p, t, c) && p.key == key
    ensures forall p | p in ps :: exists ii, jj | i <= ii < nx && 0 <= jj < ny ::
              p == PaintAt(t, key, SampleCenter(inter, TileWidth(t.chunkSize), ii, jj))
    ensures forall ii, jj | i <= ii < nx && 0 <= jj < ny && WithinRadius(SampleCenter(inter, TileWidth(t.chunkSize), ii, jj), c) ::
              PaintAt(t, key, SampleCenter(inter, TileWidth(t.chunkSize), ii, jj)) in ps
  {
    if i >= nx then []
    else ColumnPaints(t, key, inter, c, i, 0, ny) + GridPaints(t, key, inter, c, i + 1, nx, ny)
  }

  /** The rectangle updateLOS scans for neighbour (i, j): none unless the
      cell collides with the circle and the circle's bounding square
      intersects the cell; then that intersection. */
  function NeighbourWindow(cs: ChunkSize, pos: V2, los: int, i: int, j: int): Option<Rect>
  {
    var c := LosCircle(pos, los);
    var cell := NeighbourRect(cs, pos, i, j);
    if !CollidesWith(cell, c) then None
    else GetIntersectingRect(BoundingRect(c), cell)
  }

  /** The body of updateLOS for neighbour (i, j): nothing unless there is a
      window and a chunk holds the window's corner; then the tile grid of the
      window, (int)(dim / tile_width) tiles per axis. */
  function NeighbourPaints(t: Terrain, pos: V2, los: int, i: int, j: int): (ps: seq<Paint>)
    ensures forall p | p in ps :: ValidPaint(p, t, LosCircle(pos, los))
  {
    match NeighbourWindow(t.chunkSize, pos, los, i, j)
    case None => []
    case Some(inter) =>
      match GetChunkFromPos(t, inter.pos)
      case None => []
      case Some(key) =>
        var tw := TileWidth(t.chunkSize);
        GridPaints(t, key, inter, LosCircle(pos, los), 0, TruncToInt(inter.dim.x / tw), TruncToInt(inter.dim.y / tw))
  }

  /** The two neighbourhood loops, i outer and j inner, from slot n on:
      slot n is neighbour (n / 3 - 1, n % 3 - 1). */
  function NeighbourhoodPaints(t: Terrain, pos: V2, los: int, n: nat): (ps: seq<Paint>)
    decreases 9 - n
    ensures forall p | p in ps :: ValidPaint(p, t, LosCircle(pos, los))
  {
    if n >= 9 then []
    else NeighbourPaints(t, pos, los, n / 3 - 1, n % 3 - 1) + NeighbourhoodPaints(t, pos, los, n + 1)
  }

  /** Every store updateLOS(pos, los) makes, in order. */
  function LosPaints(t: Terrain, pos: V2, los: int): (ps: seq<Paint>)
    ensures forall p | p in ps :: ValidPaint(p, t, LosCircle(pos, los))
  {
    NeighbourhoodPaints(t, pos, los, 0)
  }

  // ------------------------------------------------------------ the stores

  /** Some store of `ps` targets byte o of chunk k. */
  predicate Painted(ps: seq<Paint>, k: V2, o: int)
  {
    exists p | p in ps :: p.key == k && p.index == o
  }

  /** Every store of `ps` is into a stored chunk's LOS array. */
  predicate StoresInRange(chunks: map<V2, Chunk>, ps: seq<Paint>)
  {
    forall p | p in ps :: p.key in chunks && 0 <= p.index < TilesPerChunk
  }

  /** `chunk->los_indices[index] = 255` for one store. */
  function ApplyPaint(chunks: map<V2, Chunk>, p: Paint): (r: map<V2, Chunk>)
    requires ChunksWellFormed(chunks)
    requires p.key in chunks && 0 <= p.index < TilesPerChunk
    ensures r.Keys == chunks.Keys && ChunksWellFormed(r)
    ensures forall k | k in chunks :: r[k].origin == chunks[k].origin && r[k].material == chunks[k].material
    ensures forall k, o | k in chunks && 0 <= o < TilesPerChunk ::
              r[k].los[o] == (if k == p.key && o == p.index then Seen else chunks[k].los[o])
  {
    var c := chunks[p.key];
    chunks[p.key := c.(los := c.los[p.index := Seen])]
  }

  /** The stores of `ps`, first to last. Every LOS byte ends at 255 when
      some store targets it and is unchanged otherwise; nothing else in the
      map changes. */
  function ApplyPaints(chunks: map<V2, Chunk>, ps: seq<Paint>): (r: map<V2, Chunk>)
    requires ChunksWellFormed(chunks) && StoresInRange(chunks, ps)
    decreases |ps|
    ensures r.Keys == chunks.Keys && ChunksWellFormed(r)
    ensures forall k | k in chunks :: r[k].origin == chunks[k].origin && r[k].material == chunks[k].material
    ensures forall k, o | k in chunks && 0 <= o < TilesPerChunk ::
              r[k].los[o] == (if Painted(ps, k, o) then Seen else chunks[k].los[o])
  {
    if |ps| == 0 then chunks
    else
      var next := ApplyPaint(chunks, ps[0]);
      assert StoresInRange(next, ps[1..]) by {
        assert forall p | p in ps[1..] :: p in ps;
      }
      var r := ApplyPaints(next, ps[1..]);
      assert forall k, o | k in chunks && 0 <= o < TilesPerChunk ::
               Painted(ps, k, o) <==> (k == ps[0].key && o == ps[0].index) || Painted(ps[1..], k, o) by {
        forall k, o | k in chunks && 0 <= o < TilesPerChunk
          ensures Painted(ps, k, o) <==> (k == ps[0].key && o == ps[0].index) || Painted(ps[1..], k, o)
        {
          PaintedSplit(ps, k, o);
        }
      }
      r
  }

  /** A store in `ps` is its head or a store in its tail. */
  lemma PaintedSplit(ps: seq<Paint>, k: V2, o: int)
    requires |ps| > 0
    ensures Painted(ps, k, o) <==> (ps[0].key == k && ps[0].index == o) || Painted(ps[1..], k, o)
  {
    if Painted(ps, k, o) {
      var p :| p in ps && p.key == k && p.index == o;
      if p != ps[0] {
        assert p in ps[1..];
      }
    }
    if Painted(ps[1..], k, o) {
      var p :| p in ps[1..] && p.key == k && p.index == o;
      assert p in ps;
    }
  }

  /** Terrain::updateLOS(pos, los). */
  function UpdateLOS(t: Terrain, pos: V2, los: int): (r: Terrain)
    requires ChunksWellFormed(t.chunks)
    ensures r.chunkSize == t.chunkSize && r.visible == t.visible
    ensures r.chunks.Keys == t.chunks.Keys && ChunksWellFormed(r.chunks)
    ensures forall k | k in t.chunks ::
              r.chunks[k].origin == t.chunks[k].origin && r.chunks[k].material == t.chunks[k].material
    ensures forall k, o | k in t.chunks && 0 <= o < TilesPerChunk ::
              r.chunks[k].los[o] == (if Painted(LosPaints(t, pos, los), k, o) then Seen else t.chunks[k].los[o])
  {
    t.(chunks := ApplyPaints(t.chunks, LosPaints(t, pos, los)))
  }

  /** updateLOS stores only 255, only at the tile index of a sample within
      the circle, so a byte that changed is 255 and was caused by such a
      sample. */
  lemma UpdateLOSOnlyPaintsSeenTiles(t: Terrain, pos: V2, los: int, k: V2, o: int)
    requires ChunksWellFormed(t.chunks)
    requires k in t.chunks && 0 <= o < TilesPerChunk
    requires UpdateLOS(t, pos, los).chunks[k].los[o] != t.chunks[k].los[o]
    ensures UpdateLOS(t, pos, los).chunks[k].los[o] == Seen
    ensures exists s :: TileIndex(s, t.chunkSize) == o && WithinRadius(s, LosCircle(pos, los))
  {
    var p :| p in LosPaints(t, pos, los) && p.key == k && p.index == o;
    assert ValidPaint(p, t, LosCircle(pos, los));
  }

  /** A negative LOS radius paints nothing. */
  lemma NegativeRadiusPaintsNothing(t: Terrain, pos: V2, los: int)
    requires ChunksWellFormed(t.chunks)
    requires los < 0
    ensures UpdateLOS(t, pos, los) == t
  {
    var ps := LosPaints(t, pos, los);
    assert forall k, o :: !Painted(ps, k, o);
    var r := UpdateLOS(t, pos, los);
    forall k | k in t.chunks ensures r.chunks[k] == t.chunks[k] {
      assert r.chunks[k].los == t.chunks[k].los;
    }
    assert r.chunks == t.chunks;
  }

  /** The guard on each neighbour makes the intersection updateLOS uses a
      genuine overlap: with a non-negative radius, a cell that passes the
      collision test meets the circle's bounding square, so the middle-edge
      rectangle is the true overlap and never the gap between them. */
  lemma NeighbourIntersectionIsOverlap(cs: ChunkSize, pos: V2, los: int, i: int, j: int)
    requires 0 <= los
    requires CollidesWith(NeighbourRect(cs, pos, i, j), LosCircle(pos, los))
    ensures GetIntersectingRect(BoundingRect(LosCircle(pos, los)), NeighbourRect(cs, pos, i, j))
            == Overlap(BoundingRect(LosCircle(pos, los)), NeighbourRect(cs, pos, i, j))
  {
    GuardedIntersectionIsOverlap(NeighbourRect(cs, pos, i, j), LosCircle(pos, los));
  }
}

=== FILE: mesh.dfy ===
/** Meshes built from terrain tiles: the indexed quad mesh of
    src/terrain.cpp (four vertices and six indices per tile) and the older
    unindexed expansion of src/mesh.cpp (six vertices per tile). */
module Meshes {
  import opened Vertices

  /** A terrain tile: exactly four corner vertices, in the order the chunk
      constructor fills them. */
  datatype Tile = Tile(v0: Vertex, v1: Vertex, v2: Vertex, v3: Vertex)

  /** Corner k of a tile, k < 4. */
  function Corner(t: Tile, k: nat): Vertex
    requires k < 4
  {
    if k == 0 then t.v0 else if k == 1 then t.v1 else if k == 2 then t.v2 else t.v3
  }

  /** The vertex and index lists of a MeshData (the primitive type tag is
      not modelled). */
  datatype MeshData = MeshData(vertices: seq<Vertex>, indices: seq<nat>)

  /** The corner drawn at position q of a quad's two triangles (0, 1, 2)
      and (0, 2, 3). */
  function QuadCorner(q: nat): (k: nat)
    requires q < 6
    ensures k < 4
  {
    if q == 0 then 0 else if q == 1 then 1 else if q == 2 then 2
    else if q == 3 then 0 else if q == 4 then 2 else 3
  }

  /** The six indices of a quad whose first vertex is at `b`. */
  function QuadIndices(b: nat): (r: seq<nat>)
    ensures |r| == 6 && forall q | 0 <= q < 6 :: r[q] == b + QuadCorner(q)
  {
    [b, b + 1, b + 2, b, b + 2, b + 3]
  }

  /** genMeshFromTiles in src/terrain.cpp: for each tile in order, push the
      six indices (taken from the vertex count before the tile) and then the
      tile's four corners. */
  function GenIndexedMesh(tiles: seq<Tile>): (m: MeshData)
    ensures |m.vertices| == 4 * |tiles| && |m.indices| == 6 * |tiles|
    ensures forall t, k | 0 <= t < |tiles| && 0 <= k < 4 :: m.vertices[4 * t + k] == Corner(tiles[t], k)
    ensures forall t | 0 <= t < |tiles| :: m.indices[6 * t .. 6 * t + 6] == QuadIndices(4 * t)
    ensures forall i | 0 <= i < |m.indices| :: m.indices[i] < |m.vertices|
  {
    if |tiles| == 0 then MeshData([], [])
    else
      var prev := GenIndexedMesh(tiles[..|tiles| - 1]);
      var last := tiles[|tiles| - 1];
      var n := |prev.vertices|;
      IndexedStep(tiles, prev, n);
      MeshData(prev.vertices + [last.v0, last.v1, last.v2, last.v3], prev.indices + QuadIndices(n))
  }

  /** The inductive step of GenIndexedMesh: appending the last tile keeps the
      earlier tiles' vertices and indices where they were. */
  lemma IndexedStep(tiles: seq<Tile>, prev: MeshData, n: nat)
    requires |tiles| > 0 && n == |prev.vertices|
    requires |prev.vertices| == 4 * (|tiles| - 1) && |prev.indices| == 6 * (|tiles| - 1)
    requires forall t, k | 0 <= t < |tiles| - 1 && 0 <= k < 4 :: prev.vertices[4 * t + k] == Corner(tiles[t], k)
    requires forall t | 0 <= t < |tiles| - 1 :: prev.indices[6 * t .. 6 * t + 6] == QuadIndices(4 * t)
    requires forall i | 0 <= i < |prev.indices| :: prev.indices[i] < n
    ensures var last := tiles[|tiles| - 1];
            var vs := prev.vertices + [last.v0, last.v1, last.v2, last.v3];
            var ix := prev.indices + QuadIndices(n);
            && (forall t, k | 0 <= t < |tiles| && 0 <= k < 4 :: vs[4 * t + k] == Corner(tiles[t], k))
            && (forall t | 0 <= t < |tiles| :: ix[6 * t .. 6 * t + 6] == QuadIndices(4 * t))
            && (forall i | 0 <= i < |ix| :: ix[i] < |vs|)
  {
    var last := tiles[|tiles| - 1];
    var vs := prev.vertices + [last.v0, last.v1, last.v2, last.v3];
    var ix := prev.indices + QuadIndices(n);
    forall t | 0 <= t < |tiles| ensures ix[6 * t .. 6 * t + 6] == QuadIndices(4 * t) {
      if t < |tiles| - 1 {
        assert ix[6 * t .. 6 * t + 6] == prev.indices[6 * t .. 6 * t + 6];
      } else {
        assert ix[6 * t .. 6 * t + 6] == QuadIndices(n);
      }
    }
  }

  /** MeshData::genMeshFromTiles in src/mesh.cpp: each tile becomes the six
      vertices of its two triangles, corners 0, 1, 2 and 0, 2, 3, in input
      order and unaltered; the index list is empty. */
  function GenFlatMesh(tiles: seq<Tile>): (m: MeshData)
    ensures |m.vertices| == 6 * |tiles| && m.indices == []
    ensures forall t | 0 <= t < |tiles| ::
              m.vertices[6 * t .. 6 * t + 6] == FlatQuad(tiles[t])
  {
    if |tiles| == 0 then MeshData([], [])
    else
      var prev := GenFlatMesh(tiles[..|tiles| - 1]);
      FlatStep(tiles, prev.vertices);
      MeshData(prev.vertices + FlatQuad(tiles[|tiles| - 1]), [])
  }

  /** The six vertices src/mesh.cpp pushes for one tile. */
  function FlatQuad(t: Tile): (r: seq<Vertex>)
    ensures |r| == 6
    ensures forall q | 0 <= q < 6 :: r[q] == Corner(t, QuadCorner(q))
  {
    [t.v0, t.v1, t.v2, t.v0, t.v2, t.v3]
  }

  lemma FlatStep(tiles: seq<Tile>, prev: seq<Vertex>)
    requires |tiles| > 0 && |prev| == 6 * (|tiles| - 1)
    requires forall t | 0 <= t < |tiles| - 1 :: prev[6 * t .. 6 * t + 6] == FlatQuad(tiles[t])
    ensures forall t | 0 <= t < |tiles| ::
              (prev + FlatQuad(tiles[|tiles| - 1]))[6 * t .. 6 * t + 6] == FlatQuad(tiles[t])
  {
    var vs := prev + FlatQuad(tiles[|tiles| - 1]);
    forall t | 0 <= t < |tiles| ensures vs[6 * t .. 6 * t + 6] == FlatQuad(tiles[t]) {
      if t < |tiles| - 1 {
        assert vs[6 * t .. 6 * t + 6] == prev[6 * t .. 6 * t + 6];
      } else {
        assert vs[6 * t .. 6 * t + 6] == FlatQuad(tiles[t]);
      }
    }
  }

  /** Drawing an indexed mesh: vertex indices[i] for every i. */
  function Resolve(m: MeshData): (r: seq<Vertex>)
    requires forall i | 0 <= i < |m.indices| :: m.indices[i] < |m.vertices|
    ensures |r| == |m.indices|
    ensures forall i | 0 <= i < |r| :: r[i] == m.vertices[m.indices[i]]
  {
    seq(|m.indices|, i requires 0 <= i < |m.indices| => m.vertices[m.indices[i]])
  }

  /** The two generators agree: resolving the indexed mesh of src/terrain.cpp
      through its indices yields exactly the vertex list of src/mesh.cpp. */
  lemma IndexedMeshResolvesToFlatMesh(tiles: seq<Tile>)
    ensures Resolve(GenIndexedMesh(tiles)) == GenFlatMesh(tiles).vertices
  {
    var r := Resolve(GenIndexedMesh(tiles));
    var f := GenFlatMesh(tiles).vertices;
    forall i | 0 <= i < |r| ensures r[i] == f[i] {
      var t, q := i / 6, i % 6;
      assert i == 6 * t + q && t < |tiles|;
      ResolvedVertex(tiles, t, q);
    }
  }

  /** Entry 6t + q of the resolved indexed mesh is entry q of tile t's flat quad. */
  lemma ResolvedVertex(tiles: seq<Tile>, t: nat, q: nat)
    requires t < |tiles| && q < 6
    ensures Resolve(GenIndexedMesh(tiles))[6 * t + q] == GenFlatMesh(tiles).vertices[6 * t + q]
  {
    var m := GenIndexedMesh(tiles);
    var k := QuadCorner(q);
    assert m.indices[6 * t .. 6 * t + 6] == QuadIndices(4 * t);
    assert QuadIndices(4 * t)[q] == 4 * t + k;
    assert m.indices[6 * t + q] == m.indices[6 * t .. 6 * t + 6][q];
    assert m.vertices[4 * t + k] == Corner(tiles[t], k);
    assert GenFlatMesh(tiles).vertices[6 * t + q] == Corner(tiles[t], k) by {
      var f := GenFlatMesh(tiles).vertices;
      assert f[6 * t + q] == f[6 * t .. 6 * t + 6][q];
    }
  }
}

=== FILE: real_arith.dfy ===
/** Facts about products, squares and floors of reals that the geometry and
    grid proofs rely on. Each is proved in small steps so that the solver's
    non-linear reasoning is never asked to combine several products at once. */
module RealArith {

  /** x squared. Squared lengths are compared instead of lengths throughout. */
  function Sq(x: real): real { x * x }

  lemma MulPos(a: real, b: real)
    requires 0.0 < a && 0.0 < b
    ensures 0.0 < a * b
  {
  }

  lemma MulNonNeg(a: real, b: real)
    requires 0.0 <= a && 0.0 <= b
    ensures 0.0 <= a * b
  {
  }

  lemma MulLeRight(a: real, b: real, c: real)
    requires a <= b && 0.0 <= c
    ensures a * c <= b * c
  {
    calc {
      b * c - a * c;
      (b - a) * c;
    >= { MulNonNeg(b - a, c); }
      0.0;
    }
  }

  lemma MulLtRight(a: real, b: real, c: real)
    requires a < b && 0.0 < c
    ensures a * c < b * c
  {
    calc {
      b * c - a * c;
      (b - a) * c;
    > { MulPos(b - a, c); }
      0.0;
    }
  }

  /** Multiplying both sides by a positive factor preserves <= in both directions. */
  lemma MulLeIff(a: real, b: real, c: real)
    requires 0.0 < c
    ensures a <= b <==> a * c <= b * c
  {
    if a <= b {
      MulLeRight(a, b, c);
    } else {
      MulLtRight(b, a, c);
    }
  }

  lemma MulLtIff(a: real, b: real, c: real)
    requires 0.0 < c
    ensures a < b <==> a * c < b * c
  {
    if a < b {
      MulLtRight(a, b, c);
    } else {
      MulLeRight(b, a, c);
    }
  }

  lemma SqNonNeg(x: real)
    ensures 0.0 <= Sq(x)
  {
    if x < 0.0 {
      calc {
        Sq(x);
        (-x) * (-x);
      >= { MulNonNeg(-x, -x); }
        0.0;
      }
    } else {
      calc {
        Sq(x);
        x * x;
      >= { MulNonNeg(x, x); }
        0.0;
      }
    }
  }

  lemma SqPos(x: real)
    requires x != 0.0
    ensures 0.0 < Sq(x)
  {
    if x < 0.0 {
      calc {
        Sq(x);
        (-x) * (-x);
      > { MulPos(-x, -x); }
        0.0;
      }
    } else {
      calc {
        Sq(x);
        x * x;
      > { MulPos(x, x); }
        0.0;
      }
    }
  }

  lemma SqZero(x: real)
    requires Sq(x) == 0.0
    ensures x == 0.0
  {
    if x != 0.0 {
      SqPos(x);
    }
  }

  lemma SqNeg(x: real)
    ensures Sq(-x) == Sq(x)
  {
    calc {
      Sq(-x);
      (-x) * (-x);
      x * x;
    }
  }

  lemma SqMul(a: real, b: real)
    ensures Sq(a * b) == Sq(a) * Sq(b)
  {
    calc {
      Sq(a * b);
      (a * b) * (a * b);
      (a * a) * (b * b);
    }
  }

  lemma SqLe(a: real, b: real)
    requires 0.0 <= a <= b
    ensures Sq(a) <= Sq(b)
  {
    calc {
      Sq(a);
      a * a;
    <= { MulLeRight(a, b, a); }
      b * a;
      a * b;
    <= { MulLeRight(a, b, b); }
      b * b;
      Sq(b);
    }
  }

  lemma SqLt(a: real, b: real)
    requires 0.0 <= a < b
    ensures Sq(a) < Sq(b)
  {
    calc {
      Sq(a);
      a * a;
    <= { MulLeRight(a, b, a); }
      b * a;
      a * b;
    < { MulLtRight(a, b, b); }
      b * b;
      Sq(b);
    }
  }

  /** For non-negative reals, comparing squares is comparing the values. */
  lemma SqMonotoneIff(a: real, b: real)
    requires 0.0 <= a && 0.0 <= b
    ensures a <= b <==> Sq(a) <= Sq(b)
    ensures a < b <==> Sq(a) < Sq(b)
  {
    if a <= b {
      SqLe(a, b);
      if a < b {
        SqLt(a, b);
      }
    } else {
      SqLt(b, a);
    }
    if b <= a {
      SqLe(b, a);
    }
  }

  /** A value whose square is at most r^2 lies in [-r, r]. */
  lemma SqBound(v: real, r: real)
    requires 0.0 <= r && Sq(v) <= Sq(r)
    ensures -r <= v <= r
  {
    if v > r {
      SqLt(r, v);
    }
    if v < -r {
      SqLt(r, -v);
      SqNeg(v);
    }
  }

  /** Dividing by a non-zero value and multiplying back is the identity. */
  lemma DivMulCancel(p: real, c: real)
    requires c != 0.0
    ensures (p / c) * c == p
    ensures (p * c) / c == p
  {
  }

  /** Multiplying whole numbers commutes with converting them to reals. */
  lemma IntMulReal(a: int, b: int)
    ensures (a * b) as real == a as real * b as real
  {
  }

  /** Floor bounds: floor(q) <= q < floor(q) + 1. */
  lemma FloorBounds(q: real)
    ensures q.Floor as real <= q < q.Floor as real + 1.0
  {
  }

  /** floor(x / c) * c brackets x from below, within c. */
  lemma FloorDivBounds(x: real, c: real)
    requires 0.0 < c
    ensures (x / c).Floor as real * c <= x < (x / c).Floor as real * c + c
  {
    FloorBounds(x / c);
    calc {
      (x / c).Floor as real * c;
    <= { MulLeRight((x / c).Floor as real, x / c, c); }
      (x / c) * c;
    == { DivMulCancel(x, c); }
      x;
    }
    calc {
      x;
    == { DivMulCancel(x, c); }
      (x / c) * c;
    < { MulLtRight(x / c, (x / c).Floor as real + 1.0, c); }
      ((x / c).Floor as real + 1.0) * c;
    ==
      (x / c).Floor as real * c + c;
    }
  }

  /** floor(x / c) is pinned down by any bracketing multiple of c. */
  lemma FloorDivUnique(x: real, c: real, k: int)
    requires 0.0 < c
    requires k as real * c <= x < k as real * c + c
    ensures (x / c).Floor == k
  {
    calc {
      k as real * c;
    <= x;
    == { DivMulCancel(x, c); }
      (x / c) * c;
    }
    MulLeIff(k as real, x / c, c);
    calc {
      (x / c) * c;
    == { DivMulCancel(x, c); }
      x;
    < k as real * c + c;
    ==
      (k as real + 1.0) * c;
    }
    MulLtIff(x / c, k as real + 1.0, c);
    FloorUnique(x / c, k);
  }

  /** The floor of q is the whole number k with k <= q < k + 1. */
  lemma FloorUnique(q: real, k: int)
    requires k as real <= q < k as real + 1.0
    ensures q.Floor == k
  {
  }

  /** 0 <= m < w * n implies 0 <= m / w < n. */
  lemma DivScaleBelow(m: real, w: real, n: real)
    requires 0.0 < w && 0.0 <= m < w * n
    ensures 0.0 <= m / w < n
  {
    DivMulCancel(m, w);
    MulLeIff(0.0, m / w, w);
    MulLtIff(m / w, n, w);
  }
}

=== FILE: systems.dfy ===
/** The game systems of src/systems.cpp that act on the terrain and the
    camera: the per-tick LOS decay and painting, chunk generation around the
    camera target, and ortho camera movement. The game loop runs them in
    the order cameraMovement, terrainGeneration, unitMovement, LOS. */
module Systems {
  import opened Common
  import opened Geometry
  import opened TerrainGrid
  import opened LineOfSight
  import opened CameraModel

  // ------------------------------------------------------------ LOS decay

  /** The LOS value a tile decays from, and the value it decays to. */
  const Fresh: byte := 2
  const Remembered: byte := 1

  /** One LOS array after `if (los_index == 2) los_index = 1`. */
  function DecayBytes(b: seq<byte>): (r: seq<byte>)
    ensures |r| == |b|
    ensures forall o | 0 <= o < |b| :: r[o] == (if b[o] == Fresh then Remembered else b[o])
  {
    seq(|b|, o requires 0 <= o < |b| => if b[o] == Fresh then Remembered else b[o])
  }

  /** A chunk after decay: only its LOS array changes. */
  function DecayChunk(c: Chunk): (r: Chunk)
    ensures r.origin == c.origin && r.material == c.material && |r.los| == |c.los|
  {
    c.(los := DecayBytes(c.los))
  }

  /** Decaying a chunk twice is decaying it once. */
  lemma DecayChunkIdempotent(c: Chunk)
    ensures DecayChunk(DecayChunk(c)) == DecayChunk(c)
  {
    assert DecayBytes(DecayBytes(c.los)) == DecayBytes(c.los);
  }

  /** Some slot s' >= s of the window points to chunk k. */
  predicate InWindowFrom(visible: seq<Slot>, s: nat, k: V2)
  {
    exists s' | s <= s' < |visible| :: visible[s'] == Ptr(k)
  }

  /** The map after decaying exactly the chunks some slot s' >= s points to. */
  predicate DecayedFrom(r: map<V2, Chunk>, chunks: map<V2, Chunk>, visible: seq<Slot>, s: nat)
  {
    && r.Keys == chunks.Keys
    && forall k | k in chunks ::
         r[k] == (if InWindowFrom(visible, s, k) then DecayChunk(chunks[k]) else chunks[k])
  }

  /** Decay of visible slots s, s + 1, ..., 8, in that order. Every slot is
      dereferenced without a check, so a null, indeterminate or dangling
      pointer is undefined behaviour. */
  function DecaySlots(chunks: map<V2, Chunk>, visible: seq<Slot>, s: nat): (r: Result<map<V2, Chunk>>)
    requires |visible| == WindowSlots
    decreases WindowSlots - s
    ensures r.Ok? <==> forall s' | s <= s' < WindowSlots :: Readable(visible[s'], chunks)
    ensures r.Ok? ==> DecayedFrom(r.value, chunks, visible, s)
  {
    if s >= WindowSlots then Ok(chunks)
    else
      match visible[s]
      case Ptr(k) =>
        if k !in chunks then Undefined("LOS decay reads through a dangling visible pointer")
        else
          var rest := DecaySlots(chunks[k := DecayChunk(chunks[k])], visible, s + 1);
          if rest.Undefined? then rest
          else
            DecaySlotsStep(chunks, visible, s, rest.value);
            rest
      case Null => Undefined("LOS decay dereferences a null visible pointer")
      case Garbage => Undefined("LOS decay dereferences an indeterminate visible pointer")
  }

  /** One step of DecaySlots: decaying slot s's chunk and then slots s + 1 ..
      decays exactly the chunks some slot s' >= s points to. */
  lemma DecaySlotsStep(chunks: map<V2, Chunk>, visible: seq<Slot>, s: nat, rest: map<V2, Chunk>)
    requires |visible| == WindowSlots && s < WindowSlots
    requires visible[s].Ptr? && visible[s].key in chunks
    requires DecayedFrom(rest, chunks[visible[s].key := DecayChunk(chunks[visible[s].key])], visible, s + 1)
    ensures DecayedFrom(rest, chunks, visible, s)
  {
    var k0 := visible[s].key;
    var next := chunks[k0 := DecayChunk(chunks[k0])];
    forall k | k in chunks
      ensures rest[k] == (if InWindowFrom(visible, s, k) then DecayChunk(chunks[k]) else chunks[k])
    {
      assert rest[k] == (if InWindowFrom(visible, s + 1, k) then DecayChunk(next[k]) else next[k]);
      if k == k0 {
        assert InWindowFrom(visible, s, k);
        DecayChunkIdempotent(chunks[k]);
      } else {
        assert next[k] == chunks[k];
        if InWindowFrom(visible, s, k) {
          var s' :| s <= s' < |visible| && visible[s'] == Ptr(k);
          assert InWindowFrom(visible, s + 1, k);
        }
        if InWindowFrom(visible, s + 1, k) {
          var s' :| s + 1 <= s' < |visible| && visible[s'] == Ptr(k);
          assert InWindowFrom(visible, s, k);
        }
      }
    }
  }

  /** The decay half of GameSystem::LOS. */
  function Decay(t: Terrain): (r: Result<Terrain>)
    requires |t.visible| == WindowSlots
    ensures r.Ok? <==> forall s | 0 <= s < WindowSlots :: Readable(t.visible[s], t.chunks)
    ensures r.Ok? ==> r.value.chunkSize == t.chunkSize && r.value.visible == t.visible
    ensures r.Ok? ==> DecayedFrom(r.value.chunks, t.chunks, t.visible, 0)
  {
    match DecaySlots(t.chunks, t.visible, 0)
    case Ok(chunks) => Ok(t.(chunks := chunks))
    case Undefined(why) => Undefined(why)
  }

  /** Decay keeps every chunk's arrays at full size. */
  lemma DecayWellFormed(t: Terrain)
    requires |t.visible| == WindowSlots && Decay(t).Ok? && ChunksWellFormed(t.chunks)
    ensures ChunksWellFormed(Decay(t).value.chunks)
  {
    var d := Decay(t).value.chunks;
    assert DecayedFrom(d, t.chunks, t.visible, 0);
    forall k | k in d ensures WellFormed(d[k]) {
      assert WellFormed(t.chunks[k]);
      assert d[k] == DecayChunk(t.chunks[k]) || d[k] == t.chunks[k];
    }
  }

  /** What decay does to each byte: in a visible chunk every 2 becomes 1 and
      every other value, 255 included, is kept; chunks outside the window and
      all material bytes are untouched. */
  lemma DecayEffect(t: Terrain, k: V2, o: int)
    requires |t.visible| == WindowSlots && Decay(t).Ok?
    requires k in t.chunks && 0 <= o < |t.chunks[k].los|
    ensures Decay(t).value.chunks[k].material == t.chunks[k].material
    ensures Decay(t).value.chunks[k].origin == t.chunks[k].origin
    ensures InWindowFrom(t.visible, 0, k) ==>
              Decay(t).value.chunks[k].los[o] == (if t.chunks[k].los[o] == Fresh then Remembered else t.chunks[k].los[o])
    ensures !InWindowFrom(t.visible, 0, k) ==> Decay(t).value.chunks[k] == t.chunks[k]
  {
    assert Decay(t).value.chunks[k] == (if InWindowFrom(t.visible, 0, k) then DecayChunk(t.chunks[k]) else t.chunks[k]);
  }

  /** After decay no LOS byte of a chunk in the window equals 2. */
  lemma DecayClearsFresh(t: Terrain)
    requires |t.visible| == WindowSlots && Decay(t).Ok?
    ensures forall k, o | k in t.chunks && InWindowFrom(t.visible, 0, k) && 0 <= o < |Decay(t).value.chunks[k].los| ::
              Decay(t).value.chunks[k].los[o] != Fresh
  {
    forall k, o | k in t.chunks && InWindowFrom(t.visible, 0, k) && 0 <= o < |Decay(t).value.chunks[k].los|
      ensures Decay(t).value.chunks[k].los[o] != Fresh
    {
      DecayEffect(t, k, o);
    }
  }

  /** Decay is idempotent: a second decay succeeds and changes nothing. */
  lemma DecayIdempotent(t: Terrain)
    requires |t.visible| == WindowSlots && Decay(t).Ok?
    ensures Decay(Decay(t).value).Ok?
    ensures Decay(Decay(t).value) == Decay(t)
  {
    DecayStaysDefined(t);
    DecayChunksStable(t);
  }

  /** A second decay leaves every chunk of Decay(t) as it is. */
  lemma DecayChunksStable(t: Terrain)
    requires |t.visible| == WindowSlots && Decay(t).Ok? && Decay(Decay(t).value).Ok?
    ensures Decay(Decay(t).value).value.chunks == Decay(t).value.chunks
  {
    var d := Decay(t).value;
    var dd := Decay(d).value;
    assert d.chunks.Keys == t.chunks.Keys;
    assert dd.chunks.Keys == d.chunks.Keys;
    forall k | k in d.chunks ensures dd.chunks[k] == d.chunks[k] {
      DecayChunkStable(t, k);
    }
    SameEntries(dd.chunks, d.chunks);
  }

  /** Two maps with the same keys and the same entries are equal. */
  lemma SameEntries<K, V>(a: map<K, V>, b: map<K, V>)
    requires a.Keys == b.Keys && forall k | k in a :: a[k] == b[k]
    ensures a == b
  {
  }

  /** Decay keeps the chunk keys, so every slot readable before is readable
      after, and a second decay is defined. */
  lemma DecayStaysDefined(t: Terrain)
    requires |t.visible| == WindowSlots && Decay(t).Ok?
    ensures Decay(t).value.chunks.Keys == t.chunks.Keys
    ensures Decay(Decay(t).value).Ok?
  {
    var d := Decay(t).value;
    assert d.chunks.Keys == t.chunks.Keys && d.visible == t.visible;
    forall s | 0 <= s < WindowSlots ensures Readable(d.visible[s], d.chunks) {
      assert Readable(t.visible[s], t.chunks);
    }
  }

  /** One chunk of Decay(t) is left as it is by a second decay. */
  lemma DecayChunkStable(t: Terrain, k: V2)
    requires |t.visible| == WindowSlots && Decay(t).Ok? && Decay(Decay(t).value).Ok?
    requires k in t.chunks
    ensures Decay(Decay(t).value).value.chunks[k] == Decay(t).value.chunks[k]
  {
    var d := Decay(t).value;
    assert DecayedFrom(d.chunks, t.chunks, t.visible, 0);
    assert DecayedFrom(Decay(d).value.chunks, d.chunks, d.visible, 0);
    DecayChunkIdempotent(t.chunks[k]);
  }

  // ------------------------------------------------------------ LOS painting

  /** An entity with a Transform and a LineOfSight component: its position
      (transform.pos.xy) and its LOS radius. */
  datatype Viewer = Viewer(pos: V2, los: int)

  /** updateLOS for viewers n, n + 1, ..., in registry order. No chunk is
      created, no material byte changes, and a byte at 255 stays at 255. */
  function PaintAll(t: Terrain, viewers: seq<Viewer>, n: nat): (r: Terrain)
    requires ChunksWellFormed(t.chunks)
    decreases |viewers| - n
    ensures r.chunkSize == t.chunkSize && r.visible == t.visible
    ensures r.chunks.Keys == t.chunks.Keys && ChunksWellFormed(r.chunks)
    ensures forall k | k in t.chunks ::
              r.chunks[k].origin == t.chunks[k].origin && r.chunks[k].material == t.chunks[k].material
    ensures forall k, o | k in t.chunks && 0 <= o < TilesPerChunk && t.chunks[k].los[o] == Seen ::
              r.chunks[k].los[o] == Seen
  {
    if n >= |viewers| then t
    else PaintAll(UpdateLOS(t, viewers[n].pos, viewers[n].los), viewers, n + 1)
  }

  /** GameSystem::LOS: decay the nine visible chunks, then paint around
      every viewer. */
  function LosTick(t: Terrain, viewers: seq<Viewer>): (r: Result<Terrain>)
    requires |t.visible| == WindowSlots && ChunksWellFormed(t.chunks)
    ensures r.Ok? <==> forall s | 0 <= s < WindowSlots :: Readable(t.visible[s], t.chunks)
    ensures r.Ok? ==> r.value.chunks.Keys == t.chunks.Keys
  {
    match Decay(t)
    case Undefined(why) => Undefined(why)
    case Ok(d) =>
      DecayWellFormed(t);
      Ok(PaintAll(d, viewers, 0))
  }

  /** updateLOS computes its stores from the chunk keys and the chunk size
      only, never from LOS contents. */
  lemma LosPaintsFrame(t1: Terrain, t2: Terrain, pos: V2, los: int)
    requires t1.chunkSize == t2.chunkSize && t1.chunks.Keys == t2.chunks.Keys
    ensures LosPaints(t1, pos, los) == LosPaints(t2, pos, los)
  {
    NeighbourhoodFrame(t1, t2, pos, los, 0);
  }

  lemma {:induction false} NeighbourhoodFrame(t1: Terrain, t2: Terrain, pos: V2, los: int, n: nat)
    requires t1.chunkSize == t2.chunkSize && t1.chunks.Keys == t2.chunks.Keys
    decreases 9 - n
    ensures NeighbourhoodPaints(t1, pos, los, n) == NeighbourhoodPaints(t2, pos, los, n)
  {
    if n < 9 {
      NeighbourFrame(t1, t2, pos, los, n / 3 - 1, n % 3 - 1);
      NeighbourhoodFrame(t1, t2, pos, los, n + 1);
    }
  }

  lemma NeighbourFrame(t1: Terrain, t2: Terrain, pos: V2, los: int, i: int, j: int)
    requires t1.chunkSize == t2.chunkSize && t1.chunks.Keys == t2.chunks.Keys
    ensures NeighbourPaints(t1, pos, los, i, j) == NeighbourPaints(t2, pos, los, i, j)
  {
    match NeighbourWindow(t1.chunkSize, pos, los, i, j)
    case None =>
    case Some(inter) =>
      assert GetChunkFromPos(t1, inter.pos) == GetChunkFromPos(t2, inter.pos);
      match GetChunkFromPos(t1, inter.pos)
      case None =>
      case Some(key) =>
        var tw := TileWidth(t1.chunkSize);
        GridFrame(t1, t2, key, inter, LosCircle(pos, los), 0, TruncToInt(inter.dim.x / tw), TruncToInt(inter.dim.y / tw));
  }

  lemma {:induction false} GridFrame(t1: Terrain, t2: Terrain, key: V2, inter: Rect, c: Circle, i: int, nx: int, ny: int)
    requires t1.chunkSize == t2.chunkSize && t1.chunks.Keys == t2.chunks.Keys
    requires key in t1.chunks
    decreases nx - i
    ensures GridPaints(t1, key, inter, c, i, nx, ny) == GridPaints(t2, key, inter, c, i, nx, ny)
  {
    if i < nx {
      ColumnFrame(t1, t2, key, inter, c, i, 0, ny);
      GridFrame(t1, t2, key, inter, c, i + 1, nx, ny);
    }
  }

  lemma {:induction false} ColumnFrame(t1: Terrain, t2: Terrain, key: V2, inter: Rect, c: Circle, i: int, j: int, ny: int)
    requires t1.chunkSize == t2.chunkSize && t1.chunks.Keys == t2.chunks.Keys
    requires key in t1.chunks
    decreases ny - j
    ensures ColumnPaints(t1, key, inter, c, i, j, ny) == ColumnPaints(t2, key, inter, c, i, j, ny)
  {
    if j < ny {
      ColumnFrame(t1, t2, key, inter, c, i, j + 1, ny);
    }
  }

  /** The terrain updateLOS sees for viewer n: viewers m .. n - 1 applied. */
  function PaintBefore(t: Terrain, viewers: seq<Viewer>, m: nat, n: nat): (r: Terrain)
    requires ChunksWellFormed(t.chunks)
    requires m <= n <= |viewers|
    decreases n - m
    ensures r.chunkSize == t.chunkSize && r.chunks.Keys == t.chunks.Keys && ChunksWellFormed(r.chunks)
  {
    if m == n then t
    else PaintBefore(UpdateLOS(t, viewers[m].pos, viewers[m].los), viewers, m + 1, n)
  }

  /** A byte that viewer n paints is 255 after all viewers from m on. */
  lemma {:induction false} PaintAllKeepsPainted(t: Terrain, viewers: seq<Viewer>, m: nat, n: nat, k: V2, o: int)
    requires ChunksWellFormed(t.chunks)
    requires m <= n < |viewers| && k in t.chunks && 0 <= o < TilesPerChunk
    requires Painted(LosPaints(PaintBefore(t, viewers, m, n), viewers[n].pos, viewers[n].los), k, o)
    decreases n - m
    ensures PaintAll(t, viewers, m).chunks[k].los[o] == Seen
  {
    var u := UpdateLOS(t, viewers[m].pos, viewers[m].los);
    assert PaintAll(t, viewers, m) == PaintAll(u, viewers, m + 1);
    if m == n {
      assert u.chunks[k].los[o] == Seen;
    } else {
      assert PaintBefore(t, viewers, m, n) == PaintBefore(u, viewers, m + 1, n);
      PaintAllKeepsPainted(u, viewers, m + 1, n, k, o);
    }
  }

  /** Decay runs before any painting in a tick, so every tile a viewer
      paints this tick ends the tick at 255. */
  lemma PaintedThisTickEndsSeen(t: Terrain, viewers: seq<Viewer>, n: nat, k: V2, o: int)
    requires |t.visible| == WindowSlots && ChunksWellFormed(t.chunks)
    requires LosTick(t, viewers).Ok?
    requires n < |viewers| && k in t.chunks && 0 <= o < TilesPerChunk
    requires Painted(LosPaints(t, viewers[n].pos, viewers[n].los), k, o)
    ensures LosTick(t, viewers).value.chunks[k].los[o] == Seen
  {
    var d := Decay(t).value;
    DecayWellFormed(t);
    assert LosTick(t, viewers).value == PaintAll(d, viewers, 0);
    LosPaintsFrame(t, PaintBefore(d, viewers, 0, n), viewers[n].pos, viewers[n].los);
    PaintAllKeepsPainted(d, viewers, 0, n, k, o);
  }

  // ------------------------------------------------------- terrain generation

  /** The points terrainGeneration creates chunks at: camera target +
      (i * 100, j * 100), as written (not chunk_size * i). */
  function GenerationPoint(target: V2, d: Offset): V2
  {
    V2(target.x + d.i as real * 100.0, target.y + d.j as real * 100.0)
  }

  /** A neighbour offset (i, j), each in -1 .. 1. */
  datatype Offset = Offset(i: int, j: int)

  /** The offset of the n-th iteration of the i-outer, j-inner double loop. */
  function SlotOffset(n: int): Offset
  {
    Offset(n / 3 - 1, n % 3 - 1)
  }

  /** Every offset is visited, at iteration 3 * i + j + 4. */
  lemma SlotOffsetOnto(i: int, j: int)
    requires -1 <= i <= 1 && -1 <= j <= 1
    ensures 0 <= 3 * i + j + 4 < 9 && SlotOffset(3 * i + j + 4) == Offset(i, j)
  {
    assert 3 * i + j + 4 == 3 * (i + 1) + (j + 1);
  }

  /** The chunk origins of the generation points of slots n .. 8. */
  function GenerationOrigins(target: V2, cs: ChunkSize, n: nat): set<V2>
  {
    set m | n <= m < 9 :: Origin(GenerationPoint(target, SlotOffset(m)), cs)
  }

  /** The createChunk calls of terrainGeneration for slots n .. 8, i outer and
      j inner: slot n is (n / 3 - 1, n % 3 - 1). Exactly the origins of those
      slots are added, each holding the chunk generated for it. */
  function CreateAround(t: Terrain, target: V2, gen: V2 -> Chunk, n: nat): (r: Terrain)
    decreases 9 - n
    ensures r.chunkSize == t.chunkSize && r.visible == t.visible
    ensures t.chunks.Keys <= r.chunks.Keys
    ensures forall k | k in t.chunks :: r.chunks[k] == t.chunks[k]
    ensures forall m | n <= m < 9 :: Origin(GenerationPoint(target, SlotOffset(m)), t.chunkSize) in r.chunks
    ensures r.chunks.Keys == t.chunks.Keys + GenerationOrigins(target, t.chunkSize, n)
    ensures forall k | k in r.chunks && k !in t.chunks :: r.chunks[k] == gen(k)
  {
    if n >= 9 then
      assert GenerationOrigins(target, t.chunkSize, n) == {};
      t
    else
      var origins := GenerationOrigins(target, t.chunkSize, n);
      var o := Origin(GenerationPoint(target, SlotOffset(n)), t.chunkSize);
      assert origins == {o} + GenerationOrigins(target, t.chunkSize, n + 1);
      CreateAround(CreateChunk(t, GenerationPoint(target, SlotOffset(n)), gen), target, gen, n + 1)
  }

  /** GameSystem::terrainGeneration as written: create the nine chunks
      around the target, then getVisible, which leaves every slot
      indeterminate. */
  function TerrainGeneration(t: Terrain, target: V2, gen: V2 -> Chunk): (r: Terrain)
    ensures r.chunkSize == t.chunkSize && t.chunks.Keys <= r.chunks.Keys
    ensures |r.visible| == WindowSlots && forall s | 0 <= s < WindowSlots :: r.visible[s].Garbage?
  {
    GetVisible(CreateAround(t, target, gen, 0), target)
  }

  /** terrainGeneration with the evidently intended getVisible. */
  function TerrainGenerationIntended(t: Terrain, target: V2, gen: V2 -> Chunk): (r: Terrain)
    ensures r.chunkSize == t.chunkSize && t.chunks.Keys <= r.chunks.Keys
    ensures |r.visible| == WindowSlots
  {
    GetVisibleIntended(CreateAround(t, target, gen, 0), target)
  }

  /** With getVisible as written, the LOS tick that follows terrain
      generation in every frame dereferences an indeterminate pointer. */
  lemma TickAfterGenerationIsUndefined(t: Terrain, target: V2, gen: V2 -> Chunk, viewers: seq<Viewer>)
    requires ChunksWellFormed(TerrainGeneration(t, target, gen).chunks)
    ensures LosTick(TerrainGeneration(t, target, gen), viewers).Undefined?
  {
    assert !Readable(TerrainGeneration(t, target, gen).visible[0], TerrainGeneration(t, target, gen).chunks);
  }

  /** terrainGeneration creates the chunk around each of its nine points. */
  lemma CreatedAround(t: Terrain, target: V2, gen: V2 -> Chunk, i: int, j: int)
    requires -1 <= i <= 1 && -1 <= j <= 1
    ensures Origin(GenerationPoint(target, Offset(i, j)), t.chunkSize) in CreateAround(t, target, gen, 0).chunks
  {
    SlotOffsetOnto(i, j);
    CreatedSlot(t, target, gen, 3 * i + j + 4);
  }

  lemma CreatedSlot(t: Terrain, target: V2, gen: V2 -> Chunk, m: int)
    requires 0 <= m < 9
    ensures Origin(GenerationPoint(target, SlotOffset(m)), t.chunkSize) in CreateAround(t, target, gen, 0).chunks
  {
  }

  /** At the scene's chunk size of 100, window point (i, j) is the point
      terrainGeneration created a chunk for. */
  lemma WindowPointIsGenerationPoint(target: V2, cs: ChunkSize, i: int, j: int)
    requires cs == 100
    ensures WindowPoint(target, cs, i, j) == GenerationPoint(target, Offset(i, j))
  {
    assert cs as real == 100.0;
    calc {
      cs as real * i as real;
      100.0 * i as real;
      i as real * 100.0;
    }
    calc {
      cs as real * j as real;
      100.0 * j as real;
      j as real * 100.0;
    }
  }

  /** With the chunk size of 100 that the scene uses, the intended window
      after terrain generation points at nine stored chunks, so the
      following LOS tick is defined. */
  lemma GenerationFillsWindow(t: Terrain, target: V2, gen: V2 -> Chunk, viewers: seq<Viewer>)
    requires t.chunkSize == 100
    requires ChunksWellFormed(TerrainGenerationIntended(t, target, gen).chunks)
    ensures forall s | 0 <= s < WindowSlots ::
              Readable(TerrainGenerationIntended(t, target, gen).visible[s], TerrainGenerationIntended(t, target, gen).chunks)
    ensures LosTick(TerrainGenerationIntended(t, target, gen), viewers).Ok?
  {
    GenerationWindowReadable(t, target, gen);
  }

  /** After the intended terrain generation every window slot is readable. */
  lemma GenerationWindowReadable(t: Terrain, target: V2, gen: V2 -> Chunk)
    requires t.chunkSize == 100
    ensures forall s | 0 <= s < WindowSlots ::
              Readable(TerrainGenerationIntended(t, target, gen).visible[s], TerrainGenerationIntended(t, target, gen).chunks)
  {
    var c := CreateAround(t, target, gen, 0);
    var r := TerrainGenerationIntended(t, target, gen);
    assert r == GetVisibleIntended(c, target);
    forall s | 0 <= s < WindowSlots ensures Readable(r.visible[s], r.chunks) {
      WindowSlotFilled(t, target, gen, s);
    }
  }

  /** Window slot s after the intended getVisible points at a created chunk. */
  lemma WindowSlotFilled(t: Terrain, target: V2, gen: V2 -> Chunk, s: int)
    requires t.chunkSize == 100 && 0 <= s < WindowSlots
    ensures Readable(GetVisibleIntended(CreateAround(t, target, gen, 0), target).visible[s], CreateAround(t, target, gen, 0).chunks)
  {
    var i, j := s % 3 - 1, s / 3 - 1;
    assert WindowIndex(i, j) == s;
    WindowPointCreated(t, target, gen, i, j);
    IntendedSlotReadable(CreateAround(t, target, gen, 0), target, i, j);
  }

  /** The chunk around window point (i, j) was created. */
  lemma WindowPointCreated(t: Terrain, target: V2, gen: V2 -> Chunk, i: int, j: int)
    requires t.chunkSize == 100 && -1 <= i <= 1 && -1 <= j <= 1
    ensures Origin(WindowPoint(target, t.chunkSize, i, j), t.chunkSize) in CreateAround(t, target, gen, 0).chunks
  {
    CreatedAround(t, target, gen, i, j);
    WindowPointIsGenerationPoint(target, t.chunkSize, i, j);
  }

  /** The intended getVisible points slot (i, j) at the chunk around its
      window point whenever that chunk exists. */
  lemma IntendedSlotReadable(c: Terrain, target: V2, i: int, j: int)
    requires -1 <= i <= 1 && -1 <= j <= 1
    requires Origin(WindowPoint(target, c.chunkSize, i, j), c.chunkSize) in c.chunks
    ensures Readable(GetVisibleIntended(c, target).visible[WindowIndex(i, j)], c.chunks)
  {
  }

  // ------------------------------------------------------- camera movement

  /** The W, A, S, D keys as read from the keyboard state. */
  datatype Keys = Keys(w: bool, a: bool, s: bool, d: bool)

  /** The ortho-mode move directions of W, A, S and D. */
  const DirW: V3 := V3(-1.0, -1.0, 0.0)
  const DirA: V3 := V3(1.0, -1.0, 0.0)
  const DirS: V3 := V3(1.0, 1.0, 0.0)
  const DirD: V3 := V3(-1.0, 1.0, 0.0)

  /** No movement. */
  const Still: V3 := V3(0.0, 0.0, 0.0)

  /** The direction a key contributes: its own when held, none otherwise. */
  function KeyDirection(pressed: bool, dir: V3): V3
  {
    if pressed then dir else Still
  }

  /** Move by `dir` when `pressed`. */
  function MoveIf(c: Camera, pressed: bool, dir: V3): (r: Camera)
    ensures r.target == Add3(c.target, Scale3(KeyDirection(pressed, dir), c.moveSpeed))
    ensures r.position == Add3(c.position, Scale3(KeyDirection(pressed, dir), c.moveSpeed))
    ensures r == c.(position := r.position, target := r.target)
  {
    if pressed then Move(c, dir) else c
  }

  /** The ortho branch of cameraMovement: W, A, S, D in that order. */
  function OrthoMove(c: Camera, k: Keys): (r: Camera)
    ensures ViewDirection(r) == ViewDirection(c)
  {
    MoveIf(MoveIf(MoveIf(MoveIf(c, k.w, DirW), k.a, DirA), k.s, DirS), k.d, DirD)
  }

  /** GameSystem::cameraMovement. In ortho mode each held key moves the
      camera; otherwise each held key calls rotateWithOrigin, whose
      trigonometry is passed in as `rotate`. */
  function CameraMovement(c: Camera, k: Keys, rotate: (Camera, V2) -> Camera): (r: Camera)
    ensures c.ortho ==> ViewDirection(r) == ViewDirection(c)
  {
    if c.ortho then OrthoMove(c, k)
    else
      var c1 := if k.w then rotate(c, V2(1.0, 0.0)) else c;
      var c2 := if k.a then rotate(c1, V2(0.0, -1.0)) else c1;
      var c3 := if k.s then rotate(c2, V2(-1.0, 0.0)) else c2;
      if k.d then rotate(c3, V2(0.0, 1.0)) else c3
  }

  /** The sum of the held keys' directions. */
  function HeldDirection(k: Keys): V3
  {
    Add3(Add3(Add3(KeyDirection(k.w, DirW), KeyDirection(k.a, DirA)), KeyDirection(k.s, DirS)), KeyDirection(k.d, DirD))
  }

  /** Scaling distributes over the sum of two directions. */
  lemma ScaleAdd(a: V3, b: V3, s: real)
    ensures Add3(Scale3(a, s), Scale3(b, s)) == Scale3(Add3(a, b), s)
  {
    assert a.x * s + b.x * s == (a.x + b.x) * s;
    assert a.y * s + b.y * s == (a.y + b.y) * s;
    assert a.z * s + b.z * s == (a.z + b.z) * s;
  }

  /** Not moving is moving by the zero vector. */
  lemma MoveIfIsMove(c: Camera, pressed: bool, dir: V3)
    ensures MoveIf(c, pressed, dir) == Move(c, KeyDirection(pressed, dir))
  {
    if !pressed {
      assert Scale3(Still, c.moveSpeed) == Still;
    }
  }

  /** Four moves add up like two do. */
  lemma FourMovesAdd(c: Camera, d1: V3, d2: V3, d3: V3, d4: V3)
    ensures Move(Move(Move(Move(c, d1), d2), d3), d4).target
            == Add3(c.target, Scale3(Add3(Add3(Add3(d1, d2), d3), d4), c.moveSpeed))
  {
    MovesAdd(c, d1, d2);
    MovesAdd(Move(Move(c, d1), d2), d3, d4);
    ScaleAdd(Add3(d1, d2), Add3(d3, d4), c.moveSpeed);
    assert Add3(Add3(d1, d2), Add3(d3, d4)) == Add3(Add3(Add3(d1, d2), d3), d4);
  }

  /** In ortho mode the key effects add up: the target moves by
      move_speed * (sum of the held directions). */
  lemma OrthoMovementAdds(c: Camera, k: Keys, rotate: (Camera, V2) -> Camera)
    requires c.ortho
    ensures CameraMovement(c, k, rotate).target == Add3(c.target, Scale3(HeldDirection(k), c.moveSpeed))
  {
    var c1 := MoveIf(c, k.w, DirW);
    var c2 := MoveIf(c1, k.a, DirA);
    var c3 := MoveIf(c2, k.s, DirS);
    MoveIfIsMove(c, k.w, DirW);
    MoveIfIsMove(c1, k.a, DirA);
    MoveIfIsMove(c2, k.s, DirS);
    MoveIfIsMove(c3, k.d, DirD);
    assert CameraMovement(c, k, rotate) == MoveIf(c3, k.d, DirD);
    FourMovesAdd(c, KeyDirection(k.w, DirW), KeyDirection(k.a, DirA), KeyDirection(k.s, DirS), KeyDirection(k.d, DirD));
  }

  /** Opposite keys cancel: with W held exactly when S is and A exactly
      when D is, the camera stays where it was. */
  lemma OppositeKeysCancel(c: Camera, k: Keys, rotate: (Camera, V2) -> Camera)
    requires c.ortho
    requires k.w == k.s && k.a == k.d
    ensures CameraMovement(c, k, rotate) == c
  {
    assert CameraMovement(c, k, rotate) == OrthoMove(c, k);
    OrthoMoveCancels(c, k);
  }

  lemma OrthoMoveCancels(c: Camera, k: Keys)
    requires k.w == k.s && k.a == k.d
    ensures OrthoMove(c, k) == c
  {
    var s := c.moveSpeed;
    var c1 := MoveIf(c, k.w, DirW);
    var c2 := MoveIf(c1, k.a, DirA);
    var c3 := MoveIf(c2, k.s, DirS);
    assert OrthoMove(c, k) == MoveIf(c3, k.d, DirD);
    if k.w {
      assert c1 == c.(position := Add3(c.position, V3(-s, -s, 0.0)), target := Add3(c.target, V3(-s, -s, 0.0)));
    }
  }
}

=== FILE: term_renderer.dfy ===
/** DZTermRenderer (src/term_renderer.cpp): a character buffer of
    width x height cells with a per-cell foreground and background colour,
    a clamped cursor, and three drawing styles. Cell (x, y) lives at index
    y * width + x of each buffer.

    TermColor is declared in no header of the repository (include/
    term_renderer.h declares an older `Color`), so colours are opaque codes
    here; clear() writes the all-zero bit pattern, code 0. */
module TermRenderer {
  import opened Common

  /** A TermColor, by its underlying value. */
  type TermColor = nat

  /** The fill and stroke records: colours and a character. */
  datatype Style = Style(fg: TermColor, bg: TermColor, c: char)

  /** The text record: the colours putChar writes. */
  datatype TextColors = TextColors(fg: TermColor, bg: TermColor)

  datatype Cursor = Cursor(x: int, y: int)

  datatype Term = Term(width: int, height: int, fill: Style, stroke: Style, text: TextColors,
                       cursor: Cursor, display: seq<char>, fg: seq<TermColor>, bg: seq<TermColor>)

  /** The number of cells. */
  function Area(t: Term): int
  {
    t.width * t.height
  }

  /** Non-negative dimensions and buffers of width * height cells, as
      setDimensions allocates them. */
  predicate Valid(t: Term)
  {
    && 0 <= t.width && 0 <= t.height
    && |t.display| == Area(t) && |t.fg| == Area(t) && |t.bg| == Area(t)
  }

  /** The cell test of putChar. */
  predicate InRange(t: Term, x: int, y: int)
  {
    0 <= x < t.width && 0 <= y < t.height
  }

  /** The buffer index of cell (x, y). */
  function CellIndex(width: int, x: int, y: int): int
  {
    RowMajor(width, y, x)
  }

  /** Every cell has an index inside the buffers. */
  lemma CellIndexInRange(t: Term, x: int, y: int)
    requires Valid(t) && InRange(t, x, y)
    ensures 0 <= CellIndex(t.width, x, y) < Area(t)
  {
    RowMajorInRange(t.width, t.height, y, x);
  }

  /** Distinct cells have distinct indices. */
  lemma CellIndexInjective(t: Term, x1: int, y1: int, x2: int, y2: int)
    requires InRange(t, x1, y1) && InRange(t, x2, y2)
    ensures CellIndex(t.width, x1, y1) == CellIndex(t.width, x2, y2) <==> x1 == x2 && y1 == y2
  {
    RowMajorInjective(t.width, y1, x1, y2, x2);
  }

  /** The character at cell (x, y). */
  function CharAt(t: Term, x: int, y: int): char
    requires Valid(t) && InRange(t, x, y)
  {
    CellIndexInRange(t, x, y);
    t.display[CellIndex(t.width, x, y)]
  }

  /** The colours at cell (x, y). */
  function ColorsAt(t: Term, x: int, y: int): TextColors
    requires Valid(t) && InRange(t, x, y)
  {
    CellIndexInRange(t, x, y);
    TextColors(t.fg[CellIndex(t.width, x, y)], t.bg[CellIndex(t.width, x, y)])
  }

  /** std::min(std::max(v, 0), hi). */
  function Clamp(v: int, hi: int): (r: int)
    requires 0 <= hi
    ensures 0 <= r <= hi
    ensures 0 <= v <= hi ==> r == v
    ensures v < 0 ==> r == 0
    ensures hi < v ==> r == hi
  {
    var lo := if v < 0 then 0 else v;
    if hi < lo then hi else lo
  }

  /** setCursor: each coordinate is clamped into [0, width] and
      [0, height]; both upper bounds are inclusive, so the cursor may sit one
      past the last cell. Nothing else changes. */
  function SetCursor(t: Term, x: int, y: int): (r: Term)
    requires Valid(t)
    ensures r == t.(cursor := r.cursor)
    ensures 0 <= r.cursor.x <= t.width && 0 <= r.cursor.y <= t.height
    ensures 0 <= x <= t.width ==> r.cursor.x == x
    ensures 0 <= y <= t.height ==> r.cursor.y == y
    ensures x < 0 ==> r.cursor.x == 0
    ensures y < 0 ==> r.cursor.y == 0
    ensures t.width < x ==> r.cursor.x == t.width
    ensures t.height < y ==> r.cursor.y == t.height
  {
    t.(cursor := Cursor(Clamp(x, t.width), Clamp(y, t.height)))
  }

  /** moveCursor: setCursor of the shifted position. */
  function MoveCursor(t: Term, dx: int, dy: int): (r: Term)
    requires Valid(t)
    ensures r == t.(cursor := r.cursor)
    ensures 0 <= r.cursor.x <= t.width && 0 <= r.cursor.y <= t.height
    ensures 0 <= t.cursor.x + dx <= t.width ==> r.cursor.x == t.cursor.x + dx
    ensures 0 <= t.cursor.y + dy <= t.height ==> r.cursor.y == t.cursor.y + dy
  {
    SetCursor(t, t.cursor.x + dx, t.cursor.y + dy)
  }

  /** Clamping is idempotent: setting the cursor to where it already is
      changes nothing once it lies within bounds. */
  lemma SetCursorIdempotent(t: Term, x: int, y: int)
    requires Valid(t)
    ensures SetCursor(SetCursor(t, x, y), SetCursor(t, x, y).cursor.x, SetCursor(t, x, y).cursor.y) == SetCursor(t, x, y)
  {
  }

  /** setStroke overwrites the stroke record and nothing else. */
  function SetStroke(t: Term, fg: TermColor, bg: TermColor, c: char): (r: Term)
    ensures r.stroke.fg == fg && r.stroke.bg == bg && r.stroke.c == c
    ensures r.(stroke := t.stroke) == t
  {
    t.(stroke := Style(fg, bg, c))
  }

  /** setFill overwrites the fill record and nothing else. */
  function SetFill(t: Term, fg: TermColor, bg: TermColor, c: char): (r: Term)
    ensures r.fill.fg == fg && r.fill.bg == bg && r.fill.c == c
    ensures r.(fill := t.fill) == t
  {
    t.(fill := Style(fg, bg, c))
  }

  /** putChar: out of range it changes nothing; in range it writes c and
      the text colours at the cell's index and leaves every other index and
      every other field alone. */
  function PutChar(t: Term, c: char, x: int, y: int): (r: Term)
    requires Valid(t)
    ensures Valid(r)
    ensures r.(display := t.display, fg := t.fg, bg := t.bg) == t
    ensures !InRange(t, x, y) ==> r == t
    ensures InRange(t, x, y) ==>
              var k := CellIndex(t.width, x, y);
              && 0 <= k < Area(t)
              && r.display[k] == c && r.fg[k] == t.text.fg && r.bg[k] == t.text.bg
              && (forall j | 0 <= j < Area(t) && j != k ::
                    r.display[j] == t.display[j] && r.fg[j] == t.fg[j] && r.bg[j] == t.bg[j])
  {
    if x >= t.width || y >= t.height || x < 0 || y < 0 then t
    else
      CellIndexInRange(t, x, y);
      var k := CellIndex(t.width, x, y);
      t.(display := t.display[k := c], fg := t.fg[k := t.text.fg], bg := t.bg[k := t.text.bg])
  }

  /** putChar seen cell by cell: cell (x, y) shows c in the text colours,
      and every other cell keeps its character and colours. */
  lemma PutCharCell(t: Term, c: char, x: int, y: int, x2: int, y2: int)
    requires Valid(t) && InRange(t, x2, y2)
    ensures CharAt(PutChar(t, c, x, y), x2, y2) == (if x2 == x && y2 == y then c else CharAt(t, x2, y2))
    ensures ColorsAt(PutChar(t, c, x, y), x2, y2) == (if x2 == x && y2 == y then t.text else ColorsAt(t, x2, y2))
  {
    CellIndexInRange(t, x2, y2);
    if InRange(t, x, y) {
      CellIndexInjective(t, x, y, x2, y2);
    }
  }

  // ---------------------------------------------------------------------
  // write

  /** strlen: the index of the first NUL of a terminated buffer. */
  function StrLen(buf: seq<char>): (n: nat)
    requires '\0' in buf
    ensures n < |buf| && buf[n] == '\0'
    ensures '\0' !in buf[..n]
  {
    if buf[0] == '\0' then 0 else StrLen(buf[1..]) + 1
  }

  /** The loop of write over the characters s, with x0 the cursor column
      at entry: '\n' returns to column x0 on the next row without clamping
      the row; any other character is put at the cursor, which then moves
      one column right through moveCursor. */
  function WriteChars(t: Term, s: seq<char>, x0: int): (r: Term)
    requires Valid(t)
    ensures Valid(r)
    ensures r == t.(cursor := r.cursor, display := r.display, fg := r.fg, bg := r.bg)
    decreases |s|
  {
    if |s| == 0 then t
    else if s[0] == '\n' then WriteChars(t.(cursor := Cursor(x0, t.cursor.y + 1)), s[1..], x0)
    else WriteChars(MoveCursor(PutChar(t, s[0], t.cursor.x, t.cursor.y), 1, 0), s[1..], x0)
  }

  /** write(str) on a NUL-terminated buffer. */
  function Write(t: Term, buf: seq<char>): (r: Term)
    requires Valid(t) && '\0' in buf
    ensures Valid(r)
    ensures r == t.(cursor := r.cursor, display := r.display, fg := r.fg, bg := r.bg)
  {
    WriteChars(t, buf[..StrLen(buf)], t.cursor.x)
  }

  /** Writing a concatenation is writing its parts in turn (the entry
      column stays the one of the whole call). */
  lemma {:induction false} WriteAppend(t: Term, a: seq<char>, b: seq<char>, x0: int)
    requires Valid(t)
    ensures WriteChars(t, a + b, x0) == WriteChars(WriteChars(t, a, x0), b, x0)
    decreases |a|
  {
    if |a| == 0 {
      assert a + b == b;
    } else {
      assert (a + b)[1..] == a[1..] + b;
      assert (a + b)[0] == a[0];
      if a[0] == '\n' {
        WriteAppend(t.(cursor := Cursor(x0, t.cursor.y + 1)), a[1..], b, x0);
      } else {
        WriteAppend(MoveCursor(PutChar(t, a[0], t.cursor.x, t.cursor.y), 1, 0), a[1..], b, x0);
      }
    }
  }

  /** A newline ends the line: whatever the cursor was, it goes to
      column x0 of the next row, and nothing is drawn. */
  lemma NewlineGoesToNextRow(t: Term, x0: int)
    requires Valid(t)
    ensures WriteChars(t, ['\n'], x0).cursor == Cursor(x0, t.cursor.y + 1)
    ensures WriteChars(t, ['\n'], x0).display == t.display
  {
    assert ['\n'][1..] == [];
  }

  /** A row beyond the last one is reachable: a newline on the bottom
      bound leaves the cursor below the buffer, where putChar draws nothing. */
  lemma NewlineLeavesBuffer(t: Term)
    requires Valid(t) && t.cursor.y == t.height
    ensures WriteChars(t, ['\n'], t.cursor.x).cursor.y == t.height + 1
  {
    NewlineGoesToNextRow(t, t.cursor.x);
  }

  /** One line of text from cursor (x, y) within bounds: character k lands
      on cell (x + k, y) when that cell exists, characters running past the
      right edge are dropped, no other cell changes, and the cursor ends at
      column min(x + |s|, width) of the same row. */
  lemma {:induction false} WriteLine(t: Term, s: seq<char>, x0: int)
    requires Valid(t) && '\n' !in s
    requires 0 <= t.cursor.x <= t.width && 0 <= t.cursor.y <= t.height
    ensures WriteChars(t, s, x0).cursor
            == Cursor(if t.cursor.x + |s| <= t.width then t.cursor.x + |s| else t.width, t.cursor.y)
    ensures forall i, j | InRange(t, i, j) ::
              CharAt(WriteChars(t, s, x0), i, j)
              == (if j == t.cursor.y && t.cursor.x <= i < t.cursor.x + |s| then s[i - t.cursor.x] else CharAt(t, i, j))
    ensures forall i, j | InRange(t, i, j) ::
              ColorsAt(WriteChars(t, s, x0), i, j)
              == (if j == t.cursor.y && t.cursor.x <= i < t.cursor.x + |s| then t.text else ColorsAt(t, i, j))
    decreases |s|
  {
    if |s| > 0 {
      var t1 := PutChar(t, s[0], t.cursor.x, t.cursor.y);
      var t2 := MoveCursor(t1, 1, 0);
      assert '\n' !in s[1..] by {
        assert forall k | 0 <= k < |s[1..]| :: s[1..][k] == s[k + 1];
      }
      WriteLine(t2, s[1..], x0);
      forall i, j | InRange(t, i, j)
        ensures CharAt(t2, i, j) == (if i == t.cursor.x && j == t.cursor.y then s[0] else CharAt(t, i, j))
        ensures ColorsAt(t2, i, j) == (if i == t.cursor.x && j == t.cursor.y then t.text else ColorsAt(t, i, j))
      {
        PutCharCell(t, s[0], t.cursor.x, t.cursor.y, i, j);
      }
      forall i, j | InRange(t, i, j) && j == t.cursor.y && t.cursor.x + 1 <= i < t.cursor.x + |s|
        ensures t2.cursor.x == t.cursor.x + 1 && s[1..][i - t2.cursor.x] == s[i - t.cursor.x]
      {
      }
    }
  }

  // ---------------------------------------------------------------------
  // rect

  /** One putChar call of a drawing. */
  datatype Put = Put(c: char, x: int, y: int)

  /** A sequence of putChar calls, in order. */
  function PutAll(t: Term, ps: seq<Put>): (r: Term)
    requires Valid(t)
    ensures Valid(r)
    ensures r == t.(display := r.display, fg := r.fg, bg := r.bg)
    decreases |ps|
  {
    if |ps| == 0 then t else PutAll(PutChar(t, ps[0].c, ps[0].x, ps[0].y), ps[1..])
  }

  /** A cell no call touches keeps its contents; a cell that some call
      touches, with every call on it putting the same character ch, shows ch
      in the text colours. */
  lemma {:induction false} PutAllCell(t: Term, ps: seq<Put>, x: int, y: int, ch: char)
    requires Valid(t) && InRange(t, x, y)
    requires forall p | p in ps && p.x == x && p.y == y :: p.c == ch
    ensures (exists p | p in ps :: p.x == x && p.y == y) ==>
              CharAt(PutAll(t, ps), x, y) == ch && ColorsAt(PutAll(t, ps), x, y) == t.text
    ensures (forall p | p in ps :: p.x != x || p.y != y) ==>
              CharAt(PutAll(t, ps), x, y) == CharAt(t, x, y) && ColorsAt(PutAll(t, ps), x, y) == ColorsAt(t, x, y)
    decreases |ps|
  {
    if |ps| > 0 {
      var t1 := PutChar(t, ps[0].c, ps[0].x, ps[0].y);
      PutCharCell(t, ps[0].c, ps[0].x, ps[0].y, x, y);
      assert forall p | p in ps[1..] :: p in ps;
      PutAllCell(t1, ps[1..], x, y, ch);
      if exists p | p in ps[1..] :: p.x == x && p.y == y {
      } else if ps[0].x == x && ps[0].y == y {
      } else {
        forall p | p in ps
          ensures p.x != x || p.y != y
        {
          if p != ps[0] {
            var k :| 0 <= k < |ps| && ps[k] == p;
            assert ps[1..][k - 1] == p;
          }
        }
      }
    }
  }

  /** The first loop of rect, from column i: the top and bottom rows. */
  function TopBottom(s: char, cx: int, cy: int, w: int, h: int, width: int, i: int): (r: seq<Put>)
    ensures forall p | p in r ::
              p.c == s && i <= p.x < cx + w && p.x < width && (p.y == cy || p.y == cy + h - 1)
    decreases width - i
  {
    if i < cx + w && i < width then [Put(s, i, cy), Put(s, i, cy + h - 1)] + TopBottom(s, cx, cy, w, h, width, i + 1)
    else []
  }

  /** The second loop of rect, from row i: the left and right columns. */
  function Sides(s: char, cx: int, cy: int, w: int, h: int, height: int, i: int): (r: seq<Put>)
    ensures forall p | p in r ::
              p.c == s && i <= p.y < cy + h && p.y < height && (p.x == cx || p.x == cx + w - 1)
    decreases height - i
  {
    if i < cy + h && i < height then [Put(s, cx, i), Put(s, cx + w - 1, i)] + Sides(s, cx, cy, w, h, height, i + 1)
    else []
  }

  /** The inner loop of the third: column i, rows j .. cy + h - 2. */
  function Column(f: char, i: int, cy: int, h: int, j: int): (r: seq<Put>)
    ensures forall p | p in r :: p.c == f && p.x == i && j <= p.y < cy + h - 1
    decreases cy + h - 1 - j
  {
    if j < cy + h - 1 then [Put(f, i, j)] + Column(f, i, cy, h, j + 1) else []
  }

  /** The third loop of rect, from column i: the interior. */
  function Interior(f: char, cx: int, cy: int, w: int, h: int, i: int): (r: seq<Put>)
    ensures forall p | p in r :: p.c == f && i <= p.x < cx + w - 1 && cy + 1 <= p.y < cy + h - 1
    decreases cx + w - 1 - i
  {
    if i < cx + w - 1 then Column(f, i, cy, h, cy + 1) + Interior(f, cx, cy, w, h, i + 1) else []
  }

  /** Every row in range of column i is visited by Column. */
  lemma {:induction false} ColumnVisits(f: char, i: int, cy: int, h: int, j: int, y: int)
    requires j <= y < cy + h - 1
    ensures Put(f, i, y) in Column(f, i, cy, h, j)
    decreases cy + h - 1 - j
  {
    if j < y {
      ColumnVisits(f, i, cy, h, j + 1, y);
    }
  }

  lemma {:induction false} InteriorVisits(f: char, cx: int, cy: int, w: int, h: int, i: int, x: int, y: int)
    requires i <= x < cx + w - 1 && cy + 1 <= y < cy + h - 1
    ensures Put(f, x, y) in Interior(f, cx, cy, w, h, i)
    decreases cx + w - 1 - i
  {
    if i < x {
      InteriorVisits(f, cx, cy, w, h, i + 1, x, y);
    } else {
      ColumnVisits(f, i, cy, h, cy + 1, y);
    }
  }

  lemma {:induction false} TopBottomVisits(s: char, cx: int, cy: int, w: int, h: int, width: int, i: int, x: int, y: int)
    requires i <= x < cx + w && x < width && (y == cy || y == cy + h - 1)
    ensures exists p | p in TopBottom(s, cx, cy, w, h, width, i) :: p.x == x && p.y == y
    decreases width - i
  {
    if i < x {
      TopBottomVisits(s, cx, cy, w, h, width, i + 1, x, y);
      var p :| p in TopBottom(s, cx, cy, w, h, width, i + 1) && p.x == x && p.y == y;
      assert p in TopBottom(s, cx, cy, w, h, width, i);
    } else if y == cy {
      assert Put(s, i, cy) in TopBottom(s, cx, cy, w, h, width, i);
    } else {
      assert Put(s, i, cy + h - 1) in TopBottom(s, cx, cy, w, h, width, i);
    }
  }

  lemma {:induction false} SidesVisits(s: char, cx: int, cy: int, w: int, h: int, height: int, i: int, x: int, y: int)
    requires i <= y < cy + h && y < height && (x == cx || x == cx + w - 1)
    ensures exists p | p in Sides(s, cx, cy, w, h, height, i) :: p.x == x && p.y == y
    decreases height - i
  {
    if i < y {
      SidesVisits(s, cx, cy, w, h, height, i + 1, x, y);
      var p :| p in Sides(s, cx, cy, w, h, height, i + 1) && p.x == x && p.y == y;
      assert p in Sides(s, cx, cy, w, h, height, i);
    } else if x == cx {
      assert Put(s, cx, i) in Sides(s, cx, cy, w, h, height, i);
    } else {
      assert Put(s, cx + w - 1, i) in Sides(s, cx, cy, w, h, height, i);
    }
  }

  /** The putChar calls of rect(w, h), in the order its three loops make
      them. */
  function RectPuts(t: Term, w: int, h: int): seq<Put>
  {
    TopBottom(t.stroke.c, t.cursor.x, t.cursor.y, w, h, t.width, t.cursor.x)
    + Sides(t.stroke.c, t.cursor.x, t.cursor.y, w, h, t.height, t.cursor.y)
    + Interior(t.fill.c, t.cursor.x, t.cursor.y, w, h, t.cursor.x + 1)
  }

  /** rect(w, h) from the cursor: every drawing goes through putChar, so
      only the buffers change. */
  function Rect(t: Term, w: int, h: int): (r: Term)
    requires Valid(t)
    ensures Valid(r)
    ensures r == t.(display := r.display, fg := r.fg, bg := r.bg)
  {
    PutAll(t, RectPuts(t, w, h))
  }

  /** Cell (x, y) lies on the outline the first two loops of rect draw for
      a w x h rectangle with corner (cx, cy). */
  predicate OnBorder(cx: int, cy: int, w: int, h: int, x: int, y: int)
  {
    || (cx <= x < cx + w && (y == cy || y == cy + h - 1))
    || (cy <= y < cy + h && (x == cx || x == cx + w - 1))
  }

  /** Cell (x, y) lies strictly inside the outline. */
  predicate InInterior(cx: int, cy: int, w: int, h: int, x: int, y: int)
  {
    cx + 1 <= x < cx + w - 1 && cy + 1 <= y < cy + h - 1
  }

  /** What rect leaves in each cell: the fill character inside, the stroke
      character on the outline, and the old contents elsewhere; every cell
      it draws takes the text colours. */
  lemma RectCell(t: Term, w: int, h: int, x: int, y: int)
    requires Valid(t) && InRange(t, x, y)
    ensures var cx, cy := t.cursor.x, t.cursor.y;
            CharAt(Rect(t, w, h), x, y)
            == (if InInterior(cx, cy, w, h, x, y) then t.fill.c
                else if OnBorder(cx, cy, w, h, x, y) then t.stroke.c
                else CharAt(t, x, y))
    ensures var cx, cy := t.cursor.x, t.cursor.y;
            ColorsAt(Rect(t, w, h), x, y)
            == (if InInterior(cx, cy, w, h, x, y) || OnBorder(cx, cy, w, h, x, y) then t.text else ColorsAt(t, x, y))
  {
    var cx, cy := t.cursor.x, t.cursor.y;
    var ch := if InInterior(cx, cy, w, h, x, y) then t.fill.c else t.stroke.c;
    var ps := RectPuts(t, w, h);
    RectPutsAgree(t, w, h, x, y);
    RectPutsReach(t, w, h, x, y);
    PutAllCell(t, ps, x, y, ch);
  }

  /** The outline and the interior are disjoint, so every call of rect on
      one cell puts the same character. */
  lemma RectPutsAgree(t: Term, w: int, h: int, x: int, y: int)
    ensures var cx, cy := t.cursor.x, t.cursor.y;
            forall p | p in RectPuts(t, w, h) && p.x == x && p.y == y ::
              p.c == (if InInterior(cx, cy, w, h, x, y) then t.fill.c else t.stroke.c)
  {
    var cx, cy := t.cursor.x, t.cursor.y;
    var tb := TopBottom(t.stroke.c, cx, cy, w, h, t.width, cx);
    var sd := Sides(t.stroke.c, cx, cy, w, h, t.height, cy);
    var ir := Interior(t.fill.c, cx, cy, w, h, cx + 1);
    assert RectPuts(t, w, h) == tb + sd + ir;
  }

  /** rect calls putChar on exactly the cells of the outline and the
      interior (within the buffer's width and height for the outline). */
  lemma RectPutsReach(t: Term, w: int, h: int, x: int, y: int)
    requires InRange(t, x, y)
    ensures var cx, cy := t.cursor.x, t.cursor.y;
            (exists p | p in RectPuts(t, w, h) :: p.x == x && p.y == y)
            <==> InInterior(cx, cy, w, h, x, y) || OnBorder(cx, cy, w, h, x, y)
  {
    var cx, cy := t.cursor.x, t.cursor.y;
    var tb := TopBottom(t.stroke.c, cx, cy, w, h, t.width, cx);
    var sd := Sides(t.stroke.c, cx, cy, w, h, t.height, cy);
    var ir := Interior(t.fill.c, cx, cy, w, h, cx + 1);
    var ps := RectPuts(t, w, h);
    assert ps == tb + sd + ir;
    if InInterior(cx, cy, w, h, x, y) {
      InteriorVisits(t.fill.c, cx, cy, w, h, cx + 1, x, y);
      assert Put(t.fill.c, x, y) in ps;
    } else if OnBorder(cx, cy, w, h, x, y) {
      if cx <= x < cx + w && (y == cy || y == cy + h - 1) {
        TopBottomVisits(t.stroke.c, cx, cy, w, h, t.width, cx, x, y);
        var p :| p in tb && p.x == x && p.y == y;
        assert p in ps;
      } else {
        SidesVisits(t.stroke.c, cx, cy, w, h, t.height, cy, x, y);
        var p :| p in sd && p.x == x && p.y == y;
        assert p in ps;
      }
    }
  }

  // ---------------------------------------------------------------------
  // clear

  /** clear: every character becomes a space and every colour code 0. */
  function Clear(t: Term): (r: Term)
    requires Valid(t)
    ensures Valid(r)
    ensures r == t.(display := r.display, fg := r.fg, bg := r.bg)
    ensures forall k | 0 <= k < |r.display| :: r.display[k] == ' ' && r.fg[k] == 0 && r.bg[k] == 0
  {
    t.(display := seq(|t.display|, _ => ' '), fg := seq(|t.fg|, _ => 0), bg := seq(|t.bg|, _ => 0))
  }

  /** After clear every cell shows a space in colour 0 on colour 0, and a
      second clear changes nothing. */
  lemma ClearCells(t: Term, x: int, y: int)
    requires Valid(t) && InRange(t, x, y)
    ensures CharAt(Clear(t), x, y) == ' ' && ColorsAt(Clear(t), x, y) == TextColors(0, 0)
    ensures Clear(Clear(t)) == Clear(t)
  {
    CellIndexInRange(t, x, y);
  }
}

=== FILE: terrain_grid.dfy ===
/** The chunk grid of src/terrain.cpp: chunks of TILES_PER_SIDE x
    TILES_PER_SIDE tiles stored in a map keyed by their origin, the
    position -> origin and position -> tile-index arithmetic, the 3 x 3
    window of visible chunks and the upload of that window into one
    MegaChunkData block.

    Chunk pointers are modelled by the key of the chunk they point to
    (`Slot.Ptr`), a null pointer by `Slot.Null`, and an indeterminate
    pointer value by `Slot.Garbage`. */
module TerrainGrid {
  import opened Common
  import opened RealArith
  import opened Geometry

  /** TILES_PER_SIDE. */
  const TilesPerSide: int := 64

  /** Tiles in one chunk: the length of material_indices and los_indices,
      also used for TILES_PER_CHUNK, which no modelled file defines. */
  const TilesPerChunk: int := TilesPerSide * TilesPerSide

  /** Chunks in the visible window, and slots of MegaChunkData. */
  const WindowSlots: int := 9

  /** Terrain::chunk_size, taken to be a positive whole number of world units. */
  type ChunkSize = n: int | 0 < n witness 100

  /** The parts of a Chunk the terrain bookkeeping reads and writes: its
      origin (transform.pos) and its two per-tile byte arrays. */
  datatype Chunk = Chunk(origin: V2, material: seq<byte>, los: seq<byte>)

  /** Both per-tile arrays hold exactly T^2 bytes. */
  predicate WellFormed(c: Chunk)
  {
    |c.material| == TilesPerChunk && |c.los| == TilesPerChunk
  }

  /** A `Chunk*` as held in Terrain::visible. */
  datatype Slot = Null | Ptr(key: V2) | Garbage

  /** The state of Terrain that the bookkeeping touches. */
  datatype Terrain = Terrain(chunkSize: ChunkSize, chunks: map<V2, Chunk>, visible: seq<Slot>)

  /** Every stored chunk has full-size arrays. */
  predicate ChunksWellFormed(chunks: map<V2, Chunk>)
  {
    forall k | k in chunks :: WellFormed(chunks[k])
  }

  // ------------------------------------------------------------ chunk origin

  /** The index of the chunk cell containing x along one axis: floor(x / cs). */
  function Cell(x: real, cs: ChunkSize): int
  {
    (x / cs as real).Floor
  }

  /** The cell k * cs <= x < (k + 1) * cs, in whole-number form. */
  lemma CellBounds(x: real, cs: ChunkSize)
    ensures (Cell(x, cs) * cs) as real <= x < ((Cell(x, cs) + 1) * cs) as real
  {
    FloorDivBounds(x, cs as real);
    IntMulReal(Cell(x, cs), cs);
    IntMulReal(Cell(x, cs) + 1, cs);
    calc {
      ((Cell(x, cs) + 1) * cs) as real;
    == { IntMulReal(Cell(x, cs) + 1, cs); }
      (Cell(x, cs) + 1) as real * cs as real;
    ==
      Cell(x, cs) as real * cs as real + cs as real;
    }
  }

  /** A whole-number bracket determines the cell. */
  lemma CellUnique(x: real, cs: ChunkSize, k: int)
    requires (k * cs) as real <= x < ((k + 1) * cs) as real
    ensures Cell(x, cs) == k
  {
    IntMulReal(k, cs);
    calc {
      ((k + 1) * cs) as real;
    == { IntMulReal(k + 1, cs); }
      (k + 1) as real * cs as real;
    ==
      k as real * cs as real + cs as real;
    }
    FloorDivUnique(x, cs as real, k);
  }

  /** Truncating the float k * cs back to int is exact. */
  lemma TruncOfMultiple(k: int, cs: ChunkSize)
    ensures TruncToInt(k as real * cs as real) == k * cs
  {
    calc {
      TruncToInt(k as real * cs as real);
    == { IntMulReal(k, cs); }
      TruncToInt((k * cs) as real);
    == { TruncToIntExact(k * cs); }
      k * cs;
    }
  }

  /** One axis of Terrain::getChunkOriginFromPos: floor(x / cs) * cs,
      truncated through `int` and converted back. The result is the whole
      multiple of cs at or below x, less than one chunk below it. */
  function AxisOrigin(x: real, cs: ChunkSize): (o: real)
    ensures o == (Cell(x, cs) * cs) as real
    ensures o <= x < o + cs as real
  {
    TruncOfMultiple(Cell(x, cs), cs);
    CellBounds(x, cs);
    TruncToInt(Cell(x, cs) as real * cs as real) as real
  }

  /** Terrain::getChunkOriginFromPos. */
  function Origin(p: V2, cs: ChunkSize): (o: V2)
    ensures o.x <= p.x < o.x + cs as real && o.y <= p.y < o.y + cs as real
  {
    V2(AxisOrigin(p.x, cs), AxisOrigin(p.y, cs))
  }

  /** Where the `int` conversion of getChunkOriginFromPos is defined: for
      every coordinate at least one chunk above the least `int` and below
      2^31 the multiple fits 32 bits, and below the least `int` or at least
      one chunk above 2^31 it does not (AxisOrigin then gives the
      mathematical multiple where the source is undefined). */
  lemma OriginIntRange(x: real, cs: ChunkSize)
    ensures (-0x8000_0000 + cs) as real <= x < 0x8000_0000 as real ==> InInt32(Cell(x, cs) * cs)
    ensures x < -0x8000_0000 as real || (0x8000_0000 + cs) as real <= x ==> !InInt32(Cell(x, cs) * cs)
  {
    CellBounds(x, cs);
  }

  /** x is a whole multiple of the chunk size. */
  predicate IsMultiple(x: real, cs: ChunkSize)
  {
    x == (Cell(x, cs) * cs) as real
  }

  /** A point is a chunk origin when both coordinates are whole multiples of
      the chunk size. */
  predicate IsOrigin(o: V2, cs: ChunkSize)
  {
    IsMultiple(o.x, cs) && IsMultiple(o.y, cs)
  }

  /** The chunk origin is characterised by its bounds: a whole multiple
      k * cs with k * cs <= x < (k + 1) * cs is the origin of x. */
  lemma AxisOriginUnique(x: real, cs: ChunkSize, k: int)
    requires (k * cs) as real <= x < ((k + 1) * cs) as real
    ensures AxisOrigin(x, cs) == (k * cs) as real
  {
    CellUnique(x, cs, k);
  }

  /** The cell of k * cs is k. */
  lemma MultipleCell(k: int, cs: ChunkSize)
    ensures Cell((k * cs) as real, cs) == k
  {
    assert (k + 1) * cs == k * cs + cs;
    CellUnique((k * cs) as real, cs, k);
  }

  /** The origin is a whole multiple of the chunk size, and its own origin. */
  lemma AxisOriginIsMultiple(x: real, cs: ChunkSize)
    ensures IsMultiple(AxisOrigin(x, cs), cs)
    ensures AxisOrigin(AxisOrigin(x, cs), cs) == AxisOrigin(x, cs)
  {
    MultipleCell(Cell(x, cs), cs);
  }

  /** On one axis, x gets origin o exactly when it lies in [o, o + cs). */
  lemma AxisSameOriginIffSameCell(x: real, o: real, cs: ChunkSize)
    requires IsMultiple(o, cs)
    ensures AxisOrigin(x, cs) == o <==> o <= x < o + cs as real
  {
    var k := Cell(o, cs);
    assert (k + 1) * cs == k * cs + cs;
    if o <= x < o + cs as real {
      AxisOriginUnique(x, cs, k);
    }
  }

  /** getChunkOriginFromPos returns an origin, and is the identity on
      origins, so it is idempotent. */
  lemma OriginIdempotent(p: V2, cs: ChunkSize)
    ensures IsOrigin(Origin(p, cs), cs)
    ensures Origin(Origin(p, cs), cs) == Origin(p, cs)
  {
    AxisOriginIsMultiple(p.x, cs);
    AxisOriginIsMultiple(p.y, cs);
  }

  /** A point gets origin o exactly when it lies in the cs x cs cell whose
      corner is o. */
  lemma SameOriginIffSameCell(p: V2, o: V2, cs: ChunkSize)
    requires IsOrigin(o, cs)
    ensures Origin(p, cs) == o <==>
              o.x <= p.x < o.x + cs as real && o.y <= p.y < o.y + cs as real
  {
    AxisSameOriginIffSameCell(p.x, o.x, cs);
    AxisSameOriginIffSameCell(p.y, o.y, cs);
  }

  // ------------------------------------------------------ chunk map operations

  /** Terrain::createChunk: the chunk containing `pos` is generated by `gen`
      (the Chunk constructor, a function of the origin once the seed, chunk
      size and biome points are fixed) unless the map already holds it. */
  function CreateChunk(t: Terrain, pos: V2, gen: V2 -> Chunk): (r: Terrain)
    ensures r.chunkSize == t.chunkSize && r.visible == t.visible
    ensures Origin(pos, t.chunkSize) in r.chunks
    ensures Origin(pos, t.chunkSize) in t.chunks ==> r == t
    ensures Origin(pos, t.chunkSize) !in t.chunks ==>
              && r.chunks.Keys == t.chunks.Keys + {Origin(pos, t.chunkSize)}
              && r.chunks[Origin(pos, t.chunkSize)] == gen(Origin(pos, t.chunkSize))
    ensures forall k | k in t.chunks :: k in r.chunks && r.chunks[k] == t.chunks[k]
  {
    var origin := Origin(pos, t.chunkSize);
    if origin in t.chunks then t
    else t.(chunks := t.chunks[origin := gen(origin)])
  }

  /** Terrain::getChunkFromPos: the key of the chunk whose cell contains
      `pos`, or null when no such chunk has been created. */
  function GetChunkFromPos(t: Terrain, pos: V2): (r: Option<V2>)
    ensures r.Some? <==> Origin(pos, t.chunkSize) in t.chunks
    ensures r.Some? ==> r.value in t.chunks
    ensures r.Some? ==> r.value.x <= pos.x < r.value.x + t.chunkSize as real
    ensures r.Some? ==> r.value.y <= pos.y < r.value.y + t.chunkSize as real
  {
    var origin := Origin(pos, t.chunkSize);
    if origin in t.chunks then Some(origin) else None
  }

  /** After createChunk(pos), every point of that chunk's cell finds it, and
      creating it a second time changes nothing. */
  lemma CreateThenGet(t: Terrain, pos: V2, q: V2, gen: V2 -> Chunk)
    requires Origin(q, t.chunkSize) == Origin(pos, t.chunkSize)
    ensures GetChunkFromPos(CreateChunk(t, pos, gen), q) == Some(Origin(pos, t.chunkSize))
    ensures CreateChunk(CreateChunk(t, pos, gen), q, gen) == CreateChunk(t, pos, gen)
  {
  }

  /** createChunk never changes the answer of getChunkFromPos for a point
      that already had a chunk. */
  lemma CreatePreservesLookups(t: Terrain, pos: V2, q: V2, gen: V2 -> Chunk)
    requires GetChunkFromPos(t, q).Some?
    ensures GetChunkFromPos(CreateChunk(t, pos, gen), q) == GetChunkFromPos(t, q)
  {
  }

  // ------------------------------------------------------------- tile index

  /** glsl_mod: x - y * floor(x / y), the floored remainder, in [0, y). */
  function GlslMod(x: real, y: real): (r: real)
    requires 0.0 < y
    ensures 0.0 <= r < y
  {
    FloorDivBounds(x, y);
    x - y * (x / y).Floor as real
  }

  /** glsl_mod(x, chunk_size) is the offset of x from its chunk origin. */
  lemma GlslModIsOffsetInChunk(x: real, cs: ChunkSize)
    ensures GlslMod(x, cs as real) == x - AxisOrigin(x, cs)
  {
    calc {
      GlslMod(x, cs as real);
      x - cs as real * (x / cs as real).Floor as real;
      x - cs as real * Cell(x, cs) as real;
      x - Cell(x, cs) as real * cs as real;
    == { IntMulReal(Cell(x, cs), cs); }
      x - (Cell(x, cs) * cs) as real;
      x - AxisOrigin(x, cs);
    }
  }

  /** chunk_size / TILES_PER_SIDE. */
  function TileWidth(cs: ChunkSize): (w: real)
    ensures 0.0 < w && w * 64.0 == cs as real
  {
    cs as real / TilesPerSide as real
  }

  /** One axis of Terrain::getTileIndexFromPos: floor(glsl_mod(x, cs) / tile_width). */
  function TileCoord(x: real, cs: ChunkSize): (c: int)
    ensures 0 <= c < TilesPerSide
  {
    FloorBounds(GlslMod(x, cs as real) / TileWidth(cs));
    DivScaleBelow(GlslMod(x, cs as real), TileWidth(cs), 64.0);
    (GlslMod(x, cs as real) / TileWidth(cs)).Floor
  }

  /** Terrain::getTileIndexFromPos: y * T + x, always in [0, T^2). */
  function TileIndex(p: V2, cs: ChunkSize): (i: int)
    ensures 0 <= i < TilesPerChunk
    ensures i % TilesPerSide == TileCoord(p.x, cs) && i / TilesPerSide == TileCoord(p.y, cs)
  {
    TileCoord(p.y, cs) * TilesPerSide + TileCoord(p.x, cs)
  }

  /** One coordinate of a tile corner: c tile widths past the chunk origin. */
  function TileCorner(o: real, c: int, tileWidth: real): real
  {
    o + c as real * tileWidth
  }

  /** Chunk::getPosFromTileIndex: the corner of tile `index` (a u32) in the
      chunk with origin `origin`; column index % T, row index / T. */
  function PosFromTileIndex(origin: V2, index: nat, tileWidth: real): V2
  {
    V2(TileCorner(origin.x, index % TilesPerSide, tileWidth),
       TileCorner(origin.y, index / TilesPerSide, tileWidth))
  }

  /** Tile c of a chunk starts c tile widths, less than a chunk, past the origin. */
  lemma TileOffsetInChunk(c: int, cs: ChunkSize)
    requires 0 <= c < TilesPerSide
    ensures 0.0 <= c as real * TileWidth(cs) < cs as real
  {
    MulLeRight(0.0, c as real, TileWidth(cs));
    calc {
      c as real * TileWidth(cs);
    < { MulLtRight(c as real, 64.0, TileWidth(cs)); }
      64.0 * TileWidth(cs);
      cs as real;
    }
  }

  /** On one axis, origin + c * tile_width maps back to the tile coordinate c. */
  lemma TileCoordOfOffset(o: real, c: int, cs: ChunkSize)
    requires IsMultiple(o, cs)
    requires 0 <= c < TilesPerSide
    ensures TileCoord(o + c as real * TileWidth(cs), cs) == c
  {
    TileOffsetInChunk(c, cs);
    assert (Cell(o, cs) + 1) * cs == Cell(o, cs) * cs + cs;
    CellUnique(o + c as real * TileWidth(cs), cs, Cell(o, cs));
    GlslModIsOffsetInChunk(o + c as real * TileWidth(cs), cs);
    calc {
      GlslMod(o + c as real * TileWidth(cs), cs as real) / TileWidth(cs);
      (c as real * TileWidth(cs)) / TileWidth(cs);
    == { DivMulCancel(c as real, TileWidth(cs)); }
      c as real;
    }
  }

  /** On one axis, the corner of tile c maps back to the tile coordinate c. */
  lemma TileCoordRoundTrip(o: real, c: int, cs: ChunkSize)
    requires IsMultiple(o, cs)
    requires 0 <= c < TilesPerSide
    ensures TileCoord(TileCorner(o, c, TileWidth(cs)), cs) == c
  {
    TileCoordOfOffset(o, c, cs);
  }

  /** getTileIndexFromPos inverts getPosFromTileIndex for every tile index of
      every chunk whose origin is a multiple of the chunk size. */
  lemma TileIndexRoundTrip(origin: V2, index: nat, cs: ChunkSize)
    requires IsOrigin(origin, cs)
    requires index < TilesPerChunk
    ensures TileIndex(PosFromTileIndex(origin, index, TileWidth(cs)), cs) == index
  {
    PosTileCoords(origin, index, cs);
    TileIndexOfCoords(PosFromTileIndex(origin, index, TileWidth(cs)), cs,
                      index % TilesPerSide, index / TilesPerSide);
    DivModRecombine(index);
  }

  /** Both coordinates of a tile corner map back to the tile's column and row. */
  lemma PosTileCoords(origin: V2, index: nat, cs: ChunkSize)
    requires IsOrigin(origin, cs)
    requires index < TilesPerChunk
    ensures TileCoord(PosFromTileIndex(origin, index, TileWidth(cs)).x, cs) == index % TilesPerSide
    ensures TileCoord(PosFromTileIndex(origin, index, TileWidth(cs)).y, cs) == index / TilesPerSide
  {
    TileCoordRoundTrip(origin.x, index % TilesPerSide, cs);
    TileCoordRoundTrip(origin.y, index / TilesPerSide, cs);
  }

  /** getTileIndexFromPos is row * T + column. */
  lemma TileIndexOfCoords(p: V2, cs: ChunkSize, cx: int, cy: int)
    requires TileCoord(p.x, cs) == cx && TileCoord(p.y, cs) == cy
    ensures TileIndex(p, cs) == cy * TilesPerSide + cx
  {
  }

  /** index = (index / T) * T + index % T. */
  lemma DivModRecombine(index: int)
    ensures (index / TilesPerSide) * TilesPerSide + index % TilesPerSide == index
  {
  }

  /** On one axis, the corner of the tile getTileIndexFromPos picks for x is
      at most one tile width below x. */
  lemma AxisCornerContains(x: real, cs: ChunkSize)
    ensures TileCorner(AxisOrigin(x, cs), TileCoord(x, cs), TileWidth(cs)) <= x
    ensures x < TileCorner(AxisOrigin(x, cs), TileCoord(x, cs), TileWidth(cs)) + TileWidth(cs)
  {
    GlslModIsOffsetInChunk(x, cs);
    FloorDivBounds(GlslMod(x, cs as real), TileWidth(cs));
  }

  /** In the other direction, getPosFromTileIndex of getTileIndexFromPos(p),
      in p's own chunk, is the corner of the tile that contains p. */
  lemma TileCornerContainsPos(p: V2, cs: ChunkSize)
    ensures PosFromTileIndex(Origin(p, cs), TileIndex(p, cs), TileWidth(cs)).x <= p.x
    ensures p.x < PosFromTileIndex(Origin(p, cs), TileIndex(p, cs), TileWidth(cs)).x + TileWidth(cs)
    ensures PosFromTileIndex(Origin(p, cs), TileIndex(p, cs), TileWidth(cs)).y <= p.y
    ensures p.y < PosFromTileIndex(Origin(p, cs), TileIndex(p, cs), TileWidth(cs)).y + TileWidth(cs)
  {
    AxisCornerContains(p.x, cs);
    AxisCornerContains(p.y, cs);
    assert PosFromTileIndex(Origin(p, cs), TileIndex(p, cs), TileWidth(cs))
           == V2(TileCorner(AxisOrigin(p.x, cs), TileCoord(p.x, cs), TileWidth(cs)),
                 TileCorner(AxisOrigin(p.y, cs), TileCoord(p.y, cs), TileWidth(cs)));
  }

  // ------------------------------------------------------ the visible window

  /** Position of chunk offset (i, j), i and j in {-1, 0, 1}, in the 3 x 3
      window: (j + 1) * 3 + (i + 1). */
  function WindowIndex(i: int, j: int): (s: int)
    requires -1 <= i <= 1 && -1 <= j <= 1
    ensures 0 <= s < WindowSlots
  {
    (j + 1) * 3 + (i + 1)
  }

  /** Every window slot belongs to exactly one offset. */
  lemma WindowIndexBijective(s: int)
    requires 0 <= s < WindowSlots
    ensures exists i, j :: -1 <= i <= 1 && -1 <= j <= 1 && WindowIndex(i, j) == s
    ensures forall i, j, i2, j2 |
              && -1 <= i <= 1 && -1 <= j <= 1 && -1 <= i2 <= 1 && -1 <= j2 <= 1
              && WindowIndex(i, j) == s && WindowIndex(i2, j2) == s :: i == i2 && j == j2
  {
    assert WindowIndex(s % 3 - 1, s / 3 - 1) == s;
  }

  /** The point getVisible looks up for offset (i, j): the camera target
      moved by (chunk_size * i, chunk_size * j). */
  function WindowPoint(target: V2, cs: ChunkSize, i: int, j: int): V2
  {
    V2(target.x + cs as real * i as real, target.y + cs as real * j as real)
  }

  /** A looked-up chunk as a pointer slot: null when getChunkFromPos found none. */
  function SlotOf(found: Option<V2>): (s: Slot)
    ensures s.Null? <==> found.None?
    ensures found.Some? ==> s == Ptr(found.value)
  {
    match found
    case Some(k) => Ptr(k)
    case None => Null
  }

  /** The window getVisible computes before discarding it: slot (j+1)*3+(i+1)
      points to the chunk whose cell holds target + (cs * i, cs * j), or is
      null when that chunk has not been created. */
  function ComputeWindow(t: Terrain, target: V2): (w: seq<Slot>)
    ensures |w| == WindowSlots
    ensures forall i, j | -1 <= i <= 1 && -1 <= j <= 1 ::
              w[WindowIndex(i, j)] == SlotOf(GetChunkFromPos(t, WindowPoint(target, t.chunkSize, i, j)))
  {
    seq(WindowSlots, s requires 0 <= s < WindowSlots =>
      SlotOf(GetChunkFromPos(t, WindowPoint(target, t.chunkSize, s % 3 - 1, s / 3 - 1))))
  }

  /** Terrain::getVisible as written: the computed window is assigned to
      `visible` and then overwritten by the uninitialised local array
      `new_visible`, so every slot ends up indeterminate. */
  function GetVisible(t: Terrain, target: V2): (r: Terrain)
    ensures r.chunks == t.chunks && r.chunkSize == t.chunkSize
    ensures |r.visible| == WindowSlots
    ensures forall s | 0 <= s < WindowSlots :: r.visible[s].Garbage?
  {
    var computed := t.(visible := ComputeWindow(t, target));
    computed.(visible := seq(WindowSlots, _ => Garbage))
  }

  /** getVisible as evidently intended: keep the computed window. */
  function GetVisibleIntended(t: Terrain, target: V2): (r: Terrain)
    ensures r.chunks == t.chunks && r.chunkSize == t.chunkSize
    ensures |r.visible| == WindowSlots
    ensures forall i, j | -1 <= i <= 1 && -1 <= j <= 1 ::
              var q := WindowPoint(target, t.chunkSize, i, j);
              && (r.visible[WindowIndex(i, j)].Ptr? <==> Origin(q, t.chunkSize) in t.chunks)
              && (r.visible[WindowIndex(i, j)].Ptr? ==> r.visible[WindowIndex(i, j)].key == Origin(q, t.chunkSize))
    ensures forall s | 0 <= s < WindowSlots :: r.visible[s].Null? || Readable(r.visible[s], t.chunks)
  {
    t.(visible := ComputeWindow(t, target))
  }

  /** A slot whose chunk arrays may be read: a pointer to a stored chunk. */
  predicate Readable(s: Slot, chunks: map<V2, Chunk>)
  {
    s.Ptr? && s.key in chunks
  }

  // ------------------------------------------------------ MegaChunkData upload

  /** MegaChunkData: the material and LOS arrays of nine chunks. The source
      lays block i out at bytes [i * T^2, (i + 1) * T^2) of one flat array;
      here block i is element i. */
  datatype MegaChunk = MegaChunk(material: seq<seq<byte>>, los: seq<seq<byte>>)

  /** Nine blocks of T^2 bytes each. */
  predicate MegaWellFormed(m: MegaChunk)
  {
    && |m.material| == WindowSlots && |m.los| == WindowSlots
    && (forall s | 0 <= s < WindowSlots :: |m.material[s]| == TilesPerChunk)
    && (forall s | 0 <= s < WindowSlots :: |m.los[s]| == TilesPerChunk)
  }

  /** Terrain::updateUniforms: for each non-null slot i, copy that chunk's
      material and LOS arrays into block i; a null slot leaves block i as it
      was in the uninitialised local `init`. Testing an indeterminate
      pointer, or reading through a dangling one, is undefined behaviour. */
  method UpdateUniforms(chunks: map<V2, Chunk>, visible: seq<Slot>, init: MegaChunk)
    returns (r: Result<MegaChunk>)
    requires ChunksWellFormed(chunks)
    requires |visible| == WindowSlots
    requires MegaWellFormed(init)
    ensures r.Ok? <==> forall s | 0 <= s < WindowSlots :: visible[s].Null? || Readable(visible[s], chunks)
    ensures r.Ok? ==> MegaWellFormed(r.value)
    ensures r.Ok? ==> forall s | 0 <= s < WindowSlots ::
              && r.value.material[s] == (if visible[s].Ptr? then chunks[visible[s].key].material else init.material[s])
              && r.value.los[s] == (if visible[s].Ptr? then chunks[visible[s].key].los else init.los[s])
  {
    var mat := init.material;
    var los := init.los;
    var s := 0;
    while s < WindowSlots
      invariant 0 <= s <= WindowSlots
      invariant forall s' | 0 <= s' < s :: visible[s'].Null? || Readable(visible[s'], chunks)
      invariant |mat| == WindowSlots && |los| == WindowSlots
      invariant forall s' | 0 <= s' < s ::
                  && mat[s'] == (if visible[s'].Ptr? then chunks[visible[s'].key].material else init.material[s'])
                  && los[s'] == (if visible[s'].Ptr? then chunks[visible[s'].key].los else init.los[s'])
      invariant forall s' | s <= s' < WindowSlots :: mat[s'] == init.material[s'] && los[s'] == init.los[s']
    {
      match visible[s] {
        case Garbage =>
          return Undefined("updateUniforms tests an indeterminate visible pointer");
        case Null =>
        case Ptr(k) =>
          if k !in chunks {
            return Undefined("updateUniforms reads through a dangling visible pointer");
          }
          mat := mat[s := chunks[k].material];
          los := los[s := chunks[k].los];
      }
      s := s + 1;
    }
    return Ok(MegaChunk(mat, los));
  }
}

=== FILE: textures.dfy ===
/** Texture loading (src/asset.cpp:54-139, src/texture.cpp): the decoded
    image's bytes are reordered from RGB(A) to BGR(A), widened to four
    channels when they have one or three, and copied into a TextureData.

    The decoder (stbi_load) and the file search are not part of this
    model: the decoded image is an input, with `None` standing for a null
    result. Pixel i's byte b lies at RowMajor(channels, i, b). */
module Textures {
  import opened Common

  /** u32. */
  type u32 = x: int | 0 <= x < 0x1_0000_0000

  /** TextureData (include/texture.h): dimensions and an owned byte vector. */
  datatype TextureData = TextureData(width: u32, height: u32, numChannels: u32, data: seq<byte>)

  /** The element count the constructor copies: width * height *
      num_channels in u32 arithmetic, which wraps modulo 2^32. */
  function CopyLength(width: u32, height: u32, numChannels: u32): nat
  {
    (width * height * numChannels) % 0x1_0000_0000
  }

  /** TextureData::TextureData: the three dimensions are stored unchanged
      and data receives the first CopyLength bytes of the source, which the
      source pointer must provide. The vector is a copy: the result is a
      value, so releasing the source buffer afterwards leaves it alone. */
  function MakeTextureData(width: u32, height: u32, numChannels: u32, src: seq<byte>): (r: TextureData)
    requires CopyLength(width, height, numChannels) <= |src|
    ensures r.width == width && r.height == height && r.numChannels == numChannels
    ensures |r.data| == CopyLength(width, height, numChannels)
    ensures forall k | 0 <= k < |r.data| :: r.data[k] == src[k]
  {
    TextureData(width, height, numChannels, src[..CopyLength(width, height, numChannels)])
  }

  /** The copy reads only the bytes it keeps: sources that agree on them
      give equal textures, whatever follows. */
  lemma MakeTextureDataReadsPrefix(width: u32, height: u32, numChannels: u32, src1: seq<byte>, src2: seq<byte>)
    requires CopyLength(width, height, numChannels) <= |src1| && CopyLength(width, height, numChannels) <= |src2|
    requires src1[..CopyLength(width, height, numChannels)] == src2[..CopyLength(width, height, numChannels)]
    ensures MakeTextureData(width, height, numChannels, src1) == MakeTextureData(width, height, numChannels, src2)
  {
  }

  /** Without wrap-around, data holds exactly width * height *
      num_channels bytes. */
  lemma CopyLengthNoWrap(width: u32, height: u32, numChannels: u32)
    requires width * height * numChannels < 0x1_0000_0000
    ensures CopyLength(width, height, numChannels) == width * height * numChannels
  {
    assert 0 <= width * height by {
      assert 0 <= width && 0 <= height;
    }
    assert 0 <= width * height * numChannels by {
      assert 0 <= width * height && 0 <= numChannels;
    }
  }

  /** The byte std::reverse over bytes 0 .. 2 of a pixel moves to byte b:
      bytes 0 and 2 trade places, byte 1 (and byte 3) stay. */
  function Reversed(b: int): int
  {
    if b == 0 then 2 else if b == 2 then 0 else b
  }

  /** The first loop of the conversion (src/asset.cpp:82-91): for each of
      the n pixels of a 3- or 4-channel image, reverse bytes 0 .. 2, turning
      RGB(A) into BGR(A). */
  method SwapRedBlue(data: seq<byte>, n: nat, ch: int) returns (out: seq<byte>)
    requires (ch == 3 || ch == 4) && |data| == n * ch
    ensures |out| == |data|
    ensures forall i, b | 0 <= i < n && 0 <= b < ch ::
              0 <= RowMajor(ch, i, b) < |data| && 0 <= RowMajor(ch, i, Reversed(b)) < |data|
              && out[RowMajor(ch, i, b)] == data[RowMajor(ch, i, Reversed(b))]
  {
    out := data;
    var i := 0;
    while i < n
      invariant 0 <= i <= n && |out| == |data|
      invariant forall p, b | 0 <= p < n && 0 <= b < ch ::
                  0 <= RowMajor(ch, p, b) < |data|
                  && out[RowMajor(ch, p, b)] == (if p < i then data[RowMajor(ch, p, Reversed(b))] else data[RowMajor(ch, p, b)])
    {
      PixelBytes(ch, n, i);
      var lo := RowMajor(ch, i, 0);
      var hi := RowMajor(ch, i, 2);
      var a, c := out[lo], out[hi];
      out := out[lo := c][hi := a];
      forall p, b | 0 <= p < n && 0 <= b < ch
        ensures out[RowMajor(ch, p, b)]
                == (if p < i + 1 then data[RowMajor(ch, p, Reversed(b))] else data[RowMajor(ch, p, b)])
      {
        RowMajorInRange(ch, n, p, b);
        RowMajorInjective(ch, p, b, i, 0);
        RowMajorInjective(ch, p, b, i, 2);
      }
      i := i + 1;
    }
    forall i, b | 0 <= i < n && 0 <= b < ch
      ensures 0 <= RowMajor(ch, i, Reversed(b)) < |data|
    {
      RowMajorInRange(ch, n, i, Reversed(b));
    }
  }

  /** Pixel i's bytes 0 and 2 lie in the buffer. */
  lemma PixelBytes(ch: int, n: nat, i: int)
    requires (ch == 3 || ch == 4) && 0 <= i < n
    ensures 0 <= RowMajor(ch, i, 0) < n * ch && 0 <= RowMajor(ch, i, 2) < n * ch
  {
    RowMajorInRange(ch, n, i, 0);
    RowMajorInRange(ch, n, i, 2);
  }

  /** The widening of a 3-channel image (src/asset.cpp:93-107) into the
      fresh buffer `buffer` of 4n bytes: pixel i's three bytes are copied to
      bytes 4i .. 4i + 2, and byte 4i + 3 becomes 255. */
  method WidenThree(data: seq<byte>, n: nat, buffer: seq<byte>) returns (out: seq<byte>)
    requires |data| == 3 * n && |buffer| == 4 * n
    ensures |out| == 4 * n
    ensures forall i, b | 0 <= i < n && 0 <= b < 3 :: out[RowMajor(4, i, b)] == data[RowMajor(3, i, b)]
    ensures forall i | 0 <= i < n :: out[RowMajor(4, i, 3)] == 255
  {
    out := buffer;
    var i := 0;
    while i < n
      invariant 0 <= i <= n && |out| == 4 * n
      invariant forall p, b | 0 <= p < i && 0 <= b < 3 :: out[RowMajor(4, p, b)] == data[RowMajor(3, p, b)]
      invariant forall p | 0 <= p < i :: out[RowMajor(4, p, 3)] == 255
    {
      out := out[4 * i := data[3 * i]][4 * i + 1 := data[3 * i + 1]][4 * i + 2 := data[3 * i + 2]];
      out := out[4 * i + 3 := 255];
      i := i + 1;
    }
  }

  /** The widening of a 1-channel image (src/asset.cpp:109-121): pixel i's
      grey value fills bytes 4i .. 4i + 2, and byte 4i + 3 becomes 255. */
  method WidenGrey(data: seq<byte>, n: nat, buffer: seq<byte>) returns (out: seq<byte>)
    requires |data| == n && |buffer| == 4 * n
    ensures |out| == 4 * n
    ensures forall i, b | 0 <= i < n && 0 <= b < 3 :: out[RowMajor(4, i, b)] == data[i]
    ensures forall i | 0 <= i < n :: out[RowMajor(4, i, 3)] == 255
  {
    out := buffer;
    var i := 0;
    while i < n
      invariant 0 <= i <= n && |out| == 4 * n
      invariant forall p, b | 0 <= p < i && 0 <= b < 3 :: out[RowMajor(4, p, b)] == data[p]
      invariant forall p | 0 <= p < i :: out[RowMajor(4, p, 3)] == 255
    {
      out := out[4 * i := data[i]][4 * i + 1 := data[i]][4 * i + 2 := data[i]][4 * i + 3 := data[i]];
      out := out[4 * i + 3 := 255];
      i := i + 1;
    }
  }

  /** A decoded image: dimensions, the channel count the decoder reports,
      and its pixel bytes. */
  datatype Decoded = Decoded(width: int, height: int, channels: int, data: seq<byte>)

  /** The decoder's side of the bargain: non-negative s32 dimensions, one
      to four channels, channels bytes per pixel, and sizes small enough
      that the s32 products width * height * 4 in the conversion do not
      overflow. */
  predicate WellFormed(d: Decoded)
  {
    && 0 <= d.width < 0x8000_0000 && 0 <= d.height < 0x8000_0000 && 1 <= d.channels <= 4
    && d.width * d.height * 4 < 0x8000_0000
    && |d.data| == d.width * d.height * d.channels
  }

  /** The conversion block of getTexture (src/asset.cpp:81-121) on the
      n = width * height pixels, with `buffer` the 4n bytes a widening
      mallocs: 3 and 4 channels get red and blue swapped, 1 and 3 channels
      are widened to 4 with an opaque alpha, and any other count passes
      through unchanged. */
  method Convert(d: Decoded, buffer: seq<byte>) returns (channels: int, out: seq<byte>)
    requires WellFormed(d) && |buffer| == 4 * (d.width * d.height)
    ensures channels == (if d.channels in {1, 3, 4} then 4 else d.channels)
    ensures |out| == d.width * d.height * channels
    ensures d.channels !in {1, 3, 4} ==> out == d.data
    ensures d.channels == 4 ==>
              forall i, b | 0 <= i < d.width * d.height && 0 <= b < 4 ::
                out[RowMajor(4, i, b)] == d.data[RowMajor(4, i, Reversed(b))]
    ensures d.channels == 3 ==>
              && (forall i, b | 0 <= i < d.width * d.height && 0 <= b < 3 ::
                    out[RowMajor(4, i, b)] == d.data[RowMajor(3, i, Reversed(b))])
              && (forall i | 0 <= i < d.width * d.height :: out[RowMajor(4, i, 3)] == 255)
    ensures d.channels == 1 ==>
              && (forall i, b | 0 <= i < d.width * d.height && 0 <= b < 3 :: out[RowMajor(4, i, b)] == d.data[i])
              && (forall i | 0 <= i < d.width * d.height :: out[RowMajor(4, i, 3)] == 255)
  {
    var n := d.width * d.height;
    assert 0 <= n by {
      assert 0 <= d.width && 0 <= d.height;
    }
    channels, out := d.channels, d.data;
    if channels == 3 || channels == 4 {
      out := SwapRedBlue(out, n, channels);
    }
    if channels == 3 {
      var swapped := out;
      out := WidenThree(swapped, n, buffer);
      channels := 4;
      forall i, b | 0 <= i < n && 0 <= b < 3
        ensures out[RowMajor(4, i, b)] == d.data[RowMajor(3, i, Reversed(b))]
      {
        assert out[RowMajor(4, i, b)] == swapped[RowMajor(3, i, b)];
      }
    }
    if channels == 1 {
      out := WidenGrey(out, n, buffer);
      channels := 4;
    }
  }

  /** getTexture after the file has been decoded: a null decode gives
      nullopt; otherwise the converted bytes are copied into a TextureData
      whose num_channels is 4 for 1-, 3- and 4-channel images and the
      decoder's count otherwise (that case only logs a warning). The
      texture's bytes are the BGRA pixels the conversion produces. */
  method GetTexture(decoded: Option<Decoded>, buffer: seq<byte>) returns (r: Option<TextureData>)
    requires decoded.Some? ==> WellFormed(decoded.value) && |buffer| == 4 * (decoded.value.width * decoded.value.height)
    ensures decoded.None? <==> r.None?
    ensures decoded.Some? ==>
              var d := decoded.value;
              && r.value.width == d.width && r.value.height == d.height
              && r.value.numChannels == (if d.channels in {1, 3, 4} then 4 else d.channels)
              && |r.value.data| == d.width * d.height * r.value.numChannels
              && (d.channels !in {1, 3, 4} ==> r.value.data == d.data)
    ensures decoded.Some? && decoded.value.channels == 4 ==>
              forall i, b | 0 <= i < decoded.value.width * decoded.value.height && 0 <= b < 4 ::
                r.value.data[RowMajor(4, i, b)] == decoded.value.data[RowMajor(4, i, Reversed(b))]
    ensures decoded.Some? && decoded.value.channels == 3 ==>
              && (forall i, b | 0 <= i < decoded.value.width * decoded.value.height && 0 <= b < 3 ::
                    r.value.data[RowMajor(4, i, b)] == decoded.value.data[RowMajor(3, i, Reversed(b))])
              && (forall i | 0 <= i < decoded.value.width * decoded.value.height :: r.value.data[RowMajor(4, i, 3)] == 255)
    ensures decoded.Some? && decoded.value.channels == 1 ==>
              && (forall i, b | 0 <= i < decoded.value.width * decoded.value.height && 0 <= b < 3 ::
                    r.value.data[RowMajor(4, i, b)] == decoded.value.data[i])
              && (forall i | 0 <= i < decoded.value.width * decoded.value.height :: r.value.data[RowMajor(4, i, 3)] == 255)
  {
    if decoded.None? {
      return None;
    }
    var d := decoded.value;
    var channels, out := Convert(d, buffer);
    assert 0 <= d.width * d.height by {
      assert 0 <= d.width && 0 <= d.height;
    }
    assert d.width * d.height * channels <= d.width * d.height * 4 by {
      MulLeft(channels, 4, d.width * d.height);
    }
    CopyLengthNoWrap(d.width, d.height, channels);
    var td := MakeTextureData(d.width, d.height, channels, out);
    assert td.data == out;
    r := Some(td);
  }

  // ------------------------------------------------- the STBI_rgb load

  /** The bytes stbi_load(..., STBI_rgb) delivers for a w x h image: 3 per
      pixel, whatever channel count it reports for the file. */
  function RgbLoadLength(w: int, h: int): int
  {
    3 * (w * h)
  }

  /** Every byte the red/blue swap reads, for n pixels of `channels` bytes
      each, lies within a buffer of `len` bytes. */
  predicate SwapReadsWithin(len: int, n: int, channels: int)
  {
    forall i, b | 0 <= i < n && 0 <= b < 3 :: RowMajor(channels, i, b) < len
  }

  /** As written (src/asset.cpp:69-91 and 134, src/texture.cpp:7): an RGBA
      file loaded with STBI_rgb holds 3 bytes per pixel but reports 4
      channels, so the stride-4 swap reads past the buffer once there are
      two pixels, and the TextureData copy of w * h * 4 bytes does too. */
  lemma RgbaFileOverreads(w: int, h: int)
    requires 0 <= w && 0 <= h && w * h >= 2
    ensures !SwapReadsWithin(RgbLoadLength(w, h), w * h, 4)
    ensures w * h * 4 > RgbLoadLength(w, h)
  {
    var n := w * h;
    assert RowMajor(4, n - 1, 2) == 4 * n - 2;
  }

  /** Corrected: with num_channels reporting the 3 bytes per pixel the
      load delivers, every byte the swap reads is in the buffer, and the
      3-channel path of Convert widens it to BGRA. */
  lemma RgbReportedAsThreeStaysWithin(w: int, h: int)
    requires 0 <= w && 0 <= h
    ensures SwapReadsWithin(RgbLoadLength(w, h), w * h, 3)
  {
    var n := w * h;
    forall i, b | 0 <= i < n && 0 <= b < 3 ensures RowMajor(3, i, b) < RgbLoadLength(w, h) {
      assert RowMajor(3, i, b) == 3 * i + b;
    }
  }
}

=== FILE: vertex.dfy ===
/** Vertex (src/vertex.cpp): a record of homogeneous vectors, its two
    copy-with updates, and the tangent frame derived from the normal. The
    uv field and the padding are never set by these functions and are not
    part of this model. */
module Vertices {
  import opened Common
  import opened RealArith
  import opened Geometry

  /** glm::vec4. */
  datatype V4 = V4(x: real, y: real, z: real, w: real)

  /** glm::vec4(v, w). */
  function Extend(v: V3, w: real): (r: V4)
    ensures r.w == w
  {
    V4(v.x, v.y, v.z, w)
  }

  /** The .xyz() swizzle. */
  function Xyz(v: V4): V3
  {
    V3(v.x, v.y, v.z)
  }

  lemma XyzOfExtend(v: V3, w: real)
    ensures Xyz(Extend(v, w)) == v
  {
  }

  datatype Vertex = Vertex(pos: V4, normal: V4, tangent: V4, bitangent: V4, color: V4)

  /** Vertex::Vertex(pos, normal, color, tangent, bitangent): a position is
      a point (w = 1), every other vector a direction (w = 0). */
  function MakeVertex(pos: V3, normal: V3, color: V3, tangent: V3, bitangent: V3): (v: Vertex)
    ensures v.pos.w == 1.0
    ensures v.normal.w == 0.0 && v.tangent.w == 0.0 && v.bitangent.w == 0.0 && v.color.w == 0.0
    ensures Xyz(v.pos) == pos && Xyz(v.normal) == normal && Xyz(v.color) == color
    ensures Xyz(v.tangent) == tangent && Xyz(v.bitangent) == bitangent
  {
    Vertex(Extend(pos, 1.0), Extend(normal, 0.0), Extend(tangent, 0.0), Extend(bitangent, 0.0), Extend(color, 0.0))
  }

  /** Vertex::withPos: a copy that differs only in its position. */
  function WithPos(v: Vertex, pos: V3): (r: Vertex)
    ensures Xyz(r.pos) == pos && r.pos.w == 1.0
    ensures r == v.(pos := r.pos)
  {
    v.(pos := Extend(pos, 1.0))
  }

  /** Vertex::withColor: a copy that differs only in its colour, whose w is
      1 here although the constructor sets it to 0. */
  function WithColor(v: Vertex, color: V3): (r: Vertex)
    ensures Xyz(r.color) == color && r.color.w == 1.0
    ensures r == v.(color := r.color)
  {
    v.(color := Extend(color, 1.0))
  }

  /** A colour set by withColor is not the one the constructor would store. */
  lemma WithColorDiffersFromConstructor(pos: V3, normal: V3, color: V3, tangent: V3, bitangent: V3)
    ensures WithColor(MakeVertex(pos, normal, V3(0.0, 0.0, 0.0), tangent, bitangent), color).color
            != MakeVertex(pos, normal, color, tangent, bitangent).color
  {
  }

  const UnitY: V3 := V3(0.0, 1.0, 0.0)
  const UnitZ: V3 := V3(0.0, 0.0, 1.0)

  /** The tangent before normalisation: n x (0, 0, 1) when it is strictly
      longer than n x (0, 1, 0), otherwise (ties included) n x (0, 1, 0).
      Lengths are compared through their squares, which orders them the
      same way. */
  function TangentChoice(n: V3): (t: V3)
    ensures LengthSq3(Cross(n, UnitZ)) > LengthSq3(Cross(n, UnitY)) ==> t == Cross(n, UnitZ)
    ensures LengthSq3(Cross(n, UnitZ)) <= LengthSq3(Cross(n, UnitY)) ==> t == Cross(n, UnitY)
  {
    var c1 := Cross(n, UnitZ);
    var c2 := Cross(n, UnitY);
    if LengthSq3(c1) > LengthSq3(c2) then c1 else c2
  }

  /** The chosen tangent is orthogonal to the normal. */
  lemma TangentChoiceOrthogonal(n: V3)
    ensures Dot3(TangentChoice(n), n) == 0.0
  {
    CrossOrthogonal(n, UnitZ);
    CrossOrthogonal(n, UnitY);
  }

  /** The cross product is orthogonal to both factors. */
  lemma CrossOrthogonal(a: V3, b: V3)
    ensures Dot3(Cross(a, b), a) == 0.0 && Dot3(Cross(a, b), b) == 0.0
  {
  }

  /** The chosen tangent vanishes exactly for the zero normal, the one case
      in which glm::normalize divides by zero. */
  lemma TangentZeroIffNormalZero(n: V3)
    ensures TangentChoice(n) == V3(0.0, 0.0, 0.0) <==> n == V3(0.0, 0.0, 0.0)
  {
    if TangentChoice(n) == V3(0.0, 0.0, 0.0) {
      ZeroTangentNeedsZeroNormal(n);
    }
  }

  lemma ZeroTangentNeedsZeroNormal(n: V3)
    requires TangentChoice(n) == V3(0.0, 0.0, 0.0)
    ensures n == V3(0.0, 0.0, 0.0)
  {
    ZeroChoice(Cross(n, UnitZ), Cross(n, UnitY));
    assert Cross(n, UnitZ) == V3(n.y, -n.x, 0.0);
    assert Cross(n, UnitY) == V3(-n.z, 0.0, n.x);
  }

  /** If the longer-or-second of two vectors is zero, both are. */
  lemma ZeroChoice(c1: V3, c2: V3)
    requires (if LengthSq3(c1) > LengthSq3(c2) then c1 else c2) == V3(0.0, 0.0, 0.0)
    ensures c1 == V3(0.0, 0.0, 0.0) && c2 == V3(0.0, 0.0, 0.0)
  {
    LengthSqZeroIff(c1);
    LengthSqZeroIff(c2);
  }

  /** A squared length is never negative and vanishes only for zero. */
  lemma LengthSqZeroIff(v: V3)
    ensures 0.0 <= LengthSq3(v)
    ensures LengthSq3(v) == 0.0 <==> v == V3(0.0, 0.0, 0.0)
  {
    assert LengthSq3(v) == Sq(v.x) + Sq(v.y) + Sq(v.z);
    SqNonNeg(v.x);
    SqNonNeg(v.y);
    SqNonNeg(v.z);
    if LengthSq3(v) == 0.0 {
      SqZero(v.x);
      SqZero(v.y);
      SqZero(v.z);
    }
  }

  /** Vertex::calculateTangentAndBitangent, given the length m of the chosen
      tangent: the tangent is normalised, and the bitangent is tangent x
      normal. For the zero normal glm::normalize computes 0 * inversesqrt(0),
      so under IEEE arithmetic every component of both vectors is NaN; the
      model has no NaN components and returns None for that frame. */
  function CalculateTangentAndBitangent(v: Vertex, m: real): (r: Option<Vertex>)
    requires IsSqrt(LengthSq3(TangentChoice(Xyz(v.normal))), m)
    ensures r.None? <==> m == 0.0
    ensures r.Some? ==> r.value == v.(tangent := r.value.tangent, bitangent := r.value.bitangent)
    ensures r.Some? ==> Xyz(r.value.tangent) == Scale3(TangentChoice(Xyz(v.normal)), 1.0 / m)
    ensures r.Some? ==> Xyz(r.value.bitangent) == Cross(Xyz(r.value.tangent), Xyz(v.normal))
    ensures r.Some? ==> r.value.tangent.w == 0.0 && r.value.bitangent.w == 0.0
  {
    if m == 0.0 then None
    else
      var t := Scale3(TangentChoice(Xyz(v.normal)), 1.0 / m);
      Some(v.(tangent := Extend(t, 0.0), bitangent := Extend(Cross(t, Xyz(v.normal)), 0.0)))
  }

  /** The tangent frame is orthogonal: the tangent is orthogonal to the
      normal, and the bitangent to both. */
  lemma TangentFrameOrthogonal(v: Vertex, m: real)
    requires IsSqrt(LengthSq3(TangentChoice(Xyz(v.normal))), m)
    requires CalculateTangentAndBitangent(v, m).Some?
    ensures Dot3(Xyz(CalculateTangentAndBitangent(v, m).value.tangent), Xyz(v.normal)) == 0.0
    ensures Dot3(Xyz(CalculateTangentAndBitangent(v, m).value.bitangent), Xyz(v.normal)) == 0.0
    ensures Dot3(Xyz(CalculateTangentAndBitangent(v, m).value.bitangent),
                 Xyz(CalculateTangentAndBitangent(v, m).value.tangent)) == 0.0
  {
    var n := Xyz(v.normal);
    var t := Xyz(CalculateTangentAndBitangent(v, m).value.tangent);
    TangentChoiceOrthogonal(n);
    ScaledOrthogonal(TangentChoice(n), n, 1.0 / m);
    CrossOrthogonal(t, n);
  }

  /** Scaling keeps orthogonality. */
  lemma ScaledOrthogonal(a: V3, b: V3, k: real)
    requires Dot3(a, b) == 0.0
    ensures Dot3(Scale3(a, k), b) == 0.0
  {
    assert Dot3(Scale3(a, k), b) == k * Dot3(a, b);
  }
}
